=== FILE: README.md ===
# femtotest core in Dafny

femtotest is a single-file unit-test runner for .NET together with an `Assert`
class. This project models its core as pure functions and proves the promises
the runner and the assertions make.

- **The runner** (`Runner.RunInternal`, `RunTest`, `RunSetupTeardown`,
  `CreateInstance`, `StartTest`/`EndTest`, `Stats.Add`) walks an assembly's
  fixture types, then each `[TestFixture]` argument tuple, then the fixture
  instance, then each test method and each `[Test]` argument tuple. It keeps a
  stack of `Stats` counters: errors, warnings, passed tests and elapsed
  milliseconds. Every frame is added into its parent when it ends.
- **The attribute helpers** are `GetArguments`, `IsActive`, `HasActiveMethods`,
  `HasActive` and `IsTestFixture`. They decide what runs. One `Active` marker
  anywhere restricts the run to the active fixtures and methods, unless
  run-all is requested.
- **The diagnostics helpers** are `CountCommonPrefix`, `GetStringExtract`,
  `FormatValue` and `FormatArguments`. They build failure messages.
- **The assertions** are `Throw`, `AreEqual`/`AreNotEqual` (objects and
  strings), the relational asserts, `IsSubsetOf`/`IsNotSubsetOf`,
  `AreEquivalent`/`AreNotEquivalent`, `AllItemsAreUnique`, `AllItemsAreEqual`,
  `AllItemsAreNotNull`, `Throws` and `DoesNotThrow`.

Modules, one per file:

- `Values` (values.dfy) holds the runtime values an assertion compares, the
  elements a collection value enumerates,
  exceptions, completions and decimal text.
- `Format` (format.dfy) holds the `Utils` string helpers and `FormatValue`.
- `Matching` (matching.dfy) holds `IndexOf` and the greedy "find a partner and
  remove it" loop that the subset and equivalence asserts share.
- `Asserts` (asserts.dfy) holds the `Assert` class.
- `Catalogue` (catalogue.dfy) holds fixture types, methods, markers, the
  active predicates and the run plans.
- `StatsStack` (stats.dfy) holds `Stats`, the stats stack and the event trace
  the results writer receives.
- `Engine` (engine.dfy) holds `RunInternal` level by level, `RunTest` and
  `RunSetupTeardown`.

How the runtime is represented:

- Reflection is replaced by data. A fixture type is a record with its
  `[TestFixture]` markers, its public methods in `GetMethods()` order, and a
  constructor. A method is a record with its markers, its hook tags and its
  parameter count.
- Invoking a method or constructor is a function from the argument tuples to a
  `Completion` (normal, or raised exception) and the elapsed milliseconds.
  That function is supplied by the caller, so the proofs hold for every
  behaviour of the tests that depends only on their arguments. Behaviour that
  depends on state an earlier test left behind is outside the model.
- What the runner does is an `Effect`: the stats stack afterwards, the events
  sent to the writer (Start, Exception, Warning, End with the frame's stats),
  and the invocations made (constructor, hook, test body), in order.

Some failure messages are modelled exactly as written, even where they look
unintended:

- `AreNotEqual` reuses "Objects are not equal".
- `AreNotEqual` on strings reuses "Strings are not equal".
- `AreNotEquivalent` reuses "Collections are not equivalent".

## Model

| member | source | states |
|---|---|---|
| Values.IntToStringRoundTrip | src/FemtoTest.cs:386-387 | The decimal text shown for an int starts with '-' exactly when the value is negative, is digits otherwise, and parses back to the same int. |
| Values.NatToStringRoundTrip | src/FemtoTest.cs:386-387 | The digit text of a natural number parses back to that number. |
| StatsStack.PlusLaws | src/FemtoTest.cs:315-320 | Adding counters, as `Stats.Add` does, has zero as identity and is commutative and associative, so the order frames are folded in does not change totals. |
| StatsStack.AddOrderFree | src/FemtoTest.cs:315-320 | Merging frames with `Stats.Add` does not depend on the merge order. Each counter of the result is the sum of the merged counters. Merging an empty frame changes nothing. |
| StatsStack.Enclose | src/FemtoTest.cs:270-283 | StartTest followed by EndTest returns the stack to the caller's depth. The frames below and the current frame's target are unchanged. |
| StatsStack.EncloseEnds | src/FemtoTest.cs:270-283 | The writer sees Start(target, args) first and End(the popped frame's stats) last. |
| StatsStack.ChainBalanced | src/FemtoTest.cs:278-283 | Running two balanced stretches in sequence is balanced: the current frame grows by exactly what the events of both stretches report. |
| StatsStack.Bracket | src/FemtoTest.cs:270-283 | Pushing a fixture or assembly frame, running a balanced stretch in it, and popping it adds to the parent exactly the counts that the nested events report. |
| StatsStack.TestBracket | src/FemtoTest.cs:222-244 | A test frame holding only exception events adds its errors, passed count and elapsed time to the parent, and the trace reports exactly that. |
| StatsStack.ReportErrorBalanced | src/FemtoTest.cs:264-265 | Writing an exception and bumping Errors emits one exception event and reports one error. |
| StatsStack.ReportWarningBalanced | src/FemtoTest.cs:207-208 | Writing a warning and bumping Warnings reports exactly one warning. |
| StatsStack.ExceptionsReport | src/FemtoTest.cs:239-240 | A run of n exception events reports n errors and nothing else. |
| Catalogue.GetArguments | src/FemtoTest.cs:43-55 | A marker without a Source yields its literal Arguments as its only tuple. A marker with a Source yields the tuples its provider returns. |
| Catalogue.IsTestFixture | src/FemtoTest.cs:446-448 | Defines a test fixture type: a class, not abstract, with at least one TestFixture marker. |
| Catalogue.IsActiveType | src/FemtoTest.cs:454-456 | Defines an active type: one of its TestFixture markers is active. |
| Catalogue.IsActiveMethod | src/FemtoTest.cs:454-456 | Defines an active method: one of its Test markers is active. |
| Catalogue.HasActiveMethods | src/FemtoTest.cs:458-460 | Defines a type with active methods: one of its methods is active. |
| Catalogue.HasActive | src/FemtoTest.cs:462-464 | Defines a type with something active: the type itself, or one of its methods. |
| Catalogue.AssemblyHasActive | src/FemtoTest.cs:466-468 | Defines an assembly with something active: one of its types has something active. What a run does with these predicates is stated by Engine.RunStartsOnlyActive and Engine.NothingActiveRunsAll. |
| Catalogue.ExpandAppend | src/FemtoTest.cs:172-174 | Markers are expanded in declaration order. One more marker appends its own tuples, when it is selected, after those of the markers before it. |
| Catalogue.ExpandNothingActive | src/FemtoTest.cs:170-172 | Narrowed to active markers, a marker list with no active marker yields no tuple. That is why a type or method without an active marker is not narrowed. |
| Catalogue.ExpandSound | src/FemtoTest.cs:172-173 | Every argument tuple the run expands comes from some selected marker (active, or all are run) and is one of that marker's tuples. |
| Catalogue.ExpandComplete | src/FemtoTest.cs:204-205 | Every tuple of every selected marker is expanded. |
| Catalogue.ExpandLiteral | src/FemtoTest.cs:52-54 | Markers without a Source yield their literal Arguments as the single tuple, in marker order. |
| Catalogue.InvokeHook | src/FemtoTest.cs:254 | A hook invoked with no arguments but declaring parameters raises a parameter-count mismatch. |
| Catalogue.FirstFailingHookSpec | src/FemtoTest.cs:250-258 | The reference search finds the first matching hook that fails, and finds none exactly when no matching hook fails. |
| Catalogue.HooksBetweenSound | src/FemtoTest.cs:250-251 | Every selected hook index lies in range and is tagged for this setup/teardown and fixture/test level. |
| Catalogue.HooksBetweenComplete | src/FemtoTest.cs:250-251 | Every method in range tagged for this level is selected. |
| Catalogue.ScanHooksAgrees | src/FemtoTest.cs:248-268 | The hook loop runs the matching hooks in method order up to and including the first failure. It stops there with that failure, or runs them all. |
| Catalogue.HookScanCompletes | src/FemtoTest.cs:248-268 | RunSetupTeardown succeeds exactly when no matching hook fails, and then it has run every matching hook. |
| Catalogue.HookScanStops | src/FemtoTest.cs:248-268 | On failure, the last hook run is a matching hook that raised the reported exception, and every earlier method passed. |
| Catalogue.FittingPartition | src/FemtoTest.cs:205-212 | Every provided tuple is either run as a test or skipped with a warning, never both. |
| Catalogue.FittingSound | src/FemtoTest.cs:205-212 | A tuple that is run as a test has exactly the method's parameter count and comes from the provided tuples. |
| Catalogue.FittingComplete | src/FemtoTest.cs:205-212 | Every provided tuple whose length is the method's parameter count is run as a test. |
| Catalogue.MethodsPlanSound | src/FemtoTest.cs:194-213 | Every planned test names a method of the fixture that is selected (active, or all run), with a fitting tuple from its selected markers. |
| Catalogue.MethodsPlanComplete | src/FemtoTest.cs:194-213 | Every selected method with every fitting tuple of its selected markers is a planned test. |
| Catalogue.MethodsPlanExact | src/FemtoTest.cs:194-213 | A test is in an instance's plan exactly when it is a selected method with a fitting tuple of its selected markers. |
| Catalogue.TypesPlanSound | src/FemtoTest.cs:157-175 | Every planned fixture instance is a test fixture (class, not abstract, with a TestFixture marker) that has something active or runs in run-all mode. Its tuple comes from the fixture's selected markers. |
| Catalogue.TypesPlanComplete | src/FemtoTest.cs:157-175 | Every selected test fixture type is entered with every tuple of its selected markers. |
| Catalogue.TypesPlanExact | src/FemtoTest.cs:157-175 | A fixture instance is planned exactly when its type is a selected test fixture and its tuple comes from the type's selected markers. |
| Catalogue.InstancesTestsExact | src/FemtoTest.cs:172-198 | The instances of one type start exactly the planned tests of the type, and only when at least one instance is constructed and passes fixture setup. |
| Catalogue.TypesTestsExact | src/FemtoTest.cs:157-198 | A test is started exactly when some instance of a selected test fixture type is constructed, passes fixture setup, and plans it. A type's methods are narrowed to the active ones only when it has an active method. |
| Engine.NoticeTextNumbers | src/FemtoTest.cs:207 | The arity warning text carries the expected and the found parameter counts as decimal numbers that read back exactly. |
| Engine.RunSetupTeardownSpec | src/FemtoTest.cs:248-268 | RunSetupTeardown returns true exactly when the hook scan found no failure. It invokes exactly the hooks scanned. It reports the failure, if any, as one exception. |
| Engine.TestFrameSpec | src/FemtoTest.cs:222-244 | Inside its frame a test reports exactly its errors as exceptions, and ends with those errors, its passed count and its elapsed time. |
| Engine.FailedSetupFrame | src/FemtoTest.cs:226-228 | When a setup hook fails, the test reports that one error and nothing else, and does not pass. |
| Engine.PassedSetupFrame | src/FemtoTest.cs:230-243 | When setup succeeds, the test reports the body's exception and then a teardown failure. It passes only when the body completes. |
| Engine.RunTestCounts | src/FemtoTest.cs:222-244 | RunTest is balanced and adds to the parent exactly the test's errors, zero warnings, its passed count and its elapsed time. |
| Engine.TestErrorsBound | src/FemtoTest.cs:222-244 | A failed setup means exactly one error, no pass and no time. No test reports more than two errors. A passed test reports at most one (its teardown). |
| Engine.RunTestStarts | src/FemtoTest.cs:223 | A test run opens exactly one test frame, for its own method and arguments. |
| Engine.RunTestCalls | src/FemtoTest.cs:222-244 | Invocation order: the setup hooks, then (only if setup succeeded) the test body, then the teardown hooks. |
| Engine.TupleStepCounts | src/FemtoTest.cs:206-212 | A tuple of the wrong length gives one warning and no test. A tuple of the right length gives no warning. |
| Engine.TupleStepStarts | src/FemtoTest.cs:206-212 | A tuple of the right length starts exactly one test with that tuple. A tuple of the wrong length starts none. |
| Engine.RunTuplesCounts | src/FemtoTest.cs:204-213 | A method's tuple loop is balanced and reports one warning per tuple of the wrong length. |
| Engine.RunTuplesStarts | src/FemtoTest.cs:204-213 | The tests started are exactly the fitting tuples, in order. |
| Engine.RunMethodsCounts | src/FemtoTest.cs:194-196 | The methods loop is balanced, and its warnings are the misfit tuples of all selected methods. |
| Engine.RunMethodsStarts | src/FemtoTest.cs:194-196 | The tests started over all methods follow the fixture's method plan, in order. |
| Engine.RunInstanceCounts | src/FemtoTest.cs:187-199 | A failing fixture setup reports exactly one error and runs nothing else. Otherwise the warnings are the plan's misfits. |
| Engine.RunInstanceStarts | src/FemtoTest.cs:187-199 | A failing fixture setup starts no tests. Otherwise the started tests follow the method plan. |
| Engine.RunInstanceCalls | src/FemtoTest.cs:187-199 | The fixture setup hooks come first. When they succeed, the fixture teardown hooks come last. When they fail, nothing else is invoked. |
| Engine.RunFixtureInstanceCounts | src/FemtoTest.cs:176-183 | A constructor failure reports exactly one error. Otherwise the fixture frame reports what running the instance reports. |
| Engine.RunFixtureInstanceStarts | src/FemtoTest.cs:176-183 | Each instance opens one fixture frame for its arguments. Tests start only when construction and fixture setup both succeed, and then they are the instance's planned tests. |
| Engine.RunFixtureInstanceCalls | src/FemtoTest.cs:140-151 | The constructor is invoked first. If it raises, it is the only invocation. |
| Engine.RunInstancesCounts | src/FemtoTest.cs:172-175 | The loop over a fixture's argument tuples is balanced. |
| Engine.RunInstancesStarts | src/FemtoTest.cs:172-175 | One fixture frame is opened per argument tuple, in order. The tests started are, instance by instance, the planned tests of each instance that is constructed and passes fixture setup. |
| Engine.RunTypesCounts | src/FemtoTest.cs:160-162 | The loop over the assembly's types is balanced. |
| Engine.RunTypesStarts | src/FemtoTest.cs:160-175 | The fixture frames opened follow the types plan: each selected type's selected tuples, in order. The tests started are those instances' planned tests, with a type's methods narrowed only when it has an active method. |
| Engine.RunAssemblyCounts | src/FemtoTest.cs:157-164 | The assembly frame is balanced and the first event of its trace. Its last event carries exactly the totals the whole trace reports. |
| Engine.RunAssemblyStarts | src/FemtoTest.cs:157-164 | The fixture frames opened and the tests started follow the run plan. Run-all is switched on when no type in the assembly has anything active. |
| Engine.Run | src/FemtoTest.cs:94-137 | Starting from an empty root frame, the totals handed to the writer equal what the trace reports. The trace is bracketed by the assembly's Start and End. The fixture instances entered and the tests started are exactly those of the run plan. |
| Engine.RunStartsOnlyActive | src/FemtoTest.cs:157-198 | In a narrowed run with something active, every test started belongs to a type with something active. It is an active method, or a method of a type with no active method. Its tuple comes from the method's active markers, or from all of them when the type has no active method. |
| Engine.RunAllStartsEveryTest | src/FemtoTest.cs:157-213 | Run-all turns every filter off. Every test fixture type is entered with every tuple of every marker. Every instance that is constructed and passes fixture setup starts every method with every fitting tuple of every marker. |
| Engine.NothingActiveRunsAll | src/FemtoTest.cs:158-159 | When nothing in the assembly is active, a narrowed run is exactly a run-all run. |
| Format.CountCommonPrefix | src/FemtoTest.cs:428-434 | The result is within both lengths, all earlier positions agree (ordinally or ignoring case), and the position at the result differs when both strings have it. |
| Format.CommonPrefixUnique | src/FemtoTest.cs:428-434 | That characterisation has exactly one solution, the loop's result. |
| Format.CommonPrefixSymmetric | src/FemtoTest.cs:428-434 | The common prefix does not depend on argument order. |
| Format.CommonPrefixWithSelf | src/FemtoTest.cs:428-434 | A string shares its whole length with itself. |
| Format.CommonPrefixFullIffSameText | src/FemtoTest.cs:428-434 | The prefix covers both strings exactly when they are equal (ordinally or ignoring case). |
| Format.GetStringExtract | src/FemtoTest.cs:436-444 | The extract is at most 30 characters. It is marked "..." where cut. The character at the offset stays visible at a known position, together with the ten characters before it. |
| Format.EscapeAsWrittenIsEscape | src/FemtoTest.cs:382 | The five chained Replace calls equal a single per-character escape of quote, CR, LF, tab and NUL. |
| Format.EscapeHasNoRawControl | src/FemtoTest.cs:382 | The escaped text contains no raw CR, LF, tab or NUL. |
| Format.UnescapeEscape | src/FemtoTest.cs:382 | For text without backslashes, escaping can be undone, so the displayed string identifies the original. |
| Format.EscapeNotInjective | src/FemtoTest.cs:382 | Backslashes are not escaped, so a literal backslash-n and a newline display the same. |
| Format.FormatValue | src/FemtoTest.cs:376-403 | null shows as "null". Strings are quoted. An int or long shows as its decimal text. Booleans show as True or False. Dictionaries show in braces and other collections in brackets. An exception shows as `[type] message`, and any other object as `[type] ToString()`. |
| Format.FormatIntReadsBack | src/FemtoTest.cs:386-387 | The text shown for an int or long starts with '-' exactly when it is negative, is digits otherwise, and reads back as the same number. |
| Format.FormatStringIsQuotedEscape | src/FemtoTest.cs:380-384 | A string is displayed as its escape between double quotes, with no raw control character. |
| Format.FormatPlainString | src/FemtoTest.cs:380-384 | A string with nothing to escape is displayed verbatim between quotes. |
| Format.FormatItems | src/FemtoTest.cs:393-395 | A collection is displayed in square brackets: "[]" when empty, and one item as "[" + its own display + "]". |
| Format.JoinAppend | src/FemtoTest.cs:395 | Joining one more part appends the separator and that part. |
| Format.ListShowsItems | src/FemtoTest.cs:393-395 | A collection is displayed as its items' own displays, in order, joined by ", " between brackets. |
| Format.DictShowsEntries | src/FemtoTest.cs:389-391 | A dictionary is displayed as its entries, each "{ key, value }" with both displayed, in order, joined by ", " between braces. |
| Format.FormatListAppend | src/FemtoTest.cs:393-395 | One more item extends a collection's display by ", " and the item's display just before the closing bracket. |
| Format.FormatDictAppend | src/FemtoTest.cs:389-391 | One more entry extends a dictionary's display by ", " and the entry's "{ key, value }" just before the closing brace. |
| Format.FormatArguments | src/FemtoTest.cs:410-412 | Arguments display in parentheses. A missing or empty argument list displays as "()", and one argument as "(" + its display + ")". |
| Format.ArgumentsShowItems | src/FemtoTest.cs:410-412 | An argument list is displayed as each argument's display, in order, joined by ", " between parentheses. |
| Format.ArgumentsLikeItems | src/FemtoTest.cs:410-412 | An argument list reads like the same values displayed as a collection, with parentheses in place of the brackets. |
| Format.FormatArgumentsAppend | src/FemtoTest.cs:410-412 | One more argument extends the list by ", " and its display just before the closing parenthesis. |
| Matching.IndexOf | src/Assert.cs:308-314 | Returns the first position whose element matches, or -1 exactly when none matches. |
| Matching.RemoveAtMultiset | src/Assert.cs:323 | RemoveAt removes exactly one occurrence of the element at that position. |
| Matching.Consume | src/Assert.cs:316-326 | The greedy loop either stops at an item index at or after its start, or consumes exactly one pool element per remaining item. |
| Matching.ConsumeStopsWithoutPartner | src/Assert.cs:316-326 | When the loop stops at item j, no element left in the pool at that point matches item j, and every earlier item found a partner in the pool it met. |
| Matching.ConsumeSound | src/Assert.cs:316-326 | On success every item is paired with a distinct pool element that it matches, and the partners plus the leftovers are the pool. |
| Matching.ConsumeIncomplete | src/Assert.cs:316-326 | Under a non-symmetric matcher the greedy choice can fail on [1,2] against [2,1] where another pairing exists, so the result depends on pool order. |
| Matching.ConsumeEqualityIsInclusion | src/Assert.cs:328-330 | Under equality the loop succeeds exactly when the items are a sub-multiset of the pool, and leaves the pool minus the items. |
| Matching.ConsumeEqualityFailsAtFirstExcess | src/Assert.cs:319-322 | Under equality the loop fails at the first index where the prefix so far stops fitting inside the pool. |
| Asserts.Throw | src/Assert.cs:10-13 | Passes exactly when the condition holds, and otherwise raises an assertion failure with the message. |
| Asserts.TestEqual | src/Assert.cs:30-36 | null equals only null. |
| Asserts.TestEqualUnderEquality | src/Assert.cs:30-36 | With a true equality as `Object.Equals`, TestEqual is value equality. |
| Asserts.TestEqualSymmetric | src/Assert.cs:30-36 | With a symmetric `Object.Equals`, TestEqual is symmetric. |
| Asserts.AreEqual | src/Assert.cs:38-48 | Passes exactly when TestEqual holds, and otherwise fails with both values displayed. |
| Asserts.AreNotEqual | src/Assert.cs:42-52 | Passes exactly when TestEqual does not hold, and otherwise fails with the "Objects are not equal" message as written. |
| Asserts.AreEqualComplementsAreNotEqual | src/Assert.cs:38-52 | For every pair exactly one of AreEqual and AreNotEqual passes, and AreEqual against null passes only for null. |
| Asserts.AreEqualStrings | src/Assert.cs:70-77 | Passes exactly when the texts are equal (optionally ignoring case), which is exactly when the common prefix covers both texts. |
| Asserts.AreNotEqualStrings | src/Assert.cs:83-85 | Passes exactly when the texts differ, and otherwise fails with both strings displayed. |
| Asserts.CaretMarksFirstDisplayedDifference | src/Assert.cs:72-75 | For any two displayed texts, the caret line built from their common prefix puts the caret under the first character of the lhs line where the two differ. |
| Asserts.HelloWorldDiff | src/Assert.cs:70-77 | For "hello world" against "hello there" the offset is 6, both extracts display in full, and the caret points at the 'w'. The whole failure message is the offset line, the two quoted strings and a caret after 14 spaces. |
| Asserts.Compare | src/Assert.cs:147-149 | An exception from CompareTo propagates. Otherwise the assert passes exactly when the check holds, and fails with "Comparison failed: a op b". |
| Asserts.Greater | src/Assert.cs:151-153 | Passes exactly when CompareTo is positive, and fails labelled ">". An exception from CompareTo propagates unchanged. |
| Asserts.GreaterOrEqual | src/Assert.cs:155-157 | Passes exactly when CompareTo is non-negative. Its failure is labelled ">" as written. An exception from CompareTo propagates unchanged. |
| Asserts.Less | src/Assert.cs:159-161 | Passes exactly when CompareTo is negative. Its failure is labelled ">" as written. An exception from CompareTo propagates unchanged. |
| Asserts.LessOrEqual | src/Assert.cs:163-165 | Passes exactly when CompareTo is non-positive. Its failure is labelled ">" as written. An exception from CompareTo propagates unchanged. |
| Asserts.CheckRelation | src/Assert.cs:147-165 | The corrected comparison: passes exactly when the relation holds, and fails labelled with that relation's own symbol. |
| Asserts.RelationalLabelMismatch | src/Assert.cs:155-165 | Less(2, 1) reports "2 > 1" where the corrected form reports "2 < 1", and likewise for LessOrEqual and GreaterOrEqual. |
| Asserts.GreaterAgreesWithRelation | src/Assert.cs:151-153 | Greater already behaves exactly like the corrected comparison. |
| Asserts.IsSubsetOf | src/Assert.cs:316-326 | An empty subset always passes. A pass needs a superset at least as long. A failure names an index of the subset and shows both collection objects as FormatValue does: a string quoted, a dictionary in braces, other collections in brackets. |
| Asserts.IsNotSubsetOf | src/Assert.cs:332-341 | A subset longer than the superset always passes. A failure carries the "Collection is a subset" message with both collection objects shown by FormatValue. |
| Asserts.NotSubsetComplementsSubset | src/Assert.cs:316-341 | IsNotSubsetOf passes exactly when IsSubsetOf fails. |
| Asserts.SubsetSound | src/Assert.cs:316-326 | A pass means every subset item is paired with its own matching superset element. |
| Asserts.SubsetUnderEquality | src/Assert.cs:328-330 | With equality the assert is sub-multiset inclusion. A failure names the first index where the prefix stops fitting. |
| Asserts.SubsetExample | src/Assert.cs:328-330 | [1,2] is a subset of [1,1,2,3]. |
| Asserts.NotSubsetExample | src/Assert.cs:328-330 | [1,1,1] is not a subset of [1,1], and the failure names index 2. |
| Asserts.StringSubsetExample | src/Assert.cs:316-330 | A string is enumerated as its characters: "ab" is not a subset of "a", the failure names index 1, and the message shows both strings quoted, not as character lists. |
| Asserts.GreedyUnderEquality | src/Assert.cs:316-330 | Under equality the greedy pass over a subset consumes everything exactly when the multiset is included, and otherwise stops at the first item whose prefix exceeds the superset. |
| Asserts.TestEquivalent | src/Assert.cs:348-357 | Equivalent collections have equal lengths. |
| Asserts.EquivalentSound | src/Assert.cs:348-357 | Equivalence pairs every item of a with its own matching element of b and uses all of b. |
| Asserts.EquivalentUnderEquality | src/Assert.cs:367-372 | With equality, equivalence is equality of multisets. |
| Asserts.EquivalentExamples | src/Assert.cs:367-369 | [1,2,2] is equivalent to [2,1,2]. [1,2] against [1,2,2] fails with both collections displayed. |
| Asserts.RearrangedEquivalent | src/Assert.cs:348-357 | [1,2,2] and [2,1,2] pass the equivalence test. |
| Asserts.AreEquivalent | src/Assert.cs:359-361 | Passes exactly when TestEquivalent holds on the enumerated elements, and always fails on different lengths. The failure shows both collection objects by FormatValue. |
| Asserts.AreNotEquivalent | src/Assert.cs:363-365 | Passes exactly when TestEquivalent fails, and always passes on different lengths. |
| Asserts.NotEquivalentComplementsEquivalent | src/Assert.cs:359-365 | Exactly one of AreEquivalent and AreNotEquivalent passes. |
| Asserts.FirstCollision | src/Assert.cs:267-272 | The nested loop finds the first (i, j) pair, in loop order, whose items are equal, or none exactly when all pairs differ. |
| Asserts.AllItemsAreUnique | src/Assert.cs:265-273 | Passes exactly when no two items are equal. A failure shows the first equal pair in the nested loops' order: the smallest first index, then the smallest second index. |
| Asserts.UniqueUnderEquality | src/Assert.cs:265-273 | With equality, uniqueness means every value occurs at most once. |
| Asserts.LockStep | src/Assert.cs:278-287 | The lock-step walk stops at the first mismatching index or where one side runs out, or finds none exactly when both sides are equal item by item and of equal length. |
| Asserts.AllItemsAreEqual | src/Assert.cs:275-288 | Passes exactly when both sides have equal length and match item by item. A failure reports the lock-step index. |
| Asserts.AllItemsAreEqualReportsFirstMismatch | src/Assert.cs:275-288 | The reported index is the first mismatch, or the shorter length when one side is a strict prefix. |
| Asserts.FirstNull | src/Assert.cs:256-262 | Finds the first null at or after the start index, or none exactly when there is none. |
| Asserts.AllItemsAreNotNull | src/Assert.cs:255-263 | Passes exactly when no item is null. A failure names the first null's index. |
| Asserts.Throws | src/Assert.cs:221-229 | Returns the caught exception exactly when one of an assignable type was thrown. Otherwise it fails with "Failed to throw" or "Wrong exception type". |
| Asserts.DoesNotThrow | src/Assert.cs:235-241 | Passes exactly when the action completes normally, and otherwise fails naming the exception. |
| Asserts.ThrowsRejectsGeneralKind | src/Assert.cs:221-229 | An exception of a more general type than expected is an assertion failure, not a pass. |

## Left out

- Command-line switches, console redirection, the help text, `RunMain`, `BoolFromString` and `FormatTarget` are left out. They are I/O. `Run` always returns 0, and the model returns the trace and the root frame instead.
- The results writer's rendering is reduced to the event trace. Only the arity warning's text is modelled (`Engine.NoticeText`). Stack-trace simplification and source-line extraction are I/O.
- Stopwatches are left out. A test's elapsed time is the milliseconds its invocation reports. `_otherTimes` (hook and constructor time) is not modelled.
- Counter overflow is left out. `Errors`, `Warnings` and `Passed` are 32-bit ints and `Elapsed` is a long, but the model uses unbounded naturals.
- Source providers are total and side-effect free. A marker's `Source` is modelled by the tuples it yields. A missing provider method, a provider that throws, and instance providers that read state set by earlier tests are left out; in the source these escape `Run` or depend on reflection.
- `TargetInvocationException` unwrapping is folded into the invocation model: an invocation reports the inner exception directly.
- Instance state shared between tests of one fixture instance is left out. Each invocation's completion is a function of its arguments.
- The floating-point `AreEqual` with a tolerance, `IsTrue`/`IsFalse`, `AreSame`, the empty, null, contains, regex, type and assignability asserts, `ForEach` and `AllItemsAreInstancesOf` are left out. They are outside the modelled core.
- `string.Compare` is culture-sensitive in the source. The model uses ordinal comparison, or ASCII upper-casing when case is ignored. `Format.ToUpper` maps only 'a'..'z', while `ToUpperInvariant` covers all of Unicode.
- Asserts.AllItemsAreEqual: when one side runs out first, its missing item is displayed as empty text. That is what `Current` gives after the end for an element type whose default is null. For a value type (a `List<int>`) the source shows the default value, such as "0", which the model does not. Enumerators that throw on `Current` after the end (arrays) are not modelled.
- Asserts.AllItemsAreUnique: items are displayed with `Values.Display`, which models `string.Format` of the value rather than every `ToString` override.
- Format.FormatValue: for strings, dictionaries and collections its own contract states the delimiters. The contents are stated by `Format.FormatStringIsQuotedEscape`, `Format.ListShowsItems` and `Format.DictShowsEntries`. An object's ToString() text is a field of the value, not computed from an override.
- Equality and matcher callbacks are total. The `equals` and `eq` parameters of `AreEqual`, `AreNotEqual`, `IsSubsetOf`, `IsNotSubsetOf`, `AreEquivalent`, `AreNotEquivalent`, `AllItemsAreUnique` and `AllItemsAreEqual` return a bool and never raise. In the source, an exception from an `Equals` override (src/Assert.cs:35, 63, 67, 269, 291) or from a `CompareEqual` delegate (src/Assert.cs:284, 310) propagates out of the assertion as itself, not as an AssertionException, and stops the greedy matching part-way. `CompareTo` is the one callback modelled with exceptions (`Asserts.Compare`).
- Asserts.TestEqual: `Object.Equals` is a parameter. Its contract states only the null handling. `Asserts.TestEqualUnderEquality` gives the meaning when the parameter is an equality.
- Asserts.IsSubsetOf: for an arbitrary matcher the failing index is only said to exist. `Asserts.SubsetUnderEquality` pins it down under equality.
- Engine.RunInstancesCounts: states balance (the parent grows by exactly what the nested events report) rather than a closed-form total over all instances.
- Engine.RunTypesCounts: states balance rather than a closed-form total over all types.
- Engine.RunFixtureInstanceCalls: states only that the constructor comes first, and alone when it raises. The calls that follow are stated by `Engine.RunInstanceCalls`.
- Null strings are left out: a string is a sequence of characters and is never null. In the source, `AreEqual(null, "x")` raises a NullReferenceException from `CountCommonPrefix` reading the length of null (src/FemtoTest.cs:430, src/Assert.cs:71-75), and `AreNotEqual(null, null)` fails showing "null" for both sides.
- Null argument arrays are left out: a tuple is a sequence and is never null. In the source, `[Test(null)]` passes a null array, so `args.Length` raises out of `Run` (src/FemtoTest.cs:206). `[TestFixture(null)]` yields one null tuple, and `RunInternal(t, null, null, ...)` then re-enters the marker loop without end (src/FemtoTest.cs:168-174).
- Engine.NoticeText: the warning names the marker's type as "FemtoTest.TestAttribute". The source prints the marker's runtime type name (src/FemtoTest.cs:207), which differs for a subclass of `TestAttribute`.
- The order in which `GetMethods()` lists hooks is taken as the fixture's method order, and the order in which `GetCustomAttributes` lists a member's `[Test]`/`[TestFixture]` markers is taken as their declaration order. The runtime guarantees neither order.
- Text is a sequence of Unicode scalar values. C# counts `Length`, indexes and cuts with `Substring` in UTF-16 code units. So for text with characters outside the Basic Multilingual Plane, the model's offsets, caret columns and the 15/20/30 cut points of `Format.CountCommonPrefix`, `Format.GetStringExtract` and `Asserts.AreEqualStrings` count differently from the source: comparing U+1F600 followed by "a" with U+1F600 followed by "b" reports offset 2 in the source and 1 in the model. The source can also cut a surrogate pair in half, which the model cannot.
- Null collections are left out: the collection assertions take a string, a dictionary or another enumerable, never null. In the source a null collection raises from `ToList` or `foreach` (src/Assert.cs:316-365).
- A dictionary is enumerated as boxed key/value pairs whose type name is written "System.Collections.Generic.KeyValuePair`2", without the generic arguments the runtime's full name carries. Two pairs are compared through their `[key, value]` text, not through `KeyValuePair` field equality.

## Findings

| source | as written | input that shows it | evidently intended | confidence | as-written member | corrected member |
|---|---|---|---|---|---|---|
| src/Assert.cs:155-165 | `GreaterOrEqual`, `Less` and `LessOrEqual` all pass ">" as the comparison label | `Assert.Less(2, 1)` fails with "Comparison failed: 2 > 1" | the label of the relation that was checked: "2 < 1" (likewise "<=" and ">=") | not executed | Asserts.Less, Asserts.LessOrEqual, Asserts.GreaterOrEqual, shown by Asserts.RelationalLabelMismatch | Asserts.CheckRelation |

=== FILE: asserts.dfy ===
/** The assertions of `Assert`: each evaluates its check and either completes
    normally or raises an AssertionException whose message is the diagnostic. */
module Asserts {
  import opened Values
  import opened Format
  import opened Matching

  /** Assert.Throw: an assertion failure carrying `message` exactly when the
      condition is false. */
  function Throw(condition: bool, message: string): (r: Completion)
    ensures r.Ok? <==> condition
    ensures r.Raised? ==> r.exn == AssertionFailure(message)
  {
    if condition then Normal else Fail(message)
  }

  // ---------------------------------------------------------------------
  // Equality
  // ---------------------------------------------------------------------

  /** Null equals only null; two non-null objects are compared by `equals`,
      the receiver's (virtual) Equals. */
  function TestEqual(a: Value, b: Value, equals: (Value, Value) -> bool): (r: bool)
    ensures r && (a.Null? || b.Null?) ==> a.Null? && b.Null?
  {
    if a.Null? && b.Null? then true
    else if a.Null? || b.Null? then false
    else equals(a, b)
  }

  /** When Equals is structural equality, so is TestEqual, nulls included. */
  lemma TestEqualUnderEquality(a: Value, b: Value, equals: (Value, Value) -> bool)
    requires IsEquality(equals)
    ensures TestEqual(a, b, equals) <==> a == b
  {
  }

  lemma TestEqualSymmetric(a: Value, b: Value, equals: (Value, Value) -> bool)
    requires forall x, y :: equals(x, y) == equals(y, x)
    ensures TestEqual(a, b, equals) == TestEqual(b, a, equals)
  {
  }

  function ObjectsMessage(a: Value, b: Value): string
  {
    "Objects are not equal\n  lhs: " + FormatValue(a) + "\n  rhs: " + FormatValue(b)
  }

  function AreEqual(a: Value, b: Value, equals: (Value, Value) -> bool): (r: Completion)
    ensures r.Ok? <==> TestEqual(a, b, equals)
    ensures r.Raised? ==> r.exn == AssertionFailure(ObjectsMessage(a, b))
  {
    Throw(TestEqual(a, b, equals), ObjectsMessage(a, b))
  }

  /** As written, the failure of AreNotEqual also says "Objects are not equal". */
  function AreNotEqual(a: Value, b: Value, equals: (Value, Value) -> bool): (r: Completion)
    ensures r.Ok? <==> !TestEqual(a, b, equals)
    ensures r.Raised? ==> r.exn == AssertionFailure(ObjectsMessage(a, b))
  {
    Throw(!TestEqual(a, b, equals), ObjectsMessage(a, b))
  }

  /** For any pair of objects exactly one of AreEqual and AreNotEqual passes. */
  lemma AreEqualComplementsAreNotEqual(a: Value, b: Value, equals: (Value, Value) -> bool)
    ensures AreEqual(a, b, equals).Ok? != AreNotEqual(a, b, equals).Ok?
    ensures AreEqual(a, Null, equals).Ok? <==> a.Null?
  {
  }

  // ---------------------------------------------------------------------
  // Strings
  // ---------------------------------------------------------------------

  function Spaces(n: nat): (r: string)
    ensures |r| == n && forall i :: 0 <= i < n ==> r[i] == ' '
  {
    seq(n, _ => ' ')
  }

  /** The label in front of each displayed extract; the caret line is shifted by its width. */
  const LhsLabel := "  lhs: "

  /** The diagnostic of a failed string AreEqual: the offset of the first
      difference, both extracts around it, and a caret under the first
      difference of the displayed extracts. */
  function StringDiffMessage(a: string, b: string, ignoreCase: bool): string
  {
    var offset := CountCommonPrefix(a, b, ignoreCase);
    var xa := FormatValue(Str(GetStringExtract(a, offset)));
    var xb := FormatValue(Str(GetStringExtract(b, offset)));
    "Strings are not equal at offset " + IntToString(offset) + "\n" + LhsLabel + xa + "\n  rhs: " + xb + "\n"
      + Spaces(CountCommonPrefix(xa, xb, ignoreCase) + |LhsLabel|) + "^"
  }

  /** String AreEqual; the culture-aware string.Compare is taken as ordinal
      comparison, or comparison of ASCII upper case when ignoring case. */
  function AreEqualStrings(a: string, b: string, ignoreCase: bool): (r: Completion)
    ensures r.Ok? <==> SameText(a, b, ignoreCase)
    ensures r.Ok? <==> CountCommonPrefix(a, b, ignoreCase) == |a| == |b|
    ensures r.Raised? ==> r.exn == AssertionFailure(StringDiffMessage(a, b, ignoreCase))
  {
    CommonPrefixFullIffSameText(a, b, ignoreCase);
    Throw(SameText(a, b, ignoreCase), StringDiffMessage(a, b, ignoreCase))
  }

  /** As written, the failure of string AreNotEqual says "Strings are not equal". */
  function AreNotEqualStrings(a: string, b: string, ignoreCase: bool): (r: Completion)
    ensures r.Ok? <==> !SameText(a, b, ignoreCase)
    ensures r.Raised? ==>
              r.exn == AssertionFailure("Strings are not equal\n  lhs: " + FormatValue(Str(a)) + "\n  rhs: " + FormatValue(Str(b)))
  {
    Throw(!SameText(a, b, ignoreCase),
          "Strings are not equal\n  lhs: " + FormatValue(Str(a)) + "\n  rhs: " + FormatValue(Str(b)))
  }

  /** In the lhs line the caret's column holds the first character at which two
      displayed texts differ; StringDiffMessage builds its caret line from the
      two displayed extracts this way. */
  lemma CaretMarksFirstDisplayedDifference(xa: string, xb: string, ignoreCase: bool)
    ensures var c := CountCommonPrefix(xa, xb, ignoreCase);
            var lhsLine := LhsLabel + xa;
            var caretLine := Spaces(c + |LhsLabel|) + "^";
            |caretLine| - 1 == c + |LhsLabel| &&
            (c < |xa| && c < |xb| ==>
               lhsLine[c + |LhsLabel|] == xa[c] && !SameChar(xa[c], xb[c], ignoreCase))
  {
  }

  /** The whole failure message for "hello world" against "hello there". */
  const HelloWorldMessage := "Strings are not equal at offset " + "6" + "\n"
                             + "  lhs: " + "\"hello world\"" + "\n"
                             + "  rhs: " + "\"hello there\"" + "\n"
                             + "              " + "^"

  /** "hello world" against "hello there": the reported offset is 6, both
      strings are shown whole between quotes, and the caret follows 14 spaces,
      under the 'w' of the lhs line. */
  lemma HelloWorldDiff(a: string, b: string)
    requires a == "hello world" && b == "hello there"
    ensures CountCommonPrefix(a, b, false) == 6
    ensures FormatValue(Str(GetStringExtract(a, 6))) == "\"" + a + "\""
    ensures FormatValue(Str(GetStringExtract(b, 6))) == "\"" + b + "\""
    ensures CountCommonPrefix("\"" + a + "\"", "\"" + b + "\"", false) + |LhsLabel| == 14
    ensures (LhsLabel + "\"" + a + "\"")[14] == 'w'
    ensures AreEqualStrings(a, b, false) == Fail(HelloWorldMessage)
  {
    HelloOffset(a, b);
    HelloPlain(a);
    HelloPlain(b);
    PlainShown(a);
    PlainShown(b);
    HelloCaret(a, b);
    HelloFails(a, b);
  }

  lemma HelloFails(a: string, b: string)
    requires a == "hello world" && b == "hello there"
    ensures AreEqualStrings(a, b, false) == Fail(HelloWorldMessage)
  {
    assert CountCommonPrefix(a, b, false) == 6 by { HelloOffset(a, b); }
    HelloMessage(a, b);
  }

  lemma HelloMessage(a: string, b: string)
    requires a == "hello world" && b == "hello there"
    ensures StringDiffMessage(a, b, false) == HelloWorldMessage
  {
    var xa, xb := "\"" + a + "\"", "\"" + b + "\"";
    assert CountCommonPrefix(a, b, false) == 6 by { HelloOffset(a, b); }
    assert FormatValue(Str(GetStringExtract(a, 6))) == xa by { HelloPlain(a); PlainShown(a); }
    assert FormatValue(Str(GetStringExtract(b, 6))) == xb by { HelloPlain(b); PlainShown(b); }
    DiffMessageParts(a, b, false, 6, xa, xb);
    var pad := Spaces(CountCommonPrefix(xa, xb, false) + |LhsLabel|);
    assert pad == Spaces(14) by { HelloCaret(a, b); }
    HelloAssembled(IntToString(6), a, b, pad);
  }

  /** The failure message of string AreEqual, from its parts. */
  lemma DiffMessageParts(a: string, b: string, ignoreCase: bool, offset: nat, xa: string, xb: string)
    requires offset == CountCommonPrefix(a, b, ignoreCase)
    requires xa == FormatValue(Str(GetStringExtract(a, offset))) && xb == FormatValue(Str(GetStringExtract(b, offset)))
    ensures StringDiffMessage(a, b, ignoreCase)
            == "Strings are not equal at offset " + IntToString(offset) + "\n" + LhsLabel + xa + "\n  rhs: " + xb + "\n"
               + Spaces(CountCommonPrefix(xa, xb, ignoreCase) + |LhsLabel|) + "^"
  {
  }

  /** The pieces of the hello-world message put together. */
  lemma HelloAssembled(offset: string, a: string, b: string, pad: string)
    requires offset == IntToString(6) && a == "hello world" && b == "hello there" && pad == Spaces(14)
    ensures "Strings are not equal at offset " + offset + "\n" + LhsLabel + ("\"" + a + "\"") + "\n  rhs: " + ("\"" + b + "\"")
            + "\n" + pad + "^" == HelloWorldMessage
  {
    assert offset == "6";
    assert pad == "              ";
  }

  lemma HelloOffset(a: string, b: string)
    requires a == "hello world" && b == "hello there"
    ensures CountCommonPrefix(a, b, false) == 6
  {
    CommonPrefixUnique(a, b, false, 6);
  }

  /** Neither string holds a character the display escapes. */
  lemma HelloPlain(a: string)
    requires a == "hello world" || a == "hello there"
    ensures |a| == 11
    ensures '"' !in a && '\r' !in a && '\n' !in a && '\t' !in a && '\0' !in a
  {
  }

  /** A short plain string is extracted whole at offset 6 and shown verbatim. */
  lemma PlainShown(a: string)
    requires |a| <= 30
    requires '"' !in a && '\r' !in a && '\n' !in a && '\t' !in a && '\0' !in a
    ensures FormatValue(Str(GetStringExtract(a, 6))) == "\"" + a + "\""
  {
    FormatPlainString(a);
  }

  lemma HelloCaret(a: string, b: string)
    requires a == "hello world" && b == "hello there"
    ensures CountCommonPrefix("\"" + a + "\"", "\"" + b + "\"", false) == 7
    ensures (LhsLabel + "\"" + a + "\"")[14] == 'w'
  {
    CommonPrefixUnique("\"" + a + "\"", "\"" + b + "\"", false, 7);
  }

  // ---------------------------------------------------------------------
  // Relational comparisons
  // ---------------------------------------------------------------------

  function ComparisonMessage(a: Value, b: Value, comparison: string): string
  {
    "Comparison failed: " + FormatValue(a) + " " + comparison + " " + FormatValue(b)
  }

  /** Assert.Compare: `compareTo` is `(a as IComparable).CompareTo(b)`, which
      raises (NullReferenceException when a is null or not IComparable, or
      whatever CompareTo raises); that exception propagates unchanged. */
  function Compare(a: Value, b: Value, compareTo: (Value, Value) -> Outcome<int>,
                   check: int -> bool, comparison: string): (r: Completion)
    ensures compareTo(a, b).Raised? ==> r == Raised(compareTo(a, b).exn)
    ensures compareTo(a, b).Ok? ==> (r.Ok? <==> check(compareTo(a, b).value))
    ensures compareTo(a, b).Ok? && r.Raised? ==> r.exn == AssertionFailure(ComparisonMessage(a, b, comparison))
  {
    match compareTo(a, b)
    case Raised(e) => Raised(e)
    case Ok(order) => Throw(check(order), ComparisonMessage(a, b, comparison))
  }

  function Greater(a: Value, b: Value, compareTo: (Value, Value) -> Outcome<int>): (r: Completion)
    ensures compareTo(a, b).Raised? ==> r == Raised(compareTo(a, b).exn)
    ensures compareTo(a, b).Ok? ==> (r.Ok? <==> compareTo(a, b).value > 0)
    ensures compareTo(a, b).Ok? && r.Raised? ==> r.exn == AssertionFailure(ComparisonMessage(a, b, ">"))
  {
    Compare(a, b, compareTo, order => order > 0, ">")
  }

  /** As written: tests `>=` but labels the failure ">". */
  function GreaterOrEqual(a: Value, b: Value, compareTo: (Value, Value) -> Outcome<int>): (r: Completion)
    ensures compareTo(a, b).Raised? ==> r == Raised(compareTo(a, b).exn)
    ensures compareTo(a, b).Ok? ==> (r.Ok? <==> compareTo(a, b).value >= 0)
    ensures compareTo(a, b).Ok? && r.Raised? ==> r.exn == AssertionFailure(ComparisonMessage(a, b, ">"))
  {
    Compare(a, b, compareTo, order => order >= 0, ">")
  }

  /** As written: tests `<` but labels the failure ">". */
  function Less(a: Value, b: Value, compareTo: (Value, Value) -> Outcome<int>): (r: Completion)
    ensures compareTo(a, b).Raised? ==> r == Raised(compareTo(a, b).exn)
    ensures compareTo(a, b).Ok? ==> (r.Ok? <==> compareTo(a, b).value < 0)
    ensures compareTo(a, b).Ok? && r.Raised? ==> r.exn == AssertionFailure(ComparisonMessage(a, b, ">"))
  {
    Compare(a, b, compareTo, order => order < 0, ">")
  }

  /** As written: tests `<=` but labels the failure ">". */
  function LessOrEqual(a: Value, b: Value, compareTo: (Value, Value) -> Outcome<int>): (r: Completion)
    ensures compareTo(a, b).Raised? ==> r == Raised(compareTo(a, b).exn)
    ensures compareTo(a, b).Ok? ==> (r.Ok? <==> compareTo(a, b).value <= 0)
    ensures compareTo(a, b).Ok? && r.Raised? ==> r.exn == AssertionFailure(ComparisonMessage(a, b, ">"))
  {
    Compare(a, b, compareTo, order => order <= 0, ">")
  }

  /** The four relations the relational assertions test. */
  datatype Relation = Gt | Ge | Lt | Le {
    function Symbol(): string
    {
      match this
      case Gt => ">"
      case Ge => ">="
      case Lt => "<"
      case Le => "<="
    }

    predicate Holds(order: int)
    {
      match this
      case Gt => order > 0
      case Ge => order >= 0
      case Lt => order < 0
      case Le => order <= 0
    }
  }

  /** The relational assertion with the label of the relation it tests. */
  function CheckRelation(a: Value, b: Value, compareTo: (Value, Value) -> Outcome<int>, op: Relation): (r: Completion)
    ensures compareTo(a, b).Ok? ==> (r.Ok? <==> op.Holds(compareTo(a, b).value))
    ensures compareTo(a, b).Ok? && r.Raised? ==> r.exn == AssertionFailure(ComparisonMessage(a, b, op.Symbol()))
    ensures compareTo(a, b).Raised? ==> r == Raised(compareTo(a, b).exn)
  {
    Compare(a, b, compareTo, order => op.Holds(order), op.Symbol())
  }

  /** Int32.CompareTo(object) for an Int32 or null receiver: a null argument
      sorts first, a non-integer argument raises ArgumentException, a null
      receiver raises NullReferenceException. */
  function CompareInts(a: Value, b: Value): Outcome<int>
  {
    if !a.Int? then Raised(Exn("System.NullReferenceException", "Object reference not set to an instance of an object."))
    else if b.Null? then Ok(1)
    else if !b.Int? then Raised(Exn("System.ArgumentException", "Object must be of type Int32."))
    else Ok(if a.n < b.n then -1 else if a.n > b.n then 1 else 0)
  }

  /** Less(2, 1) fails claiming "2 > 1", a comparison that holds; the relation
      it tested was "<". The same holds for GreaterOrEqual and LessOrEqual. */
  lemma RelationalLabelMismatch()
    ensures Less(Int(2), Int(1), CompareInts) == Fail("Comparison failed: 2 > 1")
    ensures CheckRelation(Int(2), Int(1), CompareInts, Lt) == Fail("Comparison failed: 2 < 1")
    ensures LessOrEqual(Int(2), Int(1), CompareInts) == Fail("Comparison failed: 2 > 1")
    ensures CheckRelation(Int(2), Int(1), CompareInts, Le) == Fail("Comparison failed: 2 <= 1")
    ensures GreaterOrEqual(Int(1), Int(2), CompareInts) == Fail("Comparison failed: 1 > 2")
    ensures CheckRelation(Int(1), Int(2), CompareInts, Ge) == Fail("Comparison failed: 1 >= 2")
  {
    assert IntToString(2) == "2";
    assert IntToString(1) == "1";
  }

  /** Only for Greater do the as-written and the labelled assertion agree. */
  lemma GreaterAgreesWithRelation(a: Value, b: Value, compareTo: (Value, Value) -> Outcome<int>)
    ensures Greater(a, b, compareTo) == CheckRelation(a, b, compareTo, Gt)
  {
  }

  // ---------------------------------------------------------------------
  // Collections
  // ---------------------------------------------------------------------

  const SubsetLabel := "\n  subset =   "
  const SupersetLabel := "\n  superset = "

  /** The two collections are shown as FormatValue shows the collection
      objects themselves: a string quoted, a dictionary in braces, any other
      enumerable in brackets. */
  function NotSubsetMessage(index: nat, subset: Value, superset: Value): string
  {
    "Collection is not a subset (check subset index " + IntToString(index) + SubsetLabel
      + FormatValue(subset) + SupersetLabel + FormatValue(superset)
  }

  function IsSubsetMessage(subset: Value, superset: Value): string
  {
    "Collection is a subset" + SubsetLabel + FormatValue(subset) + SupersetLabel + FormatValue(superset)
  }

  /** Each subset element, in order, consumes the first remaining superset
      element `eq` pairs it with; the failure names the first element left
      without a partner. */
  function IsSubsetOf(subset: Value, superset: Value, eq: (Value, Value) -> bool): (r: Completion)
    requires IsCollection(subset) && IsCollection(superset)
    ensures r.Raised? ==>
              exists index :: 0 <= index < |Elements(subset)| &&
                r.exn == AssertionFailure(NotSubsetMessage(index, subset, superset))
    ensures |Elements(subset)| == 0 ==> r.Ok?
    ensures r.Ok? ==> |Elements(subset)| <= |Elements(superset)|
  {
    match Consume(Elements(subset), 0, Elements(superset), eq)
    case Unmatched(index) => Fail(NotSubsetMessage(index, subset, superset))
    case Consumed(_) => Normal
  }

  /** Passes at the first subset element without a partner; fails only when
      every element found one. */
  function IsNotSubsetOf(subset: Value, superset: Value, eq: (Value, Value) -> bool): (r: Completion)
    requires IsCollection(subset) && IsCollection(superset)
    ensures r.Raised? ==> r.exn == AssertionFailure(IsSubsetMessage(subset, superset))
    ensures |Elements(subset)| > |Elements(superset)| ==> r.Ok?
  {
    match Consume(Elements(subset), 0, Elements(superset), eq)
    case Unmatched(_) => Normal
    case Consumed(_) => Fail(IsSubsetMessage(subset, superset))
  }

  /** IsNotSubsetOf fails exactly when IsSubsetOf on the same arguments passes. */
  lemma NotSubsetComplementsSubset(subset: Value, superset: Value, eq: (Value, Value) -> bool)
    requires IsCollection(subset) && IsCollection(superset)
    ensures IsNotSubsetOf(subset, superset, eq).Ok? <==> !IsSubsetOf(subset, superset, eq).Ok?
  {
  }

  /** When IsSubsetOf passes, every subset element has its own superset partner:
      a one-to-one pairing exists, whatever the relation. */
  lemma SubsetSound(subset: Value, superset: Value, eq: (Value, Value) -> bool)
    requires IsCollection(subset) && IsCollection(superset)
    requires IsSubsetOf(subset, superset, eq).Ok?
    ensures var xs, m := Elements(subset), Partners(Elements(subset), 0, Elements(superset), eq);
            |m| == |xs| && (forall k :: 0 <= k < |m| ==> eq(xs[k], m[k])) &&
            multiset(m) <= multiset(Elements(superset))
  {
    var xs := Elements(subset);
    ConsumeSound(xs, 0, Elements(superset), eq);
    assert forall k :: 0 <= k < |xs| ==> xs[0 + k] == xs[k];
  }

  /** With equality as the relation, IsSubsetOf is multiset inclusion, and a
      failure reports the first index whose prefix exceeds the superset. */
  lemma SubsetUnderEquality(subset: Value, superset: Value, eq: (Value, Value) -> bool)
    requires IsCollection(subset) && IsCollection(superset)
    requires IsEquality(eq)
    ensures var xs, ys := Elements(subset), Elements(superset);
            IsSubsetOf(subset, superset, eq).Ok? <==> multiset(xs) <= multiset(ys)
    ensures var xs, ys := Elements(subset), Elements(superset);
            !(multiset(xs) <= multiset(ys)) ==>
              exists index :: 0 <= index < |xs| &&
                IsSubsetOf(subset, superset, eq) == Fail(NotSubsetMessage(index, subset, superset)) &&
                multiset(xs[..index]) <= multiset(ys) &&
                !(multiset(xs[..index + 1]) <= multiset(ys))
  {
    var xs, ys := Elements(subset), Elements(superset);
    GreedyUnderEquality(xs, ys, eq);
    if !(multiset(xs) <= multiset(ys)) {
      var index := Consume(xs, 0, ys, eq).index;
      assert IsSubsetOf(subset, superset, eq) == Fail(NotSubsetMessage(index, subset, superset));
    }
  }

  /** The greedy pass from the start, under equality: it consumes everything
      exactly when the multiset is included, and otherwise stops at the first
      item whose prefix exceeds the pool. */
  lemma GreedyUnderEquality(xs: seq<Value>, ys: seq<Value>, eq: (Value, Value) -> bool)
    requires IsEquality(eq)
    ensures Consume(xs, 0, ys, eq).Consumed? <==> multiset(xs) <= multiset(ys)
    ensures Consume(xs, 0, ys, eq).Unmatched? ==>
              var index := Consume(xs, 0, ys, eq).index;
              0 <= index < |xs| &&
              multiset(xs[..index]) <= multiset(ys) &&
              !(multiset(xs[..index + 1]) <= multiset(ys))
  {
    ConsumeEqualityIsInclusion(xs, 0, ys, eq);
    assert xs[0..] == xs;
    if Consume(xs, 0, ys, eq).Unmatched? {
      var index := Consume(xs, 0, ys, eq).index;
      ConsumeEqualityFailsAtFirstExcess(xs, 0, ys, eq, index);
      assert xs[0..index] == xs[..index];
      assert xs[0..index + 1] == xs[..index + 1];
    }
  }

  function Ints(xs: seq<int>): (r: seq<Value>)
    ensures |r| == |xs| && forall k :: 0 <= k < |xs| ==> r[k] == Int(xs[k])
  {
    seq(|xs|, k requires 0 <= k < |xs| => Int(xs[k]))
  }

  /** [1, 2] is a subset of [1, 1, 2, 3]. */
  lemma SubsetExample(kind: string, a: Value, b: Value, eq: (Value, Value) -> bool)
    requires a == List(kind, [Int(1), Int(2)]) && b == List(kind, [Int(1), Int(1), Int(2), Int(3)])
    requires IsEquality(eq)
    ensures IsSubsetOf(a, b, eq).Ok?
  {
    GreedyUnderEquality(a.items, b.items, eq);
    assert multiset(a.items) <= multiset(b.items) by {
      assert b.items == [Int(1)] + a.items + [Int(3)];
    }
  }

  /** [1, 1, 1] is not a subset of [1, 1], and the failure names index 2, the
      third 1. */
  lemma NotSubsetExample(kind: string, c: Value, d: Value, eq: (Value, Value) -> bool)
    requires c == List(kind, [Int(1), Int(1), Int(1)]) && d == List(kind, [Int(1), Int(1)])
    requires IsEquality(eq)
    ensures IsSubsetOf(c, d, eq) == Fail(NotSubsetMessage(2, c, d))
  {
    var xs, ys := c.items, d.items;
    assert IndexOf(xs[0], ys, eq) == 0;
    assert RemoveAt(ys, 0) == [Int(1)];
    assert IndexOf(xs[1], [Int(1)], eq) == 0;
    assert RemoveAt([Int(1)], 0) == [];
    assert Consume(xs, 1, [Int(1)], eq) == Unmatched(2);
  }

  /** A string is a collection of its characters, and the message shows it as
      the quoted string, not as a list of characters: "ab" is not a subset of
      "a", and the failure names index 1, the 'b'. */
  lemma StringSubsetExample(a: Value, b: Value, eq: (Value, Value) -> bool)
    requires a == Str("ab") && b == Str("a")
    requires IsEquality(eq)
    ensures IsSubsetOf(a, b, eq) == Fail(NotSubsetMessage(1, a, b))
    ensures NotSubsetMessage(1, a, b) ==
              "Collection is not a subset (check subset index " + "1" + SubsetLabel + ("\"" + "ab" + "\"") + SupersetLabel + ("\"" + "a" + "\"")
  {
    assert Elements(a) == [CharValue('a'), CharValue('b')];
    assert Elements(b) == [CharValue('a')];
    CharsStopAtSecond(Elements(a), Elements(b), eq);
    FormatPlainString("ab");
    FormatPlainString("a");
    assert IntToString(1) == "1";
  }

  lemma CharsStopAtSecond(xs: seq<Value>, ys: seq<Value>, eq: (Value, Value) -> bool)
    requires xs == [CharValue('a'), CharValue('b')] && ys == [CharValue('a')]
    requires IsEquality(eq)
    ensures Consume(xs, 0, ys, eq) == Unmatched(1)
  {
    assert IndexOf(xs[0], ys, eq) == 0;
    assert RemoveAt(ys, 0) == [];
  }

  /** Every element of a consumes one element of b that `eq` pairs it with and
      none of b is left over. */
  function TestEquivalent(a: seq<Value>, b: seq<Value>, eq: (Value, Value) -> bool): (r: bool)
    ensures r ==> |a| == |b|
  {
    match Consume(a, 0, b, eq)
    case Unmatched(_) => false
    case Consumed(rest) => |rest| == 0
  }

  /** Both collections shown as FormatValue shows the collection objects. */
  function EquivalenceMessage(a: Value, b: Value): string
  {
    "Collections are not equivalent\n  lhs: " + FormatValue(a) + "\n  rhs: " + FormatValue(b)
  }

  function AreEquivalent(a: Value, b: Value, eq: (Value, Value) -> bool): (r: Completion)
    requires IsCollection(a) && IsCollection(b)
    ensures r.Ok? <==> TestEquivalent(Elements(a), Elements(b), eq)
    ensures r.Raised? ==> r.exn == AssertionFailure(EquivalenceMessage(a, b))
    ensures |Elements(a)| != |Elements(b)| ==> r.Raised?
  {
    Throw(TestEquivalent(Elements(a), Elements(b), eq), EquivalenceMessage(a, b))
  }

  /** As written, its failure also says "Collections are not equivalent". */
  function AreNotEquivalent(a: Value, b: Value, eq: (Value, Value) -> bool): (r: Completion)
    requires IsCollection(a) && IsCollection(b)
    ensures r.Ok? <==> !TestEquivalent(Elements(a), Elements(b), eq)
    ensures r.Raised? ==> r.exn == AssertionFailure(EquivalenceMessage(a, b))
    ensures |Elements(a)| != |Elements(b)| ==> r.Ok?
  {
    Throw(!TestEquivalent(Elements(a), Elements(b), eq), EquivalenceMessage(a, b))
  }

  lemma NotEquivalentComplementsEquivalent(a: Value, b: Value, eq: (Value, Value) -> bool)
    requires IsCollection(a) && IsCollection(b)
    ensures AreNotEquivalent(a, b, eq).Ok? <==> !AreEquivalent(a, b, eq).Ok?
  {
  }

  /** When TestEquivalent holds, the greedy partners are a rearrangement of b
      that `eq` pairs with a position by position, whatever the relation. */
  lemma EquivalentSound(a: seq<Value>, b: seq<Value>, eq: (Value, Value) -> bool)
    requires TestEquivalent(a, b, eq)
    ensures var m := Partners(a, 0, b, eq);
            |m| == |a| && (forall k :: 0 <= k < |m| ==> eq(a[k], m[k])) && multiset(m) == multiset(b)
  {
    ConsumeSound(a, 0, b, eq);
    assert forall k :: 0 <= k < |a| ==> a[0 + k] == a[k];
  }

  /** With equality as the relation, TestEquivalent is multiset equality. */
  lemma EquivalentUnderEquality(a: seq<Value>, b: seq<Value>, eq: (Value, Value) -> bool)
    requires IsEquality(eq)
    ensures TestEquivalent(a, b, eq) <==> multiset(a) == multiset(b)
  {
    ConsumeEqualityIsInclusion(a, 0, b, eq);
    assert a[0..] == a;
    match Consume(a, 0, b, eq)
    case Unmatched(_) =>
    case Consumed(rest) =>
      assert multiset(rest) == multiset(b) - multiset(a);
      assert |rest| == 0 <==> multiset(rest) == multiset{};
  }

  /** [1, 2, 2] and [2, 1, 2] are equivalent; [1, 2] and [1, 2, 2] are not. */
  lemma EquivalentExamples(kind: string, eq: (Value, Value) -> bool)
    requires IsEquality(eq)
    ensures AreEquivalent(List(kind, Ints([1, 2, 2])), List(kind, Ints([2, 1, 2])), eq).Ok?
    ensures var a, b := List(kind, Ints([1, 2])), List(kind, Ints([1, 2, 2]));
            AreEquivalent(a, b, eq) == Fail(EquivalenceMessage(a, b))
  {
    RearrangedEquivalent(Ints([1, 2, 2]), Ints([2, 1, 2]), eq);
    assert |Ints([1, 2])| != |Ints([1, 2, 2])|;
  }

  lemma RearrangedEquivalent(a: seq<Value>, b: seq<Value>, eq: (Value, Value) -> bool)
    requires a == [Int(1), Int(2), Int(2)] && b == [Int(2), Int(1), Int(2)]
    requires IsEquality(eq)
    ensures TestEquivalent(a, b, eq)
  {
    assert b == [Int(2)] + [Int(1)] + [Int(2)];
    assert multiset(a) == multiset(b);
    EquivalentUnderEquality(a, b, eq);
  }

  /** The first pair (i, j), i < j, in the order the nested loops visit them,
      whose elements `same` holds of; the scan resumes at (i, j). */
  function FirstCollision(list: seq<Value>, same: (Value, Value) -> bool, i: nat, j: nat): (r: Option<(nat, nat)>)
    requires i < j
    requires forall p, q :: 0 <= p < q < |list| && (p < i || (p == i && q < j)) ==> !same(list[p], list[q])
    ensures r.None? <==> forall p, q :: 0 <= p < q < |list| ==> !same(list[p], list[q])
    ensures r.Some? ==>
              var (p, q) := r.value;
              p < q < |list| && same(list[p], list[q]) &&
              forall p', q' :: 0 <= p' < q' < |list| && (p' < p || (p' == p && q' < q)) ==> !same(list[p'], list[q'])
    decreases |list| - i, |list| + 1 - j
  {
    if i >= |list| then None
    else if j >= |list| then FirstCollision(list, same, i + 1, i + 2)
    else if same(list[i], list[j]) then Some((i, j))
    else FirstCollision(list, same, i, j + 1)
  }

  /** The message naming a repeated pair: both indices and both items. */
  function NotUniqueMessage(coll: seq<Value>, p: nat, q: nat): string
    requires p < |coll| && q < |coll|
  {
    "Collection items are not unique\n  [" + IntToString(p) + "] = " + Display(coll[p])
    + "\n  [" + IntToString(q) + "] = " + Display(coll[q]) + "\n"
  }

  /** Fails at the first pair of equal items (object.Equals) with both shown:
      the pair whose first index is smallest, and among those the one whose
      second index is smallest, as the nested loops meet it. */
  function AllItemsAreUnique(coll: seq<Value>, equals: (Value, Value) -> bool): (r: Completion)
    ensures r.Ok? <==> forall p, q :: 0 <= p < q < |coll| ==> !TestEqual(coll[p], coll[q], equals)
    ensures r.Raised? ==>
              exists p, q :: 0 <= p < q < |coll| && TestEqual(coll[p], coll[q], equals) &&
                (forall p', q' :: 0 <= p' < q' < |coll| && (p' < p || (p' == p && q' < q)) ==>
                   !TestEqual(coll[p'], coll[q'], equals)) &&
                r.exn == AssertionFailure(NotUniqueMessage(coll, p, q))
  {
    var same := (x, y) => TestEqual(x, y, equals);
    match FirstCollision(coll, same, 0, 1)
    case None => Normal
    case Some((p, q)) => Fail(NotUniqueMessage(coll, p, q))
  }

  /** With structural Equals, AllItemsAreUnique passes exactly when no value
      occurs twice. */
  lemma UniqueUnderEquality(coll: seq<Value>, equals: (Value, Value) -> bool)
    requires IsEquality(equals)
    ensures AllItemsAreUnique(coll, equals).Ok? <==> forall v :: multiset(coll)[v] <= 1
  {
    forall p, q | 0 <= p < q < |coll|
      ensures TestEqual(coll[p], coll[q], equals) <==> coll[p] == coll[q]
    {
      TestEqualUnderEquality(coll[p], coll[q], equals);
    }
    DistinctIffSingleOccurrences(coll);
  }

  lemma DistinctIffSingleOccurrences<T>(s: seq<T>)
    ensures (forall p, q :: 0 <= p < q < |s| ==> s[p] != s[q]) <==> (forall v :: multiset(s)[v] <= 1)
  {
    if forall p, q :: 0 <= p < q < |s| ==> s[p] != s[q] {
      DistinctHasSingleOccurrences(s);
    } else {
      var p, q :| 0 <= p < q < |s| && s[p] == s[q];
      DuplicateOccursTwice(s, p, q);
    }
  }

  lemma {:induction false} DistinctHasSingleOccurrences<T>(s: seq<T>)
    requires forall p, q :: 0 <= p < q < |s| ==> s[p] != s[q]
    ensures forall v :: multiset(s)[v] <= 1
    decreases |s|
  {
    if |s| > 0 {
      var x, t := s[0], s[1..];
      assert s == [x] + t;
      forall p, q | 0 <= p < q < |t|
        ensures t[p] != t[q]
      {
        assert t[p] == s[p + 1] && t[q] == s[q + 1];
      }
      DistinctHasSingleOccurrences(t);
      forall k | 0 <= k < |t|
        ensures t[k] != x
      {
        assert t[k] == s[k + 1];
      }
      assert x !in multiset(t);
      assert multiset(s) == multiset{x} + multiset(t);
    }
  }

  lemma DuplicateOccursTwice<T>(s: seq<T>, p: nat, q: nat)
    requires p < q < |s| && s[p] == s[q]
    ensures multiset(s)[s[p]] >= 2
  {
    var v := s[p];
    assert s == s[..p] + [v] + s[p + 1..q] + [v] + s[q + 1..];
    assert multiset(s) == multiset(s[..p]) + multiset{v} + multiset(s[p + 1..q]) + multiset{v} + multiset(s[q + 1..]);
  }

  /** The first index at which the lock-step walk of a and b stops: the first
      pair `eq` rejects, or where one sequence runs out before the other. */
  function LockStep(a: seq<Value>, b: seq<Value>, eq: (Value, Value) -> bool, index: nat): (r: Option<nat>)
    requires index <= |a| && index <= |b|
    requires forall k :: 0 <= k < index ==> eq(a[k], b[k])
    ensures r.None? <==> |a| == |b| && forall k :: 0 <= k < |a| ==> eq(a[k], b[k])
    ensures r.Some? ==>
              index <= r.value <= |a| && r.value <= |b| &&
              (forall k :: 0 <= k < r.value ==> eq(a[k], b[k])) &&
              (r.value < |a| && r.value < |b| ==> !eq(a[r.value], b[r.value])) &&
              (r.value == |a| || r.value == |b| ==> |a| != |b|)
    decreases |a| - index
  {
    if index == |a| && index == |b| then None
    else if index == |a| || index == |b| || !eq(a[index], b[index]) then Some(index)
    else LockStep(a, b, eq, index + 1)
  }

  /** The text of IEnumerator.Current at `index`: the element, or the text of a
      null once the sequence has run out. */
  function CurrentText(s: seq<Value>, index: nat): string
  {
    if index < |s| then Display(s[index]) else Display(Null)
  }

  function AllItemsAreEqual(a: seq<Value>, b: seq<Value>, eq: (Value, Value) -> bool): (r: Completion)
    ensures r.Ok? <==> |a| == |b| && forall k :: 0 <= k < |a| ==> eq(a[k], b[k])
    ensures r.Raised? ==>
              exists index :: LockStep(a, b, eq, 0) == Some(index) &&
                r.exn == AssertionFailure("Collection are not equal at index " + IntToString(index)
                                          + "\n  a[" + IntToString(index) + "] = " + CurrentText(a, index)
                                          + "\n  b[" + IntToString(index) + "] = " + CurrentText(b, index) + "\n")
  {
    match LockStep(a, b, eq, 0)
    case None => Normal
    case Some(index) =>
      var i := IntToString(index);
      Fail("Collection are not equal at index " + i + "\n  a[" + i + "] = " + CurrentText(a, index)
           + "\n  b[" + i + "] = " + CurrentText(b, index) + "\n")
  }

  /** A failure of AllItemsAreEqual reports the first mismatching position, or
      the shorter length when one sequence is a prefix of the other. */
  lemma AllItemsAreEqualReportsFirstMismatch(a: seq<Value>, b: seq<Value>, eq: (Value, Value) -> bool)
    requires !AllItemsAreEqual(a, b, eq).Ok?
    ensures var index := LockStep(a, b, eq, 0).value;
            (index < |a| && index < |b| && !eq(a[index], b[index]) && forall k :: 0 <= k < index ==> eq(a[k], b[k])) ||
            (index == (if |a| < |b| then |a| else |b|) && |a| != |b| && forall k :: 0 <= k < index ==> eq(a[k], b[k]))
  {
  }

  /** The first null item from `index` on, if any. */
  function FirstNull(coll: seq<Value>, index: nat): (r: Option<nat>)
    requires index <= |coll|
    ensures r.None? <==> forall k :: index <= k < |coll| ==> !coll[k].Null?
    ensures r.Some? ==> index <= r.value < |coll| && coll[r.value].Null? &&
                        forall k :: index <= k < r.value ==> !coll[k].Null?
    decreases |coll| - index
  {
    if index == |coll| then None
    else if coll[index].Null? then Some(index)
    else FirstNull(coll, index + 1)
  }

  function AllItemsAreNotNull(coll: seq<Value>): (r: Completion)
    ensures r.Ok? <==> Null !in coll
    ensures r.Raised? ==>
              exists index :: 0 <= index < |coll| && coll[index] == Null && Null !in coll[..index] &&
                r.exn == AssertionFailure("Collection has a null item at index " + IntToString(index))
  {
    match FirstNull(coll, 0)
    case None => Normal
    case Some(index) =>
      assert forall v :: v in coll[..index] ==> !v.Null?;
      Fail("Collection has a null item at index " + IntToString(index))
  }

  // ---------------------------------------------------------------------
  // Exceptions
  // ---------------------------------------------------------------------

  /** Assert.Throws: `action` is the outcome of running the code and
      `assignable(t, k)` is t.IsAssignableFrom(k). The exception is returned
      when its type is assignable to `expected`; a wrong type fails from inside
      the catch block and so escapes; normal completion fails. */
  function Throws(expected: string, action: Completion, assignable: (string, string) -> bool): (r: Outcome<Exn>)
    ensures r.Ok? <==> action.Raised? && assignable(expected, action.exn.kind)
    ensures r.Ok? ==> r.value == action.exn
    ensures action.Ok? ==> r == Raised(AssertionFailure("Failed to throw exception of type " + expected))
    ensures action.Raised? && !assignable(expected, action.exn.kind) ==>
              r == Raised(AssertionFailure("Wrong exception type caught, expected " + expected + " received "
                                           + FormatValue(Error(action.exn))))
  {
    match action
    case Raised(x) =>
      if assignable(expected, x.kind) then Ok(x)
      else Raised(AssertionFailure("Wrong exception type caught, expected " + expected + " received " + FormatValue(Error(x))))
    case Ok(_) => Raised(AssertionFailure("Failed to throw exception of type " + expected))
  }

  function DoesNotThrow(action: Completion): (r: Completion)
    ensures r.Ok? <==> action.Ok?
    ensures r.Raised? ==> r.exn == AssertionFailure("Unexpected exception " + FormatValue(Error(action.exn)))
  {
    match action
    case Ok(_) => Normal
    case Raised(x) => Fail("Unexpected exception " + FormatValue(Error(x)))
  }

  /** Expecting a specific exception type and receiving a more general one
      fails the assertion instead of passing silently. */
  lemma ThrowsRejectsGeneralKind(specific: string, general: string, message: string, assignable: (string, string) -> bool)
    requires !assignable(specific, general)
    ensures Throws(specific, Raised(Exn(general, message)), assignable).Raised?
    ensures Throws(specific, Raised(Exn(general, message)), assignable).exn.kind == AssertionKind
  {
  }
}

=== FILE: catalogue.dfy ===
/** What reflection tells the runner about an assembly, as plain data: the
    types with their [TestFixture] markers, their public methods with [Test]
    markers and setup/teardown tags, and what running a constructor, a hook
    or a test body does. Also the selection rules: which markers, methods and
    types a run enters, and the tuples they expand to. */
module Catalogue {
  import opened Values

  /** The public method a marker's Source names: the tuples it yields. */
  datatype Provider = Provider(name: string, tuples: seq<Tuple>)

  /** A [TestFixture] or [Test] attribute: its literal Arguments, its Source
      and its Active flag. */
  datatype Marker = Marker(arguments: Tuple, source: Option<Provider>, active: bool)

  /** A SetUp (true, false), TearDown (false, false), TestFixtureSetUp
      (true, true) or TestFixtureTearDown (false, true) attribute. */
  datatype HookTag = HookTag(forSetup: bool, forFixture: bool)

  /** What invoking user code did, and how long it took. */
  datatype Call = Call(completion: Completion, millis: nat)

  /** A public method: its parameter count, its [Test] markers, its hook tags,
      and what invoking it on an instance built from the given fixture
      arguments with the given arguments does. */
  datatype Method = Method(name: string, paramCount: nat, tests: seq<Marker>, hooks: seq<HookTag>,
                           invoke: (Tuple, Tuple) -> Call)

  /** A type of the assembly. `construct` is what Activator.CreateInstance
      raises for the given arguments, if anything (a constructor's own
      exception arrives wrapped, a missing constructor is reported as such). */
  datatype FixtureType = FixtureType(name: string, isClass: bool, isAbstract: bool, fixtures: seq<Marker>,
                                     methods: seq<Method>, construct: Tuple -> Completion)

  /** TestBaseAttribute.GetArguments: the tuples the Source provider yields,
      or the literal Arguments as the only tuple. */
  function GetArguments(marker: Marker): (r: seq<Tuple>)
    ensures marker.source.None? ==> r == [marker.arguments]
    ensures marker.source.Some? ==> r == marker.source.value.tuples
  {
    match marker.source
    case None => [marker.arguments]
    case Some(provider) => provider.tuples
  }

  // ---------------------------------------------------------------------
  // Classification
  // ---------------------------------------------------------------------

  /** A class that is not abstract and carries at least one [TestFixture]. */
  predicate IsTestFixture(t: FixtureType)
  {
    t.isClass && !t.isAbstract && |t.fixtures| > 0
  }

  /** IsActive of a type: one of its [TestFixture] markers is active. */
  predicate IsActiveType(t: FixtureType)
  {
    exists k :: 0 <= k < |t.fixtures| && t.fixtures[k].active
  }

  /** IsActive of a method: one of its [Test] markers is active. */
  predicate IsActiveMethod(m: Method)
  {
    exists k :: 0 <= k < |m.tests| && m.tests[k].active
  }

  predicate HasActiveMethods(t: FixtureType)
  {
    exists j :: 0 <= j < |t.methods| && IsActiveMethod(t.methods[j])
  }

  predicate HasActive(t: FixtureType)
  {
    IsActiveType(t) || HasActiveMethods(t)
  }

  predicate AssemblyHasActive(types: seq<FixtureType>)
  {
    exists k :: 0 <= k < |types| && HasActive(types[k])
  }

  predicate IsHookFor(m: Method, setup: bool, fixture: bool)
  {
    HookTag(setup, fixture) in m.hooks
  }

  // ---------------------------------------------------------------------
  // Expansion of markers
  // ---------------------------------------------------------------------

  /** The tuples of the markers a run selects (all of them, or the active
      ones), marker by marker and in each marker's order. */
  function Expand(markers: seq<Marker>, all: bool): (r: seq<Tuple>)
  {
    if |markers| == 0 then []
    else (if all || markers[0].active then GetArguments(markers[0]) else []) + Expand(markers[1..], all)
  }

  /** Markers are expanded one after another: one more marker adds its own
      tuples, when selected, after those of the markers before it. */
  lemma {:induction false} ExpandAppend(markers: seq<Marker>, marker: Marker, all: bool)
    ensures Expand(markers + [marker], all)
            == Expand(markers, all) + (if all || marker.active then GetArguments(marker) else [])
    decreases |markers|
  {
    if |markers| == 0 {
      assert [marker][1..] == [];
    } else {
      assert (markers + [marker])[1..] == markers[1..] + [marker];
      ExpandAppend(markers[1..], marker, all);
    }
  }

  /** Narrowed to active markers, markers none of which is active yield no
      tuple at all; this is why an inactive type or method is not narrowed. */
  lemma {:induction false} ExpandNothingActive(markers: seq<Marker>)
    requires forall k :: 0 <= k < |markers| ==> !markers[k].active
    ensures Expand(markers, false) == []
    decreases |markers|
  {
    if |markers| > 0 {
      ExpandNothingActive(markers[1..]);
    }
  }

  /** Every tuple comes from a selected marker. */
  lemma {:induction false} ExpandSound(markers: seq<Marker>, all: bool)
    ensures forall x :: x in Expand(markers, all) ==>
              exists k :: 0 <= k < |markers| && (all || markers[k].active) && x in GetArguments(markers[k])
    decreases |markers|
  {
    if |markers| > 0 {
      ExpandSound(markers[1..], all);
      forall x | x in Expand(markers, all)
        ensures exists k :: 0 <= k < |markers| && (all || markers[k].active) && x in GetArguments(markers[k])
      {
        if x !in (if all || markers[0].active then GetArguments(markers[0]) else []) {
          assert x in Expand(markers[1..], all);
          var k :| 0 <= k < |markers[1..]| && (all || markers[1..][k].active) && x in GetArguments(markers[1..][k]);
          assert markers[1..][k] == markers[k + 1];
        }
      }
    }
  }

  /** Every tuple of every selected marker is expanded. */
  lemma {:induction false} ExpandComplete(markers: seq<Marker>, all: bool)
    ensures forall k, x :: 0 <= k < |markers| && (all || markers[k].active) && x in GetArguments(markers[k]) ==>
              x in Expand(markers, all)
    decreases |markers|
  {
    if |markers| > 0 {
      ExpandComplete(markers[1..], all);
      forall k, x | 0 <= k < |markers| && (all || markers[k].active) && x in GetArguments(markers[k])
        ensures x in Expand(markers, all)
      {
        if k > 0 {
          assert markers[1..][k - 1] == markers[k];
        }
      }
    }
  }

  /** Markers without a Source expand to their literal Arguments, one tuple
      each. */
  lemma {:induction false} ExpandLiteral(markers: seq<Marker>)
    requires forall k :: 0 <= k < |markers| ==> markers[k].source.None?
    ensures |Expand(markers, true)| == |markers|
    ensures forall k :: 0 <= k < |markers| ==> Expand(markers, true)[k] == markers[k].arguments
    decreases |markers|
  {
    if |markers| > 0 {
      ExpandLiteral(markers[1..]);
    }
  }

  /** The constructor tuples of a type: every marker's when the run is not
      narrowed or no marker is active, else the active markers' only. */
  function InstanceTuples(t: FixtureType, runAll: bool): seq<Tuple>
  {
    Expand(t.fixtures, runAll || !IsActiveType(t))
  }

  /** The argument tuples of a method's [Test] markers a run selects. */
  function TestTuples(m: Method, all: bool): seq<Tuple>
  {
    Expand(m.tests, all)
  }

  // ---------------------------------------------------------------------
  // Hooks
  // ---------------------------------------------------------------------

  /** What MethodInfo.Invoke raises when the argument count is wrong. */
  const ParameterCountMismatch := Exn("System.Reflection.TargetParameterCountException", "Parameter count mismatch.")

  /** MethodInfo.Invoke with no arguments: a hook that takes parameters
      raises TargetParameterCountException before running. */
  function InvokeHook(m: Method, fixtureArgs: Tuple): (r: Completion)
    ensures m.paramCount != 0 ==> r.Raised? && r.exn == ParameterCountMismatch
  {
    if m.paramCount != 0 then Raised(ParameterCountMismatch)
    else m.invoke(fixtureArgs, []).completion
  }

  /** A hook of the kind that raises when invoked. */
  predicate HookFails(m: Method, fixtureArgs: Tuple, setup: bool, fixture: bool)
  {
    IsHookFor(m, setup, fixture) && InvokeHook(m, fixtureArgs).Raised?
  }

  /** The first method from j on that is a failing hook of the kind, or -1. */
  function FirstFailingHook(t: FixtureType, fixtureArgs: Tuple, setup: bool, fixture: bool, j: nat): (r: int)
    requires j <= |t.methods|
    ensures r == -1 || j <= r < |t.methods|
    decreases |t.methods| - j
  {
    if j == |t.methods| then -1
    else if HookFails(t.methods[j], fixtureArgs, setup, fixture) then j
    else FirstFailingHook(t, fixtureArgs, setup, fixture, j + 1)
  }

  /** The search finds a failing hook with none before it, and reports -1
      exactly when no hook from j on fails. */
  lemma {:induction false} FirstFailingHookSpec(t: FixtureType, fixtureArgs: Tuple, setup: bool, fixture: bool, j: nat)
    requires j <= |t.methods|
    ensures var r := FirstFailingHook(t, fixtureArgs, setup, fixture, j);
            r >= 0 ==> HookFails(t.methods[r], fixtureArgs, setup, fixture) &&
                       forall k :: j <= k < r ==> !HookFails(t.methods[k], fixtureArgs, setup, fixture)
    ensures FirstFailingHook(t, fixtureArgs, setup, fixture, j) == -1 <==>
              forall k :: j <= k < |t.methods| ==> !HookFails(t.methods[k], fixtureArgs, setup, fixture)
    decreases |t.methods| - j
  {
    if j < |t.methods| && !HookFails(t.methods[j], fixtureArgs, setup, fixture) {
      FirstFailingHookSpec(t, fixtureArgs, setup, fixture, j + 1);
    }
  }

  /** Hook invocations: the methods' positions, in the order they ran, and
      the exception that stopped them. */
  datatype HookRun = HookRun(ran: seq<nat>, failure: Option<Exn>)

  /** The positions of the hooks of a kind among methods lo..hi-1. */
  function HooksBetween(t: FixtureType, setup: bool, fixture: bool, lo: nat, hi: nat): (r: seq<nat>)
    requires lo <= hi <= |t.methods|
    decreases hi - lo
  {
    if lo == hi then []
    else (if IsHookFor(t.methods[lo], setup, fixture) then [lo] else []) + HooksBetween(t, setup, fixture, lo + 1, hi)
  }

  /** Only hooks of the kind in the range are listed. */
  lemma {:induction false} HooksBetweenSound(t: FixtureType, setup: bool, fixture: bool, lo: nat, hi: nat)
    requires lo <= hi <= |t.methods|
    ensures forall p :: 0 <= p < |HooksBetween(t, setup, fixture, lo, hi)| ==>
              lo <= HooksBetween(t, setup, fixture, lo, hi)[p] < hi &&
              IsHookFor(t.methods[HooksBetween(t, setup, fixture, lo, hi)[p]], setup, fixture)
    decreases hi - lo
  {
    if lo < hi {
      HooksBetweenSound(t, setup, fixture, lo + 1, hi);
      var r := HooksBetween(t, setup, fixture, lo, hi);
      var rest := HooksBetween(t, setup, fixture, lo + 1, hi);
      if IsHookFor(t.methods[lo], setup, fixture) {
        assert r == [lo] + rest;
        forall p | 0 <= p < |r|
          ensures lo <= r[p] < hi && IsHookFor(t.methods[r[p]], setup, fixture)
        {
          if p > 0 {
            assert r[p] == rest[p - 1];
          }
        }
      } else {
        assert r == rest;
      }
    }
  }

  /** Every hook of the kind in the range is listed. */
  lemma {:induction false} HooksBetweenComplete(t: FixtureType, setup: bool, fixture: bool, lo: nat, hi: nat)
    requires lo <= hi <= |t.methods|
    ensures forall k :: lo <= k < hi && IsHookFor(t.methods[k], setup, fixture) ==>
              k in HooksBetween(t, setup, fixture, lo, hi)
    decreases hi - lo
  {
    if lo < hi {
      HooksBetweenComplete(t, setup, fixture, lo + 1, hi);
    }
  }

  /** RunSetupTeardown's loop from method j on: each hook of the kind is
      invoked in method order; the first exception ends the loop. */
  function ScanHooks(t: FixtureType, fixtureArgs: Tuple, setup: bool, fixture: bool, j: nat): (r: HookRun)
    requires j <= |t.methods|
    ensures forall p :: 0 <= p < |r.ran| ==> j <= r.ran[p] < |t.methods|
    decreases |t.methods| - j
  {
    if j == |t.methods| then HookRun([], None)
    else if !IsHookFor(t.methods[j], setup, fixture) then ScanHooks(t, fixtureArgs, setup, fixture, j + 1)
    else match InvokeHook(t.methods[j], fixtureArgs)
      case Raised(x) => HookRun([j], Some(x))
      case Ok(_) =>
        var rest := ScanHooks(t, fixtureArgs, setup, fixture, j + 1);
        HookRun([j] + rest.ran, rest.failure)
  }

  /** The loop over all of a type's methods. */
  function HookScan(t: FixtureType, fixtureArgs: Tuple, setup: bool, fixture: bool): (r: HookRun)
  {
    ScanHooks(t, fixtureArgs, setup, fixture, 0)
  }

  /** The loop agrees with the reference: it runs the hooks up to the first
      failing one and stops with its exception, or runs them all. */
  lemma {:induction false} ScanHooksAgrees(t: FixtureType, fixtureArgs: Tuple, setup: bool, fixture: bool, j: nat)
    requires j <= |t.methods|
    ensures var k := FirstFailingHook(t, fixtureArgs, setup, fixture, j);
            var r := ScanHooks(t, fixtureArgs, setup, fixture, j);
            if k < 0 then r == HookRun(HooksBetween(t, setup, fixture, j, |t.methods|), None)
            else InvokeHook(t.methods[k], fixtureArgs).Raised? &&
                 r == HookRun(HooksBetween(t, setup, fixture, j, k + 1), Some(InvokeHook(t.methods[k], fixtureArgs).exn))
    decreases |t.methods| - j
  {
    if j < |t.methods| && !HookFails(t.methods[j], fixtureArgs, setup, fixture) {
      ScanHooksAgrees(t, fixtureArgs, setup, fixture, j + 1);
    }
  }

  /** The loop runs to the end exactly when no hook of the kind raises, and
      then it ran every hook of the kind. */
  lemma HookScanCompletes(t: FixtureType, fixtureArgs: Tuple, setup: bool, fixture: bool)
    ensures var r := HookScan(t, fixtureArgs, setup, fixture);
            r.failure.None? <==> forall k :: 0 <= k < |t.methods| ==> !HookFails(t.methods[k], fixtureArgs, setup, fixture)
    ensures var r := HookScan(t, fixtureArgs, setup, fixture);
            r.failure.None? ==> r.ran == HooksBetween(t, setup, fixture, 0, |t.methods|)
  {
    ScanHooksAgrees(t, fixtureArgs, setup, fixture, 0);
    FirstFailingHookSpec(t, fixtureArgs, setup, fixture, 0);
  }

  /** The loop stops at the first hook that raises, and only there: it ran
      that hook last, every hook before it ran and returned, and the failure
      is that hook's exception. */
  lemma HookScanStops(t: FixtureType, fixtureArgs: Tuple, setup: bool, fixture: bool)
    ensures var r := HookScan(t, fixtureArgs, setup, fixture);
            r.failure.Some? ==>
              exists k :: 0 <= k < |t.methods| && IsHookFor(t.methods[k], setup, fixture) &&
                InvokeHook(t.methods[k], fixtureArgs) == Raised(r.failure.value) &&
                (forall k' :: 0 <= k' < k ==> !HookFails(t.methods[k'], fixtureArgs, setup, fixture)) &&
                r.ran == HooksBetween(t, setup, fixture, 0, k + 1) &&
                |r.ran| >= 1 && r.ran[|r.ran| - 1] == k
  {
    var k := FirstFailingHook(t, fixtureArgs, setup, fixture, 0);
    var r := HookScan(t, fixtureArgs, setup, fixture);
    if k >= 0 {
      var x := InvokeHook(t.methods[k], fixtureArgs);
      assert x.Raised? && r == HookRun(HooksBetween(t, setup, fixture, 0, k + 1), Some(x.exn)) by {
        ScanHooksAgrees(t, fixtureArgs, setup, fixture, 0);
      }
      assert HookFails(t.methods[k], fixtureArgs, setup, fixture) &&
             forall k' :: 0 <= k' < k ==> !HookFails(t.methods[k'], fixtureArgs, setup, fixture) by {
        FirstFailingHookSpec(t, fixtureArgs, setup, fixture, 0);
      }
      HooksLast(t, setup, fixture, 0, k);
      assert IsHookFor(t.methods[k], setup, fixture);
      assert InvokeHook(t.methods[k], fixtureArgs) == Raised(r.failure.value);
    } else {
      assert r.failure.None? by {
        ScanHooksAgrees(t, fixtureArgs, setup, fixture, 0);
      }
    }
  }

  /** A hook at position k is the last of the hooks from lo up to and
      including it. */
  lemma {:induction false} HooksLast(t: FixtureType, setup: bool, fixture: bool, lo: nat, k: nat)
    requires lo <= k < |t.methods| && IsHookFor(t.methods[k], setup, fixture)
    ensures |HooksBetween(t, setup, fixture, lo, k + 1)| >= 1
    ensures HooksBetween(t, setup, fixture, lo, k + 1)[|HooksBetween(t, setup, fixture, lo, k + 1)| - 1] == k
    decreases k - lo
  {
    if lo < k {
      HooksLast(t, setup, fixture, lo + 1, k);
      var rest := HooksBetween(t, setup, fixture, lo + 1, k + 1);
      var head: seq<nat> := if IsHookFor(t.methods[lo], setup, fixture) then [lo] else [];
      assert HooksBetween(t, setup, fixture, lo, k + 1) == head + rest;
    }
  }

  // ---------------------------------------------------------------------
  // The selection plan
  // ---------------------------------------------------------------------

  function Tag(k: nat, tuples: seq<Tuple>): (r: seq<(nat, Tuple)>)
    ensures |r| == |tuples| && forall p :: 0 <= p < |r| ==> r[p] == (k, tuples[p])
    decreases |tuples|
  {
    if |tuples| == 0 then [] else [(k, tuples[0])] + Tag(k, tuples[1..])
  }

  /** The fixture instances a run enters, from type k on: each test fixture
      the run selects, with each of its constructor tuples. */
  function TypesPlan(types: seq<FixtureType>, all: bool, k: nat): seq<(nat, Tuple)>
    requires k <= |types|
    decreases |types| - k
  {
    if k == |types| then []
    else
      (if IsTestFixture(types[k]) && (all || HasActive(types[k])) then Tag(k, InstanceTuples(types[k], all)) else [])
      + TypesPlan(types, all, k + 1)
  }

  /** The test tuples whose length fits the method, tagged with the method. */
  function Fitting(ti: nat, mi: nat, arity: nat, tuples: seq<Tuple>): seq<(nat, nat, Tuple)>
  {
    if |tuples| == 0 then []
    else (if |tuples[0]| == arity then [(ti, mi, tuples[0])] else []) + Fitting(ti, mi, arity, tuples[1..])
  }

  /** How many tuples do not fit the method's parameter count. */
  function Misfits(arity: nat, tuples: seq<Tuple>): nat
  {
    if |tuples| == 0 then 0
    else (if |tuples[0]| != arity then 1 else 0) + Misfits(arity, tuples[1..])
  }

  /** The tests an instance runs, from method j on: each selected method with
      each selected tuple that fits it. */
  function MethodsPlan(ti: nat, t: FixtureType, all: bool, j: nat): seq<(nat, nat, Tuple)>
    requires j <= |t.methods|
    decreases |t.methods| - j
  {
    if j == |t.methods| then []
    else
      (if all || IsActiveMethod(t.methods[j])
       then Fitting(ti, j, t.methods[j].paramCount, TestTuples(t.methods[j], all)) else [])
      + MethodsPlan(ti, t, all, j + 1)
  }

  /** The tuples an instance skips with a warning, from method j on. */
  function MethodsMisfits(t: FixtureType, all: bool, j: nat): nat
    requires j <= |t.methods|
    decreases |t.methods| - j
  {
    if j == |t.methods| then 0
    else
      (if all || IsActiveMethod(t.methods[j]) then Misfits(t.methods[j].paramCount, TestTuples(t.methods[j], all)) else 0)
      + MethodsMisfits(t, all, j + 1)
  }

  /** Every tuple of a method either runs as a test or is skipped with a
      warning, never both. */
  lemma {:induction false} FittingPartition(ti: nat, mi: nat, arity: nat, tuples: seq<Tuple>)
    ensures |Fitting(ti, mi, arity, tuples)| + Misfits(arity, tuples) == |tuples|
    decreases |tuples|
  {
    if |tuples| > 0 {
      FittingPartition(ti, mi, arity, tuples[1..]);
    }
  }

  /** A planned test is the given method with one of the given tuples, of
      the method's arity. */
  lemma {:induction false} FittingSound(ti: nat, mi: nat, arity: nat, tuples: seq<Tuple>)
    ensures forall test :: test in Fitting(ti, mi, arity, tuples) ==>
              test.0 == ti && test.1 == mi && |test.2| == arity && test.2 in tuples
    decreases |tuples|
  {
    if |tuples| > 0 {
      FittingSound(ti, mi, arity, tuples[1..]);
      var head := if |tuples[0]| == arity then [(ti, mi, tuples[0])] else [];
      var rest := Fitting(ti, mi, arity, tuples[1..]);
      assert Fitting(ti, mi, arity, tuples) == head + rest;
      forall test | test in rest
        ensures test.2 in tuples
      {
        assert test.2 in tuples[1..];
      }
    }
  }

  /** A planned test is a selected method, from j on, with one of its
      selected tuples that fits it. */
  lemma {:induction false} MethodsPlanSound(ti: nat, t: FixtureType, all: bool, j: nat)
    requires j <= |t.methods|
    ensures forall test :: test in MethodsPlan(ti, t, all, j) ==> PlannedTest(ti, t, all, j, test)
    decreases |t.methods| - j
  {
    if j < |t.methods| {
      MethodsPlanSound(ti, t, all, j + 1);
      var m := t.methods[j];
      var head := if all || IsActiveMethod(m) then Fitting(ti, j, m.paramCount, TestTuples(m, all)) else [];
      var rest := MethodsPlan(ti, t, all, j + 1);
      assert MethodsPlan(ti, t, all, j) == head + rest;
      FittingSound(ti, j, m.paramCount, TestTuples(m, all));
      forall test | test in rest
        ensures PlannedTest(ti, t, all, j, test)
      {
        assert PlannedTest(ti, t, all, j + 1, test);
      }
    }
  }

  /** A test some instance runs: a selected method from j on, with one of its
      selected tuples of the method's arity. */
  predicate PlannedTest(ti: nat, t: FixtureType, all: bool, j: nat, test: (nat, nat, Tuple))
  {
    test.0 == ti && j <= test.1 < |t.methods| && (all || IsActiveMethod(t.methods[test.1])) &&
    |test.2| == t.methods[test.1].paramCount && test.2 in TestTuples(t.methods[test.1], all)
  }

  /** A fixture instance some run enters: a selected test fixture type from k
      on, with one of its selected constructor tuples. */
  predicate PlannedInstance(types: seq<FixtureType>, all: bool, k: nat, instance: (nat, Tuple))
  {
    k <= instance.0 < |types| && IsTestFixture(types[instance.0]) && (all || HasActive(types[instance.0])) &&
    instance.1 in InstanceTuples(types[instance.0], all)
  }

  /** A planned fixture instance is a selected test fixture type, from k on,
      with one of its selected constructor tuples. */
  lemma {:induction false} TypesPlanSound(types: seq<FixtureType>, all: bool, k: nat)
    requires k <= |types|
    ensures forall instance :: instance in TypesPlan(types, all, k) ==> PlannedInstance(types, all, k, instance)
    decreases |types| - k
  {
    if k < |types| {
      TypesPlanSound(types, all, k + 1);
      var tuples := InstanceTuples(types[k], all);
      var head := if IsTestFixture(types[k]) && (all || HasActive(types[k])) then Tag(k, tuples) else [];
      var rest := TypesPlan(types, all, k + 1);
      assert TypesPlan(types, all, k) == head + rest;
      forall instance | instance in TypesPlan(types, all, k)
        ensures PlannedInstance(types, all, k, instance)
      {
        if instance in head {
          var p :| 0 <= p < |head| && head[p] == instance;
          assert instance == (k, tuples[p]);
        } else {
          assert PlannedInstance(types, all, k + 1, instance);
        }
      }
    }
  }

  /** A tuple of the method's arity is planned as a test. */
  lemma {:induction false} FittingComplete(ti: nat, mi: nat, arity: nat, tuples: seq<Tuple>)
    ensures forall x :: x in tuples && |x| == arity ==> (ti, mi, x) in Fitting(ti, mi, arity, tuples)
    decreases |tuples|
  {
    if |tuples| > 0 {
      FittingComplete(ti, mi, arity, tuples[1..]);
      var head := if |tuples[0]| == arity then [(ti, mi, tuples[0])] else [];
      var rest := Fitting(ti, mi, arity, tuples[1..]);
      assert Fitting(ti, mi, arity, tuples) == head + rest;
      forall x | x in tuples && |x| == arity
        ensures (ti, mi, x) in Fitting(ti, mi, arity, tuples)
      {
        if x != tuples[0] {
          assert x in tuples[1..];
        }
      }
    }
  }

  /** Every selected method from j on runs with every selected tuple that
      fits it. */
  lemma {:induction false} MethodsPlanComplete(ti: nat, t: FixtureType, all: bool, j: nat)
    requires j <= |t.methods|
    ensures forall test :: PlannedTest(ti, t, all, j, test) ==> test in MethodsPlan(ti, t, all, j)
    decreases |t.methods| - j
  {
    if j < |t.methods| {
      MethodsPlanComplete(ti, t, all, j + 1);
      var m := t.methods[j];
      var head := if all || IsActiveMethod(m) then Fitting(ti, j, m.paramCount, TestTuples(m, all)) else [];
      var rest := MethodsPlan(ti, t, all, j + 1);
      assert MethodsPlan(ti, t, all, j) == head + rest;
      FittingComplete(ti, j, m.paramCount, TestTuples(m, all));
      forall test | PlannedTest(ti, t, all, j, test)
        ensures test in MethodsPlan(ti, t, all, j)
      {
        if test.1 == j {
          assert test == (ti, j, test.2);
        } else {
          assert PlannedTest(ti, t, all, j + 1, test);
        }
      }
    }
  }

  /** The methods plan holds exactly the planned tests. */
  lemma MethodsPlanExact(ti: nat, t: FixtureType, all: bool, j: nat)
    requires j <= |t.methods|
    ensures forall test :: test in MethodsPlan(ti, t, all, j) <==> PlannedTest(ti, t, all, j, test)
  {
    MethodsPlanSound(ti, t, all, j);
    MethodsPlanComplete(ti, t, all, j);
  }

  /** Every selected test fixture type from k on is entered with every one of
      its selected constructor tuples. */
  lemma {:induction false} TypesPlanComplete(types: seq<FixtureType>, all: bool, k: nat)
    requires k <= |types|
    ensures forall instance :: PlannedInstance(types, all, k, instance) ==> instance in TypesPlan(types, all, k)
    decreases |types| - k
  {
    if k < |types| {
      TypesPlanComplete(types, all, k + 1);
      var tuples := InstanceTuples(types[k], all);
      var head := if IsTestFixture(types[k]) && (all || HasActive(types[k])) then Tag(k, tuples) else [];
      var rest := TypesPlan(types, all, k + 1);
      assert TypesPlan(types, all, k) == head + rest;
      forall instance | PlannedInstance(types, all, k, instance)
        ensures instance in TypesPlan(types, all, k)
      {
        if instance.0 == k {
          var p :| 0 <= p < |tuples| && tuples[p] == instance.1;
          assert head[p] == instance;
        } else {
          assert PlannedInstance(types, all, k + 1, instance);
        }
      }
    }
  }

  /** The types plan holds exactly the planned fixture instances. */
  lemma TypesPlanExact(types: seq<FixtureType>, all: bool, k: nat)
    requires k <= |types|
    ensures forall instance :: instance in TypesPlan(types, all, k) <==> PlannedInstance(types, all, k, instance)
  {
    TypesPlanSound(types, all, k);
    TypesPlanComplete(types, all, k);
  }

  // ---------------------------------------------------------------------
  // The tests a run starts
  // ---------------------------------------------------------------------

  /** An instance reaches its tests: the constructor returns and no fixture
      setup fails. */
  predicate InstanceReady(t: FixtureType, args: Tuple)
  {
    t.construct(args).Ok? && HookScan(t, args, true, true).failure.None?
  }

  /** The tests one fixture instance starts. */
  function InstanceTests(ti: nat, t: FixtureType, args: Tuple, all: bool): seq<(nat, nat, Tuple)>
  {
    if InstanceReady(t, args) then MethodsPlan(ti, t, all, 0) else []
  }

  /** The tests the instances of one type start, instance by instance. */
  function InstancesTests(ti: nat, t: FixtureType, tuples: seq<Tuple>, all: bool): seq<(nat, nat, Tuple)>
    decreases |tuples|
  {
    if |tuples| == 0 then []
    else InstanceTests(ti, t, tuples[0], all) + InstancesTests(ti, t, tuples[1..], all)
  }

  /** The tests a run starts from type k on: a type's methods are filtered by
      activity only when one of them is active. */
  function TypesTests(types: seq<FixtureType>, all: bool, k: nat): seq<(nat, nat, Tuple)>
    requires k <= |types|
    decreases |types| - k
  {
    if k == |types| then []
    else
      (if IsTestFixture(types[k]) && (all || HasActive(types[k]))
       then InstancesTests(k, types[k], InstanceTuples(types[k], all), all || !HasActiveMethods(types[k]))
       else [])
      + TypesTests(types, all, k + 1)
  }

  /** `test` runs in the instance of a selected test fixture type (from k on)
      built from `args`: the instance is ready and the test is planned with the
      type's method filter. */
  predicate StartedVia(types: seq<FixtureType>, all: bool, k: nat, args: Tuple, test: (nat, nat, Tuple))
  {
    k <= test.0 < |types| && IsTestFixture(types[test.0]) && (all || HasActive(types[test.0])) &&
    args in InstanceTuples(types[test.0], all) && InstanceReady(types[test.0], args) &&
    PlannedTest(test.0, types[test.0], all || !HasActiveMethods(types[test.0]), 0, test)
  }

  /** The instances built from `tuples` start exactly the planned tests, once
      some instance is ready. */
  lemma {:induction false} InstancesTestsExact(ti: nat, t: FixtureType, tuples: seq<Tuple>, all: bool)
    ensures forall test :: test in InstancesTests(ti, t, tuples, all) <==>
              PlannedTest(ti, t, all, 0, test) && exists args :: args in tuples && InstanceReady(t, args)
    decreases |tuples|
  {
    if |tuples| > 0 {
      InstancesTestsExact(ti, t, tuples[1..], all);
      MethodsPlanExact(ti, t, all, 0);
      var head := InstanceTests(ti, t, tuples[0], all);
      var rest := InstancesTests(ti, t, tuples[1..], all);
      forall test
        ensures test in InstancesTests(ti, t, tuples, all) <==>
                PlannedTest(ti, t, all, 0, test) && exists args :: args in tuples && InstanceReady(t, args)
      {
        if PlannedTest(ti, t, all, 0, test) && exists args :: args in tuples && InstanceReady(t, args) {
          var args :| args in tuples && InstanceReady(t, args);
          if args != tuples[0] {
            assert args in tuples[1..];
          }
        }
        if test in rest {
          var args :| args in tuples[1..] && InstanceReady(t, args);
          assert args in tuples;
        }
      }
    }
  }

  /** The run from type k on starts exactly the tests some ready instance of
      a selected type plans. */
  lemma {:induction false} TypesTestsExact(types: seq<FixtureType>, all: bool, k: nat)
    requires k <= |types|
    ensures forall test :: test in TypesTests(types, all, k) <==> exists args :: StartedVia(types, all, k, args, test)
    decreases |types| - k
  {
    if k < |types| {
      TypesTestsExact(types, all, k + 1);
      var t := types[k];
      var selected := IsTestFixture(t) && (all || HasActive(t));
      var filter := all || !HasActiveMethods(t);
      InstancesTestsExact(k, t, InstanceTuples(t, all), filter);
      var head := if selected then InstancesTests(k, t, InstanceTuples(t, all), filter) else [];
      var rest := TypesTests(types, all, k + 1);
      assert TypesTests(types, all, k) == head + rest;
      forall test
        ensures test in TypesTests(types, all, k) <==> exists args :: StartedVia(types, all, k, args, test)
      {
        if test in head {
          var args :| args in InstanceTuples(t, all) && InstanceReady(t, args);
          assert StartedVia(types, all, k, args, test);
        }
        if test in rest {
          var args :| StartedVia(types, all, k + 1, args, test);
          assert StartedVia(types, all, k, args, test);
        }
        if exists args :: StartedVia(types, all, k, args, test) {
          var args :| StartedVia(types, all, k, args, test);
          if test.0 == k {
            assert test in head;
          } else {
            assert StartedVia(types, all, k + 1, args, test);
          }
        }
      }
    }
  }
}

=== FILE: engine.dfy ===
/** Runner.RunInternal and its helpers: the walk from the assembly through the
    selected fixture types, their constructor tuples, their instances'
    fixture hooks, the selected methods and their test tuples, down to
    RunTest with its per-test hooks. Each level is a function from the stats
    stack to an Effect, and each states what it tells the writer, what it
    adds to the counters and which user code it calls. */
module Engine {
  import opened Values
  import opened Catalogue
  import opened StatsStack

  const ArityPrefix := "FemtoTest.TestAttribute provided in an incorrect number of arguments (expected "

  /** The text WriteWarning receives for a notice. */
  function NoticeText(n: Notice): (r: string)
  {
    ArityPrefix + NatToString(n.expected) + " but found " + NatToString(n.found) + ") - skipped"
  }

  /** Both counts can be read back from the warning text: the expected one
      right after the fixed prefix, the found one after " but found ". */
  lemma NoticeTextNumbers(n: Notice)
    ensures var r := NoticeText(n);
            var i := |ArityPrefix|;
            var e := NatToString(n.expected);
            var j := i + |e| + |" but found "|;
            var f := NatToString(n.found);
            |r| == j + |f| + |") - skipped"| &&
            r[..i] == ArityPrefix &&
            AllDigits(r[i..i + |e|]) && ParseNat(r[i..i + |e|]) == n.expected &&
            AllDigits(r[j..j + |f|]) && ParseNat(r[j..j + |f|]) == n.found &&
            r[i + |e|..j] == " but found "
  {
    var r := NoticeText(n);
    var i := |ArityPrefix|;
    var e := NatToString(n.expected);
    var j := i + |e| + |" but found "|;
    var f := NatToString(n.found);
    assert r == ArityPrefix + e + " but found " + f + ") - skipped";
    assert r[i..i + |e|] == e;
    assert r[j..j + |f|] == f;
    assert r[i + |e|..j] == " but found ";
    NatToStringRoundTrip(n.expected);
    NatToStringRoundTrip(n.found);
  }

  function Failures(o: Option<Exn>): (r: seq<Exn>)
    ensures |r| <= 1 && (|r| == 1 <==> o.Some?)
  {
    match o
    case None => []
    case Some(x) => [x]
  }

  function Raises(c: Completion): (r: seq<Exn>)
    ensures |r| <= 1 && (|r| == 1 <==> c.Raised?)
  {
    match c
    case Ok(_) => []
    case Raised(x) => [x]
  }

  /** The invocations of the hooks at the given method positions. */
  function HookCalls(ti: nat, ran: seq<nat>): seq<Invocation>
  {
    if |ran| == 0 then [] else [Hook(ti, ran[0])] + HookCalls(ti, ran[1..])
  }

  // ---------------------------------------------------------------------
  // Hooks and tests
  // ---------------------------------------------------------------------

  /** Runner.RunSetupTeardown: the hooks of a kind run in method order; the
      first to raise is reported as an error on the current Stats and ends
      the loop. The flag says whether none raised. */
  function RunSetupTeardown(r: Runner, ti: nat, t: FixtureType, fixtureArgs: Tuple, setup: bool, fixture: bool)
    : (res: (Effect, bool))
    ensures Framed(r, res.0)
  {
    var scan := HookScan(t, fixtureArgs, setup, fixture);
    var ran := Record(r, HookCalls(ti, scan.ran));
    match scan.failure
    case None => (ran, true)
    case Some(x) => (Then(ran, ReportError(r, x)), false)
  }

  /** The hooks that ran are recorded in order; the stopping exception, if
      any, is the one error reported, and it is what the flag says. */
  lemma RunSetupTeardownSpec(r: Runner, ti: nat, t: FixtureType, fixtureArgs: Tuple, setup: bool, fixture: bool)
    ensures var scan := HookScan(t, fixtureArgs, setup, fixture);
            var res := RunSetupTeardown(r, ti, t, fixtureArgs, setup, fixture);
            Balanced(r, res.0) &&
            res.1 == scan.failure.None? &&
            res.0.calls == HookCalls(ti, scan.ran) &&
            res.0.events == Exceptions(Failures(scan.failure))
  {
    var scan := HookScan(t, fixtureArgs, setup, fixture);
    var ran := Record(r, HookCalls(ti, scan.ran));
    RecordBalanced(r, HookCalls(ti, scan.ran));
    match scan.failure
    case None =>
      ExceptionsNone();
    case Some(x) =>
      ReportErrorBalanced(r, x);
      ChainBalanced(r, ran, ReportError(r, x));
  }

  /** The end of RunTest's try block or its catch: Passed, or the exception
      as an error. */
  function Tally(r: Runner, c: Completion): (e: Effect)
    ensures Framed(r, e) && e.calls == []
    ensures e.after.top.counts ==
              r.top.counts.(errors := r.top.counts.errors + |Raises(c)|,
                            passed := r.top.counts.passed + (if c.Ok? then 1 else 0))
  {
    match c
    case Ok(_) => Quiet(AddPassed(r))
    case Raised(x) => ReportError(r, x)
  }

  /** What the writer hears of a test's outcome: its exception, if any. */
  lemma TallyEvents(r: Runner, c: Completion)
    ensures Tally(r, c).events == Exceptions(Raises(c))
  {
    match c
    case Ok(_) => ExceptionsNone();
    case Raised(x) => ExceptionsOne(x);
  }

  /** RunTest after a successful setup: the body, its elapsed time, its
      outcome, then the teardown hooks. */
  function TestBody(r: Runner, ti: nat, t: FixtureType, fixtureArgs: Tuple, mi: nat, args: Tuple): (e: Effect)
    requires mi < |t.methods|
    ensures Framed(r, e)
  {
    var call := t.methods[mi].invoke(fixtureArgs, args);
    var tally := Tally(SetElapsed(r, call.millis), call.completion);
    var teardown := RunSetupTeardown(tally.after, ti, t, fixtureArgs, false, false).0;
    Then(Then(Record(r, [Body(ti, mi, args)]), tally), teardown)
  }

  /** After the setup, the body is called and then the teardown hooks. */
  lemma TestBodyCalls(r: Runner, ti: nat, t: FixtureType, fixtureArgs: Tuple, mi: nat, args: Tuple)
    requires mi < |t.methods|
    ensures TestBody(r, ti, t, fixtureArgs, mi, args).calls ==
              [Body(ti, mi, args)] + HookCalls(ti, HookScan(t, fixtureArgs, false, false).ran)
  {
    var call := t.methods[mi].invoke(fixtureArgs, args);
    var tally := Tally(SetElapsed(r, call.millis), call.completion);
    assert RunSetupTeardown(tally.after, ti, t, fixtureArgs, false, false).0.calls ==
           HookCalls(ti, HookScan(t, fixtureArgs, false, false).ran) by {
      RunSetupTeardownSpec(tally.after, ti, t, fixtureArgs, false, false);
    }
  }

  /** The writer hears the body's exception and then the teardown's. */
  lemma TestBodyEvents(r: Runner, ti: nat, t: FixtureType, fixtureArgs: Tuple, mi: nat, args: Tuple)
    requires mi < |t.methods|
    ensures TestBody(r, ti, t, fixtureArgs, mi, args).events ==
              Exceptions(Raises(t.methods[mi].invoke(fixtureArgs, args).completion) +
                         Failures(HookScan(t, fixtureArgs, false, false).failure))
  {
    var call := t.methods[mi].invoke(fixtureArgs, args);
    var tally := Tally(SetElapsed(r, call.millis), call.completion);
    var ys := Failures(HookScan(t, fixtureArgs, false, false).failure);
    assert RunSetupTeardown(tally.after, ti, t, fixtureArgs, false, false).0.events == Exceptions(ys) by {
      RunSetupTeardownSpec(tally.after, ti, t, fixtureArgs, false, false);
    }
    TallyEvents(SetElapsed(r, call.millis), call.completion);
    ExceptionsAppend(Raises(call.completion), ys);
  }

  /** One error per exception of the body and the teardown, Passed when the
      body returned, and the body's elapsed time. */
  lemma TestBodyCounts(r: Runner, ti: nat, t: FixtureType, fixtureArgs: Tuple, mi: nat, args: Tuple)
    requires mi < |t.methods|
    ensures var call := t.methods[mi].invoke(fixtureArgs, args);
            var xs := Raises(call.completion) + Failures(HookScan(t, fixtureArgs, false, false).failure);
            TestBody(r, ti, t, fixtureArgs, mi, args).after.top.counts ==
              Counts(r.top.counts.errors + |xs|, r.top.counts.warnings,
                     r.top.counts.passed + (if call.completion.Ok? then 1 else 0), call.millis)
  {
    var call := t.methods[mi].invoke(fixtureArgs, args);
    var tally := Tally(SetElapsed(r, call.millis), call.completion);
    var teardown := RunSetupTeardown(tally.after, ti, t, fixtureArgs, false, false).0;
    var ys := Failures(HookScan(t, fixtureArgs, false, false).failure);
    assert Balanced(tally.after, teardown) && teardown.events == Exceptions(ys) by {
      RunSetupTeardownSpec(tally.after, ti, t, fixtureArgs, false, false);
    }
    assert Reported(teardown.events) == Counts(|ys|, 0, 0, 0) by {
      ExceptionsReport(ys);
    }
  }

  /** What runs inside a test's Stats frame: the setup hooks and, unless
      one raised, the body and the teardown hooks. */
  function TestFrame(s: Runner, ti: nat, t: FixtureType, fixtureArgs: Tuple, mi: nat, args: Tuple): (e: Effect)
    requires mi < |t.methods|
    ensures Framed(s, e)
  {
    var setup := RunSetupTeardown(s, ti, t, fixtureArgs, true, false);
    if !setup.1 then setup.0
    else Then(setup.0, TestBody(setup.0.after, ti, t, fixtureArgs, mi, args))
  }

  /** Runner.RunTest: a Stats frame for the test around the hooks and the body. */
  function RunTest(r: Runner, ti: nat, t: FixtureType, fixtureArgs: Tuple, mi: nat, args: Tuple): (e: Effect)
    requires mi < |t.methods|
    ensures Framed(r, e)
  {
    var target := TestTarget(ti, mi);
    Enclose(r, target, Some(args), TestFrame(StartTest(r, target, Some(args)).after, ti, t, fixtureArgs, mi, args))
  }

  /** The errors a test reports, in order: the setup hook's exception when
      one raises (and then nothing else runs), otherwise the body's exception
      followed by the teardown hook's. */
  function TestErrors(t: FixtureType, fixtureArgs: Tuple, mi: nat, args: Tuple): seq<Exn>
    requires mi < |t.methods|
  {
    var setup := HookScan(t, fixtureArgs, true, false);
    if setup.failure.Some? then Failures(setup.failure)
    else Raises(t.methods[mi].invoke(fixtureArgs, args).completion) + Failures(HookScan(t, fixtureArgs, false, false).failure)
  }

  /** 1 when the setup hooks and the body returned, else 0. */
  function TestPassed(t: FixtureType, fixtureArgs: Tuple, mi: nat, args: Tuple): nat
    requires mi < |t.methods|
  {
    if HookScan(t, fixtureArgs, true, false).failure.None? && t.methods[mi].invoke(fixtureArgs, args).completion.Ok? then 1 else 0
  }

  /** The body's elapsed time, or 0 when it never ran. */
  function TestMillis(t: FixtureType, fixtureArgs: Tuple, mi: nat, args: Tuple): nat
    requires mi < |t.methods|
  {
    if HookScan(t, fixtureArgs, true, false).failure.Some? then 0 else t.methods[mi].invoke(fixtureArgs, args).millis
  }

  /** Inside a fresh frame, a test writes exactly its errors and leaves the
      frame holding their number, its Passed and its elapsed time. */
  lemma TestFrameSpec(s: Runner, ti: nat, t: FixtureType, fixtureArgs: Tuple, mi: nat, args: Tuple)
    requires mi < |t.methods| && s.top.counts == Zero()
    ensures var e := TestFrame(s, ti, t, fixtureArgs, mi, args);
            var xs := TestErrors(t, fixtureArgs, mi, args);
            e.events == Exceptions(xs) &&
            e.after.top.counts == Counts(|xs|, 0, TestPassed(t, fixtureArgs, mi, args), TestMillis(t, fixtureArgs, mi, args))
  {
    if HookScan(t, fixtureArgs, true, false).failure.Some? {
      FailedSetupFrame(s, ti, t, fixtureArgs, mi, args);
    } else {
      PassedSetupFrame(s, ti, t, fixtureArgs, mi, args);
    }
  }

  lemma FailedSetupFrame(s: Runner, ti: nat, t: FixtureType, fixtureArgs: Tuple, mi: nat, args: Tuple)
    requires mi < |t.methods| && s.top.counts == Zero()
    requires HookScan(t, fixtureArgs, true, false).failure.Some?
    ensures var e := TestFrame(s, ti, t, fixtureArgs, mi, args);
            e.events == Exceptions(Failures(HookScan(t, fixtureArgs, true, false).failure)) &&
            e.after.top.counts == Counts(1, 0, 0, 0)
  {
    var xs := Failures(HookScan(t, fixtureArgs, true, false).failure);
    var setup := RunSetupTeardown(s, ti, t, fixtureArgs, true, false);
    assert Balanced(s, setup.0) && !setup.1 && setup.0.events == Exceptions(xs) by {
      RunSetupTeardownSpec(s, ti, t, fixtureArgs, true, false);
    }
    assert Reported(setup.0.events) == Counts(1, 0, 0, 0) by {
      ExceptionsReport(xs);
    }
    PlusLaws(Zero(), Counts(1, 0, 0, 0), Zero());
  }

  lemma PassedSetupFrame(s: Runner, ti: nat, t: FixtureType, fixtureArgs: Tuple, mi: nat, args: Tuple)
    requires mi < |t.methods| && s.top.counts == Zero()
    requires HookScan(t, fixtureArgs, true, false).failure.None?
    ensures var e := TestFrame(s, ti, t, fixtureArgs, mi, args);
            var call := t.methods[mi].invoke(fixtureArgs, args);
            var xs := Raises(call.completion) + Failures(HookScan(t, fixtureArgs, false, false).failure);
            e.events == Exceptions(xs) &&
            e.after.top.counts == Counts(|xs|, 0, if call.completion.Ok? then 1 else 0, call.millis)
  {
    var setup := RunSetupTeardown(s, ti, t, fixtureArgs, true, false);
    assert Balanced(s, setup.0) && setup.1 && setup.0.events == [] by {
      RunSetupTeardownSpec(s, ti, t, fixtureArgs, true, false);
      ExceptionsNone();
    }
    assert setup.0.after.top.counts == Zero() by {
      ReportedNone(setup.0.events);
      PlusLaws(Zero(), Zero(), Zero());
    }
    TestBodyEvents(setup.0.after, ti, t, fixtureArgs, mi, args);
    TestBodyCounts(setup.0.after, ti, t, fixtureArgs, mi, args);
    assert Then(setup.0, TestBody(setup.0.after, ti, t, fixtureArgs, mi, args)).events
        == TestBody(setup.0.after, ti, t, fixtureArgs, mi, args).events;
  }

  /** A test's counters: one error per exception it reports, Passed when the
      setup and the body returned, the body's elapsed time; its parent grows
      by exactly these. */
  lemma RunTestCounts(r: Runner, ti: nat, t: FixtureType, fixtureArgs: Tuple, mi: nat, args: Tuple)
    requires mi < |t.methods|
    ensures Balanced(r, RunTest(r, ti, t, fixtureArgs, mi, args))
    ensures Reported(RunTest(r, ti, t, fixtureArgs, mi, args).events) ==
              Counts(|TestErrors(t, fixtureArgs, mi, args)|, 0, TestPassed(t, fixtureArgs, mi, args), TestMillis(t, fixtureArgs, mi, args))
  {
    var target := TestTarget(ti, mi);
    var start := StartTest(r, target, Some(args)).after;
    TestFrameSpec(start, ti, t, fixtureArgs, mi, args);
    TestBracket(r, target, args, TestFrame(start, ti, t, fixtureArgs, mi, args), TestErrors(t, fixtureArgs, mi, args),
                TestPassed(t, fixtureArgs, mi, args), TestMillis(t, fixtureArgs, mi, args));
  }

  /** What a test reports: a setup failure is one error and nothing else;
      otherwise the body's and the teardown's exceptions, at most one each. */
  lemma TestErrorsBound(t: FixtureType, fixtureArgs: Tuple, mi: nat, args: Tuple)
    requires mi < |t.methods|
    ensures var xs := TestErrors(t, fixtureArgs, mi, args);
            (HookScan(t, fixtureArgs, true, false).failure.Some? ==>
               |xs| == 1 && TestPassed(t, fixtureArgs, mi, args) == 0 && TestMillis(t, fixtureArgs, mi, args) == 0) &&
            |xs| <= 2 &&
            (TestPassed(t, fixtureArgs, mi, args) == 1 ==> |xs| <= 1)
  {
  }

  /** A test starts itself and no fixture. */
  lemma RunTestStarts(r: Runner, ti: nat, t: FixtureType, fixtureArgs: Tuple, mi: nat, args: Tuple)
    requires mi < |t.methods|
    ensures FixtureStarts(RunTest(r, ti, t, fixtureArgs, mi, args).events) == []
    ensures TestStarts(RunTest(r, ti, t, fixtureArgs, mi, args).events) == [(ti, mi, args)]
  {
    var target := TestTarget(ti, mi);
    var start := StartTest(r, target, Some(args)).after;
    TestFrameSpec(start, ti, t, fixtureArgs, mi, args);
    TestBracketStarts(r, target, args, TestFrame(start, ti, t, fixtureArgs, mi, args), TestErrors(t, fixtureArgs, mi, args));
  }

  /** The user code a test runs: its setup hooks up to the first that
      raises; when none raises, the body and then the teardown hooks. */
  lemma RunTestCalls(r: Runner, ti: nat, t: FixtureType, fixtureArgs: Tuple, mi: nat, args: Tuple)
    requires mi < |t.methods|
    ensures var setup := HookScan(t, fixtureArgs, true, false);
            var teardown := HookScan(t, fixtureArgs, false, false);
            RunTest(r, ti, t, fixtureArgs, mi, args).calls ==
              if setup.failure.Some? then HookCalls(ti, setup.ran)
              else HookCalls(ti, setup.ran) + [Body(ti, mi, args)] + HookCalls(ti, teardown.ran)
  {
    var target := TestTarget(ti, mi);
    var start := StartTest(r, target, Some(args)).after;
    var setup := RunSetupTeardown(start, ti, t, fixtureArgs, true, false);
    var before := HookCalls(ti, HookScan(t, fixtureArgs, true, false).ran);
    assert setup.0.calls == before && setup.1 == HookScan(t, fixtureArgs, true, false).failure.None? by {
      RunSetupTeardownSpec(start, ti, t, fixtureArgs, true, false);
    }
    if setup.1 {
      var body := TestBody(setup.0.after, ti, t, fixtureArgs, mi, args);
      assert body.calls == [Body(ti, mi, args)] + HookCalls(ti, HookScan(t, fixtureArgs, false, false).ran) by {
        TestBodyCalls(setup.0.after, ti, t, fixtureArgs, mi, args);
      }
      assert TestFrame(start, ti, t, fixtureArgs, mi, args).calls == before + body.calls;
    }
  }

  // ---------------------------------------------------------------------
  // Methods of an instance
  // ---------------------------------------------------------------------

  /** A test tuple of a method: a warning when its length is not the
      method's parameter count, else the test. */
  function TupleStep(r: Runner, ti: nat, t: FixtureType, fixtureArgs: Tuple, mi: nat, args: Tuple): (e: Effect)
    requires mi < |t.methods|
    ensures Framed(r, e)
  {
    var arity := t.methods[mi].paramCount;
    if |args| != arity then ReportWarning(r, ArityMismatch(arity, |args|))
    else RunTest(r, ti, t, fixtureArgs, mi, args)
  }

  lemma TupleStepCounts(r: Runner, ti: nat, t: FixtureType, fixtureArgs: Tuple, mi: nat, args: Tuple)
    requires mi < |t.methods|
    ensures Balanced(r, TupleStep(r, ti, t, fixtureArgs, mi, args))
    ensures Reported(TupleStep(r, ti, t, fixtureArgs, mi, args).events).warnings ==
              if |args| == t.methods[mi].paramCount then 0 else 1
  {
    if |args| != t.methods[mi].paramCount {
      ReportWarningBalanced(r, ArityMismatch(t.methods[mi].paramCount, |args|));
    } else {
      RunTestCounts(r, ti, t, fixtureArgs, mi, args);
    }
  }

  lemma TupleStepStarts(r: Runner, ti: nat, t: FixtureType, fixtureArgs: Tuple, mi: nat, args: Tuple)
    requires mi < |t.methods|
    ensures FixtureStarts(TupleStep(r, ti, t, fixtureArgs, mi, args).events) == []
    ensures TestStarts(TupleStep(r, ti, t, fixtureArgs, mi, args).events) ==
              if |args| == t.methods[mi].paramCount then [(ti, mi, args)] else []
  {
    if |args| != t.methods[mi].paramCount {
      ReportWarningStarts(r, ArityMismatch(t.methods[mi].paramCount, |args|));
    } else {
      RunTestStarts(r, ti, t, fixtureArgs, mi, args);
    }
  }

  /** The tuples of one method's selected [Test] markers, in order. */
  function RunTuples(r: Runner, ti: nat, t: FixtureType, fixtureArgs: Tuple, mi: nat, tuples: seq<Tuple>): (e: Effect)
    requires mi < |t.methods|
    decreases |tuples|
    ensures Framed(r, e)
  {
    if |tuples| == 0 then Quiet(r)
    else
      var first := TupleStep(r, ti, t, fixtureArgs, mi, tuples[0]);
      Then(first, RunTuples(first.after, ti, t, fixtureArgs, mi, tuples[1..]))
  }

  /** A method's tuples add their tests' counters, and one warning for each
      tuple that does not fit the method. */
  lemma {:induction false} RunTuplesCounts(r: Runner, ti: nat, t: FixtureType, fixtureArgs: Tuple, mi: nat, tuples: seq<Tuple>)
    requires mi < |t.methods|
    ensures Balanced(r, RunTuples(r, ti, t, fixtureArgs, mi, tuples))
    ensures Reported(RunTuples(r, ti, t, fixtureArgs, mi, tuples).events).warnings ==
              Misfits(t.methods[mi].paramCount, tuples)
    decreases |tuples|
  {
    if |tuples| == 0 {
      QuietBalanced(r);
    } else {
      var first := TupleStep(r, ti, t, fixtureArgs, mi, tuples[0]);
      var rest := RunTuples(first.after, ti, t, fixtureArgs, mi, tuples[1..]);
      TupleStepCounts(r, ti, t, fixtureArgs, mi, tuples[0]);
      RunTuplesCounts(first.after, ti, t, fixtureArgs, mi, tuples[1..]);
      ChainBalanced(r, first, rest);
    }
  }

  /** A method's tuples start exactly the tests whose tuple fits, in order. */
  lemma {:induction false} RunTuplesStarts(r: Runner, ti: nat, t: FixtureType, fixtureArgs: Tuple, mi: nat, tuples: seq<Tuple>)
    requires mi < |t.methods|
    ensures FixtureStarts(RunTuples(r, ti, t, fixtureArgs, mi, tuples).events) == []
    ensures TestStarts(RunTuples(r, ti, t, fixtureArgs, mi, tuples).events) ==
              Fitting(ti, mi, t.methods[mi].paramCount, tuples)
    decreases |tuples|
  {
    if |tuples| == 0 {
      QuietStarts();
    } else {
      var first := TupleStep(r, ti, t, fixtureArgs, mi, tuples[0]);
      var rest := RunTuples(first.after, ti, t, fixtureArgs, mi, tuples[1..]);
      TupleStepStarts(r, ti, t, fixtureArgs, mi, tuples[0]);
      RunTuplesStarts(first.after, ti, t, fixtureArgs, mi, tuples[1..]);
      ChainStarts(first, rest);
    }
  }

  /** The method at position j, if the run selects it. */
  function MethodStep(r: Runner, ti: nat, t: FixtureType, fixtureArgs: Tuple, all: bool, j: nat): (e: Effect)
    requires j < |t.methods|
    ensures Framed(r, e)
  {
    if all || IsActiveMethod(t.methods[j]) then RunTuples(r, ti, t, fixtureArgs, j, TestTuples(t.methods[j], all))
    else Quiet(r)
  }

  /** The instance's public methods in order, those the run selects. */
  function RunMethods(r: Runner, ti: nat, t: FixtureType, fixtureArgs: Tuple, all: bool, j: nat): (e: Effect)
    requires j <= |t.methods|
    decreases |t.methods| - j
    ensures Framed(r, e)
  {
    if j == |t.methods| then Quiet(r)
    else
      var first := MethodStep(r, ti, t, fixtureArgs, all, j);
      Then(first, RunMethods(first.after, ti, t, fixtureArgs, all, j + 1))
  }

  /** The selected methods add their tests' counters, and one warning for
      each selected tuple that does not fit its method. */
  lemma {:induction false} RunMethodsCounts(r: Runner, ti: nat, t: FixtureType, fixtureArgs: Tuple, all: bool, j: nat)
    requires j <= |t.methods|
    ensures Balanced(r, RunMethods(r, ti, t, fixtureArgs, all, j))
    ensures Reported(RunMethods(r, ti, t, fixtureArgs, all, j).events).warnings == MethodsMisfits(t, all, j)
    decreases |t.methods| - j
  {
    if j == |t.methods| {
      QuietBalanced(r);
    } else {
      var first := MethodStep(r, ti, t, fixtureArgs, all, j);
      var rest := RunMethods(first.after, ti, t, fixtureArgs, all, j + 1);
      if all || IsActiveMethod(t.methods[j]) {
        RunTuplesCounts(r, ti, t, fixtureArgs, j, TestTuples(t.methods[j], all));
      } else {
        QuietBalanced(r);
      }
      RunMethodsCounts(first.after, ti, t, fixtureArgs, all, j + 1);
      ChainBalanced(r, first, rest);
    }
  }

  /** The selected methods start exactly the tests of the plan, in order. */
  lemma {:induction false} RunMethodsStarts(r: Runner, ti: nat, t: FixtureType, fixtureArgs: Tuple, all: bool, j: nat)
    requires j <= |t.methods|
    ensures FixtureStarts(RunMethods(r, ti, t, fixtureArgs, all, j).events) == []
    ensures TestStarts(RunMethods(r, ti, t, fixtureArgs, all, j).events) == MethodsPlan(ti, t, all, j)
    decreases |t.methods| - j
  {
    QuietStarts();
    if j < |t.methods| {
      var first := MethodStep(r, ti, t, fixtureArgs, all, j);
      var rest := RunMethods(first.after, ti, t, fixtureArgs, all, j + 1);
      if all || IsActiveMethod(t.methods[j]) {
        RunTuplesStarts(r, ti, t, fixtureArgs, j, TestTuples(t.methods[j], all));
      }
      RunMethodsStarts(first.after, ti, t, fixtureArgs, all, j + 1);
      ChainStarts(first, rest);
    }
  }

  // ---------------------------------------------------------------------
  // Fixture instances
  // ---------------------------------------------------------------------

  /** A constructed instance: the fixture setup hooks; unless one raised,
      the selected methods and then the fixture teardown hooks. */
  function RunInstance(r: Runner, ti: nat, t: FixtureType, fixtureArgs: Tuple, all: bool): (e: Effect)
    ensures Framed(r, e)
  {
    var setup := RunSetupTeardown(r, ti, t, fixtureArgs, true, true);
    if !setup.1 then setup.0
    else
      var methods := RunMethods(setup.0.after, ti, t, fixtureArgs, all, 0);
      Then(Then(setup.0, methods), RunSetupTeardown(methods.after, ti, t, fixtureArgs, false, true).0)
  }

  /** An instance's counters: one error when a fixture setup hook raises;
      otherwise its tests', the fixture teardown's failure, and one warning
      per misfit tuple. */
  lemma RunInstanceCounts(r: Runner, ti: nat, t: FixtureType, fixtureArgs: Tuple, all: bool)
    ensures Balanced(r, RunInstance(r, ti, t, fixtureArgs, all))
    ensures HookScan(t, fixtureArgs, true, true).failure.Some? ==>
              Reported(RunInstance(r, ti, t, fixtureArgs, all).events) == Counts(1, 0, 0, 0)
    ensures HookScan(t, fixtureArgs, true, true).failure.None? ==>
              Reported(RunInstance(r, ti, t, fixtureArgs, all).events).warnings == MethodsMisfits(t, all, 0)
  {
    var setup := RunSetupTeardown(r, ti, t, fixtureArgs, true, true).0;
    RunSetupTeardownSpec(r, ti, t, fixtureArgs, true, true);
    ExceptionsReport(Failures(HookScan(t, fixtureArgs, true, true).failure));
    if HookScan(t, fixtureArgs, true, true).failure.None? {
      var methods := RunMethods(setup.after, ti, t, fixtureArgs, all, 0);
      var teardown := RunSetupTeardown(methods.after, ti, t, fixtureArgs, false, true).0;
      RunMethodsCounts(setup.after, ti, t, fixtureArgs, all, 0);
      RunSetupTeardownSpec(methods.after, ti, t, fixtureArgs, false, true);
      ExceptionsReport(Failures(HookScan(t, fixtureArgs, false, true).failure));
      ChainBalanced(r, setup, methods);
      ChainBalanced(r, Then(setup, methods), teardown);
    }
  }

  /** An instance starts no fixture, and the tests of the plan unless a
      fixture setup hook raises. */
  lemma RunInstanceStarts(r: Runner, ti: nat, t: FixtureType, fixtureArgs: Tuple, all: bool)
    ensures FixtureStarts(RunInstance(r, ti, t, fixtureArgs, all).events) == []
    ensures TestStarts(RunInstance(r, ti, t, fixtureArgs, all).events) ==
              if HookScan(t, fixtureArgs, true, true).failure.Some? then [] else MethodsPlan(ti, t, all, 0)
  {
    var setup := RunSetupTeardown(r, ti, t, fixtureArgs, true, true).0;
    RunSetupTeardownSpec(r, ti, t, fixtureArgs, true, true);
    ExceptionsStartNothing(Failures(HookScan(t, fixtureArgs, true, true).failure));
    if HookScan(t, fixtureArgs, true, true).failure.None? {
      var methods := RunMethods(setup.after, ti, t, fixtureArgs, all, 0);
      var teardown := RunSetupTeardown(methods.after, ti, t, fixtureArgs, false, true).0;
      RunMethodsStarts(setup.after, ti, t, fixtureArgs, all, 0);
      RunSetupTeardownSpec(methods.after, ti, t, fixtureArgs, false, true);
      ExceptionsStartNothing(Failures(HookScan(t, fixtureArgs, false, true).failure));
      ChainStarts(setup, methods);
      ChainStarts(Then(setup, methods), teardown);
    }
  }

  /** An instance's user code: the fixture setup hooks first; when none
      raises, the fixture teardown hooks last. */
  lemma RunInstanceCalls(r: Runner, ti: nat, t: FixtureType, fixtureArgs: Tuple, all: bool)
    ensures var setup := HookCalls(ti, HookScan(t, fixtureArgs, true, true).ran);
            var e := RunInstance(r, ti, t, fixtureArgs, all);
            |setup| <= |e.calls| && e.calls[..|setup|] == setup
    ensures HookScan(t, fixtureArgs, true, true).failure.Some? ==>
              RunInstance(r, ti, t, fixtureArgs, all).calls == HookCalls(ti, HookScan(t, fixtureArgs, true, true).ran)
    ensures var teardown := HookCalls(ti, HookScan(t, fixtureArgs, false, true).ran);
            var e := RunInstance(r, ti, t, fixtureArgs, all);
            HookScan(t, fixtureArgs, true, true).failure.None? ==>
              |teardown| <= |e.calls| && e.calls[|e.calls| - |teardown|..] == teardown
  {
    var setup := RunSetupTeardown(r, ti, t, fixtureArgs, true, true);
    var before := HookCalls(ti, HookScan(t, fixtureArgs, true, true).ran);
    assert setup.0.calls == before && setup.1 == HookScan(t, fixtureArgs, true, true).failure.None? by {
      RunSetupTeardownSpec(r, ti, t, fixtureArgs, true, true);
    }
    if setup.1 {
      var methods := RunMethods(setup.0.after, ti, t, fixtureArgs, all, 0);
      var teardown := RunSetupTeardown(methods.after, ti, t, fixtureArgs, false, true).0;
      var after := HookCalls(ti, HookScan(t, fixtureArgs, false, true).ran);
      assert teardown.calls == after by {
        RunSetupTeardownSpec(methods.after, ti, t, fixtureArgs, false, true);
      }
      var calls := before + methods.calls + after;
      assert RunInstance(r, ti, t, fixtureArgs, all).calls == calls;
      assert calls[..|before|] == before;
      assert calls[|calls| - |after|..] == after;
    } else {
      assert before[..|before|] == before;
    }
  }

  /** After the constructor ran: its exception as an error, or the instance. */
  function ConstructStep(r: Runner, ti: nat, t: FixtureType, fixtureArgs: Tuple, all: bool): (e: Effect)
    ensures Framed(r, e)
  {
    match t.construct(fixtureArgs)
    case Raised(x) => ReportError(r, x)
    case Ok(_) => RunInstance(r, ti, t, fixtureArgs, all)
  }

  /** A constructor tuple of a fixture: a Stats frame for the instance, the
      constructor, and either its exception as an error or the instance run. */
  function RunFixtureInstance(r: Runner, ti: nat, t: FixtureType, fixtureArgs: Tuple, all: bool): (e: Effect)
    ensures Framed(r, e)
  {
    var target := FixtureTarget(ti);
    var start := StartTest(r, target, Some(fixtureArgs)).after;
    var inner := Then(Record(start, [Construct(ti, fixtureArgs)]), ConstructStep(start, ti, t, fixtureArgs, all));
    Enclose(r, target, Some(fixtureArgs), inner)
  }

  /** A fixture instance's counters reach its parent whole; a constructor
      that raises counts one error and nothing else. */
  lemma RunFixtureInstanceCounts(r: Runner, ti: nat, t: FixtureType, fixtureArgs: Tuple, all: bool)
    ensures Balanced(r, RunFixtureInstance(r, ti, t, fixtureArgs, all))
    ensures t.construct(fixtureArgs).Raised? ==>
              Reported(RunFixtureInstance(r, ti, t, fixtureArgs, all).events) == Counts(1, 0, 0, 0)
    ensures var start := StartTest(r, FixtureTarget(ti), Some(fixtureArgs)).after;
            t.construct(fixtureArgs).Ok? ==>
              Reported(RunFixtureInstance(r, ti, t, fixtureArgs, all).events) ==
              Reported(RunInstance(start, ti, t, fixtureArgs, all).events)
  {
    var target := FixtureTarget(ti);
    var start := StartTest(r, target, Some(fixtureArgs)).after;
    var record := Record(start, [Construct(ti, fixtureArgs)]);
    var step := ConstructStep(start, ti, t, fixtureArgs, all);
    RecordBalanced(start, [Construct(ti, fixtureArgs)]);
    match t.construct(fixtureArgs)
    case Raised(x) =>
      ReportErrorBalanced(start, x);
      ChainBalanced(start, record, step);
      PlusLaws(Reported(step.events), Zero(), Zero());
      Bracket(r, target, Some(fixtureArgs), Then(record, step));
    case Ok(_) =>
      RunInstanceCounts(start, ti, t, fixtureArgs, all);
      ChainBalanced(start, record, step);
      PlusLaws(Reported(step.events), Zero(), Zero());
      Bracket(r, target, Some(fixtureArgs), Then(record, step));
  }

  /** A fixture instance starts itself, and its instance's tests unless the
      constructor raises. */
  lemma RunFixtureInstanceStarts(r: Runner, ti: nat, t: FixtureType, fixtureArgs: Tuple, all: bool)
    ensures FixtureStarts(RunFixtureInstance(r, ti, t, fixtureArgs, all).events) == [(ti, fixtureArgs)]
    ensures TestStarts(RunFixtureInstance(r, ti, t, fixtureArgs, all).events) ==
              if t.construct(fixtureArgs).Raised? || HookScan(t, fixtureArgs, true, true).failure.Some? then []
              else MethodsPlan(ti, t, all, 0)
    ensures TestStarts(RunFixtureInstance(r, ti, t, fixtureArgs, all).events) == InstanceTests(ti, t, fixtureArgs, all)
  {
    var target := FixtureTarget(ti);
    var start := StartTest(r, target, Some(fixtureArgs)).after;
    var record := Record(start, [Construct(ti, fixtureArgs)]);
    var step := ConstructStep(start, ti, t, fixtureArgs, all);
    var tests := if t.construct(fixtureArgs).Raised? || HookScan(t, fixtureArgs, true, true).failure.Some? then []
                 else MethodsPlan(ti, t, all, 0);
    assert FixtureStarts(step.events) == [] && TestStarts(step.events) == tests by {
      match t.construct(fixtureArgs)
      case Raised(x) => ReportErrorStarts(start, x);
      case Ok(_) => RunInstanceStarts(start, ti, t, fixtureArgs, all);
    }
    assert FixtureStarts(Then(record, step).events) == [] && TestStarts(Then(record, step).events) == tests by {
      QuietStarts();
      ChainStarts(record, step);
    }
    BracketStarts(r, target, Some(fixtureArgs), Then(record, step));
  }

  /** The constructor is the first user code of a fixture instance, and the
      only one when it raises. */
  lemma RunFixtureInstanceCalls(r: Runner, ti: nat, t: FixtureType, fixtureArgs: Tuple, all: bool)
    ensures var e := RunFixtureInstance(r, ti, t, fixtureArgs, all);
            |e.calls| >= 1 && e.calls[0] == Construct(ti, fixtureArgs)
    ensures t.construct(fixtureArgs).Raised? ==>
              RunFixtureInstance(r, ti, t, fixtureArgs, all).calls == [Construct(ti, fixtureArgs)]
  {
  }

  // ---------------------------------------------------------------------
  // Types and the assembly
  // ---------------------------------------------------------------------

  /** One fixture instance per constructor tuple, in order. */
  function RunInstances(r: Runner, ti: nat, t: FixtureType, tuples: seq<Tuple>, all: bool): (e: Effect)
    decreases |tuples|
    ensures Framed(r, e)
  {
    if |tuples| == 0 then Quiet(r)
    else
      var first := RunFixtureInstance(r, ti, t, tuples[0], all);
      Then(first, RunInstances(first.after, ti, t, tuples[1..], all))
  }

  lemma {:induction false} RunInstancesCounts(r: Runner, ti: nat, t: FixtureType, tuples: seq<Tuple>, all: bool)
    ensures Balanced(r, RunInstances(r, ti, t, tuples, all))
    decreases |tuples|
  {
    if |tuples| == 0 {
      QuietBalanced(r);
    } else {
      var first := RunFixtureInstance(r, ti, t, tuples[0], all);
      RunFixtureInstanceCounts(r, ti, t, tuples[0], all);
      RunInstancesCounts(first.after, ti, t, tuples[1..], all);
      ChainBalanced(r, first, RunInstances(first.after, ti, t, tuples[1..], all));
    }
  }

  /** One fixture instance is started per constructor tuple, in order, and
      each instance that gets past construction and fixture setup starts its
      planned tests. */
  lemma {:induction false} RunInstancesStarts(r: Runner, ti: nat, t: FixtureType, tuples: seq<Tuple>, all: bool)
    ensures FixtureStarts(RunInstances(r, ti, t, tuples, all).events) == Tag(ti, tuples)
    ensures TestStarts(RunInstances(r, ti, t, tuples, all).events) == InstancesTests(ti, t, tuples, all)
    decreases |tuples|
  {
    QuietStarts();
    if |tuples| > 0 {
      var first := RunFixtureInstance(r, ti, t, tuples[0], all);
      RunFixtureInstanceStarts(r, ti, t, tuples[0], all);
      RunInstancesStarts(first.after, ti, t, tuples[1..], all);
      ChainStarts(first, RunInstances(first.after, ti, t, tuples[1..], all));
    }
  }

  /** A fixture type: every constructor tuple of its markers, or only of the
      active markers when the run is narrowed and it has some; its methods
      are narrowed the same way on their own. */
  function RunType(r: Runner, ti: nat, t: FixtureType, all: bool): (e: Effect)
    ensures Framed(r, e)
  {
    RunInstances(r, ti, t, InstanceTuples(t, all), all || !HasActiveMethods(t))
  }

  /** The type at position k, if the run selects it. */
  function TypeStep(r: Runner, types: seq<FixtureType>, all: bool, k: nat): (e: Effect)
    requires k < |types|
    ensures Framed(r, e)
  {
    if IsTestFixture(types[k]) && (all || HasActive(types[k])) then RunType(r, k, types[k], all)
    else Quiet(r)
  }

  /** The assembly's types in order, the test fixtures the run selects. */
  function RunTypes(r: Runner, types: seq<FixtureType>, all: bool, k: nat): (e: Effect)
    requires k <= |types|
    decreases |types| - k
    ensures Framed(r, e)
  {
    if k == |types| then Quiet(r)
    else
      var first := TypeStep(r, types, all, k);
      Then(first, RunTypes(first.after, types, all, k + 1))
  }

  lemma {:induction false} RunTypesCounts(r: Runner, types: seq<FixtureType>, all: bool, k: nat)
    requires k <= |types|
    ensures Balanced(r, RunTypes(r, types, all, k))
    decreases |types| - k
  {
    QuietBalanced(r);
    if k < |types| {
      var first := TypeStep(r, types, all, k);
      if IsTestFixture(types[k]) && (all || HasActive(types[k])) {
        RunInstancesCounts(r, k, types[k], InstanceTuples(types[k], all), all || !HasActiveMethods(types[k]));
      }
      RunTypesCounts(first.after, types, all, k + 1);
      ChainBalanced(r, first, RunTypes(first.after, types, all, k + 1));
    }
  }

  /** The selected fixture types start exactly the instances of the plan, in
      order, and the tests of those instances. */
  lemma {:induction false} RunTypesStarts(r: Runner, types: seq<FixtureType>, all: bool, k: nat)
    requires k <= |types|
    ensures FixtureStarts(RunTypes(r, types, all, k).events) == TypesPlan(types, all, k)
    ensures TestStarts(RunTypes(r, types, all, k).events) == TypesTests(types, all, k)
    decreases |types| - k
  {
    QuietStarts();
    if k < |types| {
      var first := TypeStep(r, types, all, k);
      if IsTestFixture(types[k]) && (all || HasActive(types[k])) {
        RunInstancesStarts(r, k, types[k], InstanceTuples(types[k], all), all || !HasActiveMethods(types[k]));
      }
      RunTypesStarts(first.after, types, all, k + 1);
      ChainStarts(first, RunTypes(first.after, types, all, k + 1));
    }
  }

  /** The assembly: a Stats frame for it, and its types, all of them unless
      the run is narrowed and something is active. */
  function RunAssembly(r: Runner, types: seq<FixtureType>, runAll: bool): (e: Effect)
    ensures Framed(r, e)
  {
    var inner := RunTypes(StartTest(r, AssemblyTarget, None).after, types, runAll || !AssemblyHasActive(types), 0);
    Enclose(r, AssemblyTarget, None, inner)
  }

  /** The assembly's frame reports exactly what its types did, and its
      EndTest event carries those totals. */
  lemma RunAssemblyCounts(r: Runner, types: seq<FixtureType>, runAll: bool)
    ensures var e := RunAssembly(r, types, runAll);
            Balanced(r, e) &&
            |e.events| >= 2 && e.events[0] == Start(AssemblyTarget, None) &&
            e.events[|e.events| - 1] == End(Stats(AssemblyTarget, Reported(e.events)))
  {
    var start := StartTest(r, AssemblyTarget, None).after;
    var inner := RunTypes(start, types, runAll || !AssemblyHasActive(types), 0);
    var e := RunAssembly(r, types, runAll);
    assert Balanced(start, inner) by {
      RunTypesCounts(start, types, runAll || !AssemblyHasActive(types), 0);
    }
    assert Balanced(r, e) && Reported(e.events) == Reported(inner.events) by {
      Bracket(r, AssemblyTarget, None, inner);
    }
    assert inner.after.top == Stats(AssemblyTarget, Reported(inner.events)) by {
      PlusLaws(Reported(inner.events), Zero(), Zero());
    }
    EncloseEnds(r, AssemblyTarget, None, inner);
  }

  /** The assembly starts exactly the fixture instances and tests of the plan. */
  lemma RunAssemblyStarts(r: Runner, types: seq<FixtureType>, runAll: bool)
    ensures FixtureStarts(RunAssembly(r, types, runAll).events) == TypesPlan(types, runAll || !AssemblyHasActive(types), 0)
    ensures TestStarts(RunAssembly(r, types, runAll).events) == TypesTests(types, runAll || !AssemblyHasActive(types), 0)
  {
    var start := StartTest(r, AssemblyTarget, None).after;
    var inner := RunTypes(start, types, runAll || !AssemblyHasActive(types), 0);
    RunTypesStarts(start, types, runAll || !AssemblyHasActive(types), 0);
    BracketStarts(r, AssemblyTarget, None, inner);
  }

  /** The writer's view of a run: the root Stats it completes with, every
      event, and the user code called, in order. */
  datatype RunResult = RunResult(root: Stats, trace: seq<Event>, calls: seq<Invocation>)

  /** Runner.Run after argument parsing: a root Stats, then the assembly. The
      root's counters are exactly what the writer was told along the way,
      the assembly's EndTest carries the same totals, and the fixture
      instances entered and the tests started are those of the plan. */
  function Run(types: seq<FixtureType>, runAll: bool): (res: RunResult)
    ensures res.root.target == Root && res.root.counts == Reported(res.trace)
    ensures |res.trace| >= 2 && res.trace[0] == Start(AssemblyTarget, None)
    ensures res.trace[|res.trace| - 1] == End(Stats(AssemblyTarget, res.root.counts))
    ensures FixtureStarts(res.trace) == TypesPlan(types, runAll || !AssemblyHasActive(types), 0)
    ensures TestStarts(res.trace) == TypesTests(types, runAll || !AssemblyHasActive(types), 0)
  {
    var root := Runner([], Stats(Root, Zero()));
    var e := RunAssembly(root, types, runAll);
    RunAssemblyCounts(root, types, runAll);
    RunAssemblyStarts(root, types, runAll);
    PlusLaws(Reported(e.events), Zero(), Zero());
    RunResult(e.after.top, e.events, e.calls)
  }

  /** When the run is narrowed and something is active, only active code
      runs: every test started belongs to a type that has something active,
      and is an active method, or any method of a type whose methods are
      all inactive (its type being the active part); the tuple comes from the
      method's active markers in the first case and from all of them in the
      second. */
  lemma RunStartsOnlyActive(types: seq<FixtureType>, runAll: bool)
    requires !runAll && AssemblyHasActive(types)
    ensures forall test :: test in TestStarts(Run(types, runAll).trace) ==>
              test.0 < |types| && test.1 < |types[test.0].methods| && HasActive(types[test.0]) &&
              (IsActiveMethod(types[test.0].methods[test.1]) || !HasActiveMethods(types[test.0])) &&
              test.2 in TestTuples(types[test.0].methods[test.1], !HasActiveMethods(types[test.0]))
  {
    TypesTestsExact(types, false, 0);
    forall test | test in TestStarts(Run(types, runAll).trace)
      ensures test.0 < |types| && test.1 < |types[test.0].methods| && HasActive(types[test.0]) &&
              (IsActiveMethod(types[test.0].methods[test.1]) || !HasActiveMethods(types[test.0])) &&
              test.2 in TestTuples(types[test.0].methods[test.1], !HasActiveMethods(types[test.0]))
    {
      var args :| StartedVia(types, false, 0, args, test);
    }
  }

  /** A run with runAll set turns every filter off: each test fixture type is
      entered with every constructor tuple of every marker, and each instance
      that gets past construction and fixture setup starts every method with
      every tuple of every marker that fits the method's parameter count. */
  lemma RunAllStartsEveryTest(types: seq<FixtureType>, ti: nat, args: Tuple, mi: nat, x: Tuple)
    requires ti < |types| && IsTestFixture(types[ti])
    requires args in Expand(types[ti].fixtures, true) && InstanceReady(types[ti], args)
    requires mi < |types[ti].methods| && x in Expand(types[ti].methods[mi].tests, true)
    requires |x| == types[ti].methods[mi].paramCount
    ensures (ti, args) in FixtureStarts(Run(types, true).trace)
    ensures (ti, mi, x) in TestStarts(Run(types, true).trace)
  {
    TypesPlanExact(types, true, 0);
    assert PlannedInstance(types, true, 0, (ti, args));
    TypesTestsExact(types, true, 0);
    assert StartedVia(types, true, 0, args, (ti, mi, x));
  }

  /** With nothing active anywhere, a narrowed run is the full run. */
  lemma NothingActiveRunsAll(types: seq<FixtureType>, runAll: bool)
    requires !AssemblyHasActive(types)
    ensures Run(types, runAll) == Run(types, true)
  {
  }
}

=== FILE: format.dfy ===
/** The diagnostic helpers of `Utils`: common-prefix length, the string extract
    shown around a difference, and FormatValue/FormatArguments. */
module Format {
  import opened Values

  // ---------------------------------------------------------------------
  // Character comparison
  // ---------------------------------------------------------------------

  /** char.ToUpperInvariant, restricted to the ASCII letters. */
  function ToUpper(c: char): char
  {
    if 'a' <= c <= 'z' then (c as int - 32) as char else c
  }

  predicate SameChar(x: char, y: char, ignoreCase: bool)
  {
    if ignoreCase then ToUpper(x) == ToUpper(y) else x == y
  }

  /** Two strings hold the same text, ordinally or ignoring ASCII case. */
  predicate SameText(a: string, b: string, ignoreCase: bool)
  {
    |a| == |b| && forall i :: 0 <= i < |a| ==> SameChar(a[i], b[i], ignoreCase)
  }

  // ---------------------------------------------------------------------
  // CountCommonPrefix
  // ---------------------------------------------------------------------

  /** The index of the first position where a and b differ, or the length of
      the shorter string when one is a prefix of the other. */
  function CountCommonPrefix(a: string, b: string, ignoreCase: bool): (n: nat)
    ensures n <= |a| && n <= |b|
    ensures forall i :: 0 <= i < n ==> SameChar(a[i], b[i], ignoreCase)
    ensures n < |a| && n < |b| ==> !SameChar(a[n], b[n], ignoreCase)
  {
    CountFrom(a, b, ignoreCase, 0)
  }

  function CountFrom(a: string, b: string, ignoreCase: bool, i: nat): (n: nat)
    requires i <= |a| && i <= |b|
    requires forall k :: 0 <= k < i ==> SameChar(a[k], b[k], ignoreCase)
    ensures i <= n <= |a| && n <= |b|
    ensures forall k :: 0 <= k < n ==> SameChar(a[k], b[k], ignoreCase)
    ensures n < |a| && n < |b| ==> !SameChar(a[n], b[n], ignoreCase)
    decreases |a| - i
  {
    if i < |a| && i < |b| && SameChar(a[i], b[i], ignoreCase) then CountFrom(a, b, ignoreCase, i + 1) else i
  }

  /** The characterisation in the ensures of CountCommonPrefix has one solution. */
  lemma CommonPrefixUnique(a: string, b: string, ignoreCase: bool, m: nat)
    requires m <= |a| && m <= |b|
    requires forall i :: 0 <= i < m ==> SameChar(a[i], b[i], ignoreCase)
    requires m < |a| && m < |b| ==> !SameChar(a[m], b[m], ignoreCase)
    ensures CountCommonPrefix(a, b, ignoreCase) == m
  {
  }

  lemma CommonPrefixSymmetric(a: string, b: string, ignoreCase: bool)
    ensures CountCommonPrefix(a, b, ignoreCase) == CountCommonPrefix(b, a, ignoreCase)
  {
    var n := CountCommonPrefix(a, b, ignoreCase);
    CommonPrefixUnique(b, a, ignoreCase, n);
  }

  lemma CommonPrefixWithSelf(a: string, ignoreCase: bool)
    ensures CountCommonPrefix(a, a, ignoreCase) == |a|
  {
    CommonPrefixUnique(a, a, ignoreCase, |a|);
  }

  /** The common prefix covers both strings exactly when they hold the same text. */
  lemma CommonPrefixFullIffSameText(a: string, b: string, ignoreCase: bool)
    ensures SameText(a, b, ignoreCase) <==> CountCommonPrefix(a, b, ignoreCase) == |a| == |b|
  {
  }

  // ---------------------------------------------------------------------
  // GetStringExtract
  // ---------------------------------------------------------------------

  /** Where the character at `offset` of the original string appears in its extract. */
  function ExtractPosition(offset: nat): nat
  {
    if offset > 15 then 13 else offset
  }

  /** The window of str shown around a difference at `offset`: when the offset is
      past 15 the text starts 10 characters before it behind "...", and text
      longer than 30 characters is cut to 20 characters followed by "...".
      str.Substring(offset - 10) raises unless offset - 10 <= |str|. */
  function GetStringExtract(str: string, offset: int): (r: string)
    requires offset <= 15 || offset - 10 <= |str|
    ensures |r| <= 30
    ensures offset <= 15 && |str| <= 30 ==> r == str
    ensures offset > 15 ==> |r| >= 3 && r[..3] == "..."
    ensures offset > 15 && 3 + |str| - (offset - 10) > 30 ==> |r| == 23 && r[..3] == "..." && r[20..] == "..."
    ensures offset <= 15 && |str| > 30 ==> r == str[..20] + "..."
    ensures 0 <= offset < |str| ==>
              ExtractPosition(offset) < |r| && r[ExtractPosition(offset)] == str[offset]
    ensures 15 < offset <= |str| ==> |r| >= 13 && r[3..13] == str[offset - 10..offset]
  {
    var s := if offset > 15 then "..." + str[offset - 10..] else str;
    if |s| > 30 then s[..20] + "..." else s
  }

  // ---------------------------------------------------------------------
  // FormatValue
  // ---------------------------------------------------------------------

  /** string.Replace for a one-character search text. */
  function Replace(s: string, target: char, replacement: string): (r: string)
    ensures target !in replacement ==> target !in r
    ensures forall c :: c in r ==> c in s || c in replacement
  {
    if |s| == 0 then "" else (if s[0] == target then replacement else [s[0]]) + Replace(s[1..], target, replacement)
  }

  /** The chain of Replace calls FormatValue applies to a string, in its order. */
  function EscapeAsWritten(s: string): string
  {
    Replace(Replace(Replace(Replace(Replace(s, '"', "\\\""), '\r', "\\r"), '\n', "\\n"), '\t', "\\t"), '\0', "\\0")
  }

  /** The escape of one character, the reference the chain is checked against. */
  function EscapeChar(c: char): string
  {
    match c
    case '"' => "\\\""
    case '\r' => "\\r"
    case '\n' => "\\n"
    case '\t' => "\\t"
    case '\0' => "\\0"
    case _ => [c]
  }

  /** Escaping character by character, in one pass. */
  function Escape(s: string): string
  {
    if |s| == 0 then "" else EscapeChar(s[0]) + Escape(s[1..])
  }

  predicate IsControl(c: char)
  {
    c == '\r' || c == '\n' || c == '\t' || c == '\0'
  }

  predicate NoRawControl(s: string)
  {
    forall i :: 0 <= i < |s| ==> !IsControl(s[i])
  }

  lemma {:induction false} ReplaceConcat(a: string, b: string, target: char, replacement: string)
    ensures Replace(a + b, target, replacement) == Replace(a, target, replacement) + Replace(b, target, replacement)
    decreases |a|
  {
    if |a| > 0 {
      assert (a + b)[0] == a[0];
      assert (a + b)[1..] == a[1..] + b;
      ReplaceConcat(a[1..], b, target, replacement);
    } else {
      assert a + b == b;
    }
  }

  /** Replace of a character that the text does not hold changes nothing. */
  lemma {:induction false} ReplaceAbsent(s: string, target: char, replacement: string)
    requires target !in s
    ensures Replace(s, target, replacement) == s
    decreases |s|
  {
    if |s| > 0 {
      ReplaceAbsent(s[1..], target, replacement);
    }
  }

  lemma EscapeAsWrittenConcat(a: string, b: string)
    ensures EscapeAsWritten(a + b) == EscapeAsWritten(a) + EscapeAsWritten(b)
  {
    ReplaceConcat(a, b, '"', "\\\"");
    var a1, b1 := Replace(a, '"', "\\\""), Replace(b, '"', "\\\"");
    ReplaceConcat(a1, b1, '\r', "\\r");
    var a2, b2 := Replace(a1, '\r', "\\r"), Replace(b1, '\r', "\\r");
    ReplaceConcat(a2, b2, '\n', "\\n");
    var a3, b3 := Replace(a2, '\n', "\\n"), Replace(b2, '\n', "\\n");
    ReplaceConcat(a3, b3, '\t', "\\t");
    var a4, b4 := Replace(a3, '\t', "\\t"), Replace(b3, '\t', "\\t");
    ReplaceConcat(a4, b4, '\0', "\\0");
  }

  lemma ReplaceOne(c: char, target: char, replacement: string)
    ensures Replace([c], target, replacement) == if c == target then replacement else [c]
  {
    assert [c][1..] == [];
  }

  lemma EscapeAsWrittenChar(c: char)
    ensures EscapeAsWritten([c]) == EscapeChar(c)
  {
    var r1 := Replace([c], '"', "\\\"");
    ReplaceOne(c, '"', "\\\"");
    if c == '"' {
      ReplaceAbsent(r1, '\r', "\\r");
      ReplaceAbsent(r1, '\n', "\\n");
      ReplaceAbsent(r1, '\t', "\\t");
      ReplaceAbsent(r1, '\0', "\\0");
    } else {
      var r2 := Replace(r1, '\r', "\\r");
      ReplaceOne(c, '\r', "\\r");
      if c == '\r' {
        ReplaceAbsent(r2, '\n', "\\n");
        ReplaceAbsent(r2, '\t', "\\t");
        ReplaceAbsent(r2, '\0', "\\0");
      } else {
        var r3 := Replace(r2, '\n', "\\n");
        ReplaceOne(c, '\n', "\\n");
        if c == '\n' {
          ReplaceAbsent(r3, '\t', "\\t");
          ReplaceAbsent(r3, '\0', "\\0");
        } else {
          var r4 := Replace(r3, '\t', "\\t");
          ReplaceOne(c, '\t', "\\t");
          if c == '\t' {
            ReplaceAbsent(r4, '\0', "\\0");
          } else {
            ReplaceOne(c, '\0', "\\0");
          }
        }
      }
    }
  }

  /** The five sequential Replace calls escape each character independently:
      no replacement introduces a character that a later one rewrites. */
  lemma {:induction false} EscapeAsWrittenIsEscape(s: string)
    ensures EscapeAsWritten(s) == Escape(s)
    decreases |s|
  {
    if |s| > 0 {
      assert s == [s[0]] + s[1..];
      EscapeAsWrittenConcat([s[0]], s[1..]);
      EscapeAsWrittenChar(s[0]);
      EscapeAsWrittenIsEscape(s[1..]);
    }
  }

  lemma {:induction false} EscapeHasNoRawControl(s: string)
    ensures NoRawControl(Escape(s))
    decreases |s|
  {
    if |s| > 0 {
      EscapeHasNoRawControl(s[1..]);
      var e := Escape(s);
      var h := EscapeChar(s[0]);
      assert e == h + Escape(s[1..]);
      forall i | 0 <= i < |e|
        ensures !IsControl(e[i])
      {
        if i >= |h| {
          assert e[i] == Escape(s[1..])[i - |h|];
        }
      }
    }
  }

  /** Reads an escaped string back (the inverse the encoding is measured against). */
  function Unescape(s: string): string
  {
    if |s| >= 2 && s[0] == '\\' then
      (match s[1]
       case '"' => "\""
       case 'r' => "\r"
       case 'n' => "\n"
       case 't' => "\t"
       case '0' => "\0"
       case _ => s[..2]) + Unescape(s[2..])
    else if |s| >= 1 then [s[0]] + Unescape(s[1..])
    else ""
  }

  /** Strings without a backslash survive the escape. */
  lemma {:induction false} UnescapeEscape(s: string)
    requires '\\' !in s
    ensures Unescape(Escape(s)) == s
    decreases |s|
  {
    if |s| > 0 {
      var c := s[0];
      assert '\\' !in s[1..] by { assert forall x :: x in s[1..] ==> x in s; }
      UnescapeEscape(s[1..]);
      var e := Escape(s[1..]);
      assert Escape(s) == EscapeChar(c) + e;
      UnescapeChar(c, e);
    }
  }

  /** Unescape reads one escaped character back and resumes after it. */
  lemma UnescapeChar(c: char, e: string)
    requires c != '\\'
    ensures Unescape(EscapeChar(c) + e) == [c] + Unescape(e)
  {
    if c == '"' || IsControl(c) {
      assert (EscapeChar(c) + e)[2..] == e;
    } else {
      assert (EscapeChar(c) + e)[1..] == e;
    }
  }

  /** Backslash is left alone, so the two-character text `\n` and a line feed
      are displayed the same: the encoding is not injective. */
  lemma EscapeNotInjective()
    ensures Escape("\\n") == Escape("\n")
    ensures "\\n" != "\n"
  {
  }

  function Join(sep: string, parts: seq<string>): (r: string)
    ensures |parts| == 0 ==> r == ""
    ensures |parts| == 1 ==> r == parts[0]
  {
    if |parts| == 0 then "" else if |parts| == 1 then parts[0] else parts[0] + sep + Join(sep, parts[1..])
  }

  /** The text of a value shown in a diagnostic: null, a string quoted and
      escaped, a number or boolean as printed by ToString, a dictionary as a brace
      list of `{ key, value }` pairs, any other enumerable as a bracketed list,
      an exception as `[type] message`, anything else as `[type] ToString()`. */
  function FormatValue(v: Value): (r: string)
    ensures |r| >= 1
    ensures v.Null? ==> r == "null"
    ensures v.Str? ==> |r| >= 2 && r[0] == '"' && r[|r| - 1] == '"'
    ensures v.Int? ==> r == IntToString(v.n)
    ensures v.Bool? ==> r == (if v.b then "True" else "False")
    ensures v.Dict? ==> |r| >= 2 && r[0] == '{' && r[|r| - 1] == '}'
    ensures v.List? ==> |r| >= 2 && r[0] == '[' && r[|r| - 1] == ']'
    ensures v.Error? || v.Object? ==> r[0] == '['
    ensures v.Error? ==> r == "[" + v.exn.kind + "] " + v.exn.message
    ensures v.Object? ==> r == "[" + v.kind + "] " + v.text
    decreases v
  {
    match v
    case Null => "null"
    case Str(s) => "\"" + EscapeAsWritten(s) + "\""
    case Int(n) => IntToString(n)
    case Bool(b) => Display(v)
    case Dict(_, entries) =>
      "{" + Join(", ", seq(|entries|, i requires 0 <= i < |entries| =>
                             "{ " + FormatValue(entries[i].key) + ", " + FormatValue(entries[i].val) + " }")) + "}"
    case List(_, items) =>
      "[" + Join(", ", seq(|items|, i requires 0 <= i < |items| => FormatValue(items[i]))) + "]"
    case Error(e) => "[" + e.kind + "] " + e.message
    case Object(kind, _) => "[" + kind + "] " + Display(v)
  }

  /** The bracketed, comma-separated list FormatValue shows for an enumerable. */
  function FormatItems(items: seq<Value>): (r: string)
    ensures |r| >= 2 && r[0] == '[' && r[|r| - 1] == ']'
    ensures |items| == 0 ==> r == "[]"
    ensures |items| == 1 ==> r == "[" + FormatValue(items[0]) + "]"
  {
    FormatValue(List("", items))
  }

  /** Each item's display, in order. */
  function Shown(items: seq<Value>): (r: seq<string>)
    ensures |r| == |items| && forall i :: 0 <= i < |items| ==> r[i] == FormatValue(items[i])
  {
    seq(|items|, i requires 0 <= i < |items| => FormatValue(items[i]))
  }

  /** The display of one dictionary entry, `{ key, value }`. */
  function EntryText(e: Entry): string
  {
    "{ " + FormatValue(e.key) + ", " + FormatValue(e.val) + " }"
  }

  /** Each entry's display, in order. */
  function ShownEntries(entries: seq<Entry>): (r: seq<string>)
    ensures |r| == |entries| && forall i :: 0 <= i < |entries| ==> r[i] == EntryText(entries[i])
  {
    seq(|entries|, i requires 0 <= i < |entries| => EntryText(entries[i]))
  }

  lemma ShownAppend(items: seq<Value>, v: Value)
    ensures Shown(items + [v]) == Shown(items) + [FormatValue(v)]
  {
    assert forall i :: 0 <= i < |items| ==> (items + [v])[i] == items[i];
  }

  lemma ShownEntriesAppend(entries: seq<Entry>, e: Entry)
    ensures ShownEntries(entries + [e]) == ShownEntries(entries) + [EntryText(e)]
  {
    assert forall i :: 0 <= i < |entries| ==> (entries + [e])[i] == entries[i];
  }

  /** Joining one more part appends the separator and that part. */
  lemma {:induction false} JoinAppend(sep: string, parts: seq<string>, last: string)
    requires |parts| > 0
    ensures Join(sep, parts + [last]) == Join(sep, parts) + sep + last
    decreases |parts|
  {
    var all := parts + [last];
    assert all[0] == parts[0];
    if |parts| == 1 {
      assert all[1..] == [last];
    } else {
      assert all[1..] == parts[1..] + [last];
      JoinAppend(sep, parts[1..], last);
    }
  }

  /** Dropping the closing delimiter of `open + body + close` and appending
      `sep + more + close` is the same as putting `sep + more` inside the
      delimiters. */
  lemma Reopen(open: string, body: string, sep: string, more: string, close: string)
    requires |close| == 1
    ensures var before := open + body + close;
            open + (body + sep + more) + close == before[..|before| - 1] + sep + more + close
  {
    var before := open + body + close;
    assert before[..|before| - 1] == open + body;
  }

  /** A collection is shown as its items' displays joined by ", " in brackets. */
  lemma ListShowsItems(kind: string, items: seq<Value>)
    ensures FormatValue(List(kind, items)) == "[" + Join(", ", Shown(items)) + "]"
  {
    assert seq(|items|, i requires 0 <= i < |items| => FormatValue(items[i])) == Shown(items);
  }

  /** A dictionary is shown as its entries' displays joined by ", " in braces. */
  lemma DictShowsEntries(kind: string, entries: seq<Entry>)
    ensures FormatValue(Dict(kind, entries)) == "{" + Join(", ", ShownEntries(entries)) + "}"
  {
    assert seq(|entries|, i requires 0 <= i < |entries| =>
                 "{ " + FormatValue(entries[i].key) + ", " + FormatValue(entries[i].val) + " }")
           == ShownEntries(entries);
  }

  /** One more item extends a collection's display by ", " and the item's
      display before the closing bracket. */
  lemma FormatListAppend(kind: string, items: seq<Value>, v: Value)
    requires |items| > 0
    ensures var before := FormatValue(List(kind, items));
            FormatValue(List(kind, items + [v])) == before[..|before| - 1] + ", " + FormatValue(v) + "]"
  {
    var before := FormatValue(List(kind, items));
    ListShowsItems(kind, items);
    ListShowsItems(kind, items + [v]);
    ShownAppend(items, v);
    JoinAppend(", ", Shown(items), FormatValue(v));
    Reopen("[", Join(", ", Shown(items)), ", ", FormatValue(v), "]");
  }

  /** One more entry extends a dictionary's display by ", " and the entry's
      `{ key, value }` before the closing brace. */
  lemma FormatDictAppend(kind: string, entries: seq<Entry>, e: Entry)
    requires |entries| > 0
    ensures var before := FormatValue(Dict(kind, entries));
            FormatValue(Dict(kind, entries + [e])) == before[..|before| - 1] + ", " + EntryText(e) + "}"
  {
    var before := FormatValue(Dict(kind, entries));
    DictShowsEntries(kind, entries);
    DictShowsEntries(kind, entries + [e]);
    ShownEntriesAppend(entries, e);
    JoinAppend(", ", ShownEntries(entries), EntryText(e));
    Reopen("{", Join(", ", ShownEntries(entries)), ", ", EntryText(e), "}");
  }

  /** A string is shown between quotes with ", CR, LF, TAB and NUL escaped and
      no raw line break, tab or NUL left. */
  lemma FormatStringIsQuotedEscape(s: string)
    ensures FormatValue(Str(s)) == "\"" + Escape(s) + "\""
    ensures NoRawControl(FormatValue(Str(s)))
  {
    EscapeAsWrittenIsEscape(s);
    EscapeHasNoRawControl(s);
    var r := FormatValue(Str(s));
    forall i | 0 <= i < |r|
      ensures !IsControl(r[i])
    {
      if 0 < i < |r| - 1 {
        assert r[i] == Escape(s)[i - 1];
      }
    }
  }

  /** An int or long is shown as its decimal text, which reads back as the
      same number. */
  lemma FormatIntReadsBack(n: int)
    ensures var r := FormatValue(Int(n));
            (r[0] == '-' <==> n < 0) &&
            (r[0] == '-' ==> AllDigits(r[1..])) &&
            (r[0] != '-' ==> AllDigits(r)) &&
            ParseInt(r) == n
  {
    IntToStringRoundTrip(n);
  }

  /** A string with nothing to escape is shown verbatim between quotes. */
  lemma FormatPlainString(s: string)
    requires '"' !in s && '\r' !in s && '\n' !in s && '\t' !in s && '\0' !in s
    ensures FormatValue(Str(s)) == "\"" + s + "\""
  {
    ReplaceAbsent(s, '"', "\\\"");
    ReplaceAbsent(s, '\r', "\\r");
    ReplaceAbsent(s, '\n', "\\n");
    ReplaceAbsent(s, '\t', "\\t");
    ReplaceAbsent(s, '\0', "\\0");
  }

  /** The argument list shown after a test's name: `(a, b)`, `()` when absent. */
  function FormatArguments(args: Option<Tuple>): (r: string)
    ensures |r| >= 2 && r[0] == '(' && r[|r| - 1] == ')'
    ensures args.None? ==> r == "()"
    ensures args.Some? && |args.value| == 0 ==> r == "()"
    ensures args.Some? && |args.value| == 1 ==> r == "(" + FormatValue(args.value[0]) + ")"
  {
    "(" + (match args
           case None => ""
           case Some(a) => Join(", ", seq(|a|, i requires 0 <= i < |a| => FormatValue(a[i])))) + ")"
  }

  /** An argument list reads like the same values shown as a collection, in
      parentheses instead of brackets. */
  lemma ArgumentsLikeItems(a: Tuple)
    ensures var items := FormatItems(a);
            FormatArguments(Some(a)) == "(" + items[1..|items| - 1] + ")"
  {
    var items := FormatItems(a);
    ListShowsItems("", a);
    ArgumentsShowItems(a);
    assert items[1..|items| - 1] == Join(", ", Shown(a));
  }

  /** Arguments are shown as their displays joined by ", " in parentheses. */
  lemma ArgumentsShowItems(a: Tuple)
    ensures FormatArguments(Some(a)) == "(" + Join(", ", Shown(a)) + ")"
  {
    assert seq(|a|, i requires 0 <= i < |a| => FormatValue(a[i])) == Shown(a);
  }

  /** One more argument extends the list by ", " and its display before the
      closing parenthesis. */
  lemma FormatArgumentsAppend(a: Tuple, v: Value)
    requires |a| > 0
    ensures var before := FormatArguments(Some(a));
            FormatArguments(Some(a + [v])) == before[..|before| - 1] + ", " + FormatValue(v) + ")"
  {
    var before := FormatArguments(Some(a));
    var joined := Join(", ", Shown(a));
    var shown := FormatValue(v);
    assert before == "(" + joined + ")" by { ArgumentsShowItems(a); }
    assert FormatArguments(Some(a + [v])) == "(" + (joined + ", " + shown) + ")" by {
      ArgumentsShowItems(a + [v]);
      ShownAppend(a, v);
      JoinAppend(", ", Shown(a), shown);
    }
    Reopen("(", joined, ", ", shown, ")");
  }
}

=== FILE: matching.dfy ===
/** The search behind the set-algebra assertions: IndexOf (first match under a
    caller's equality) and the greedy consumption of a pool, one element per item,
    that IsSubsetOf, IsNotSubsetOf and TestEquivalent share. */
module Matching {

  /** The first index of `list` whose element `eq` pairs with `item`, or -1. */
  function IndexOf<A, B>(item: A, list: seq<B>, eq: (A, B) -> bool): (r: int)
    ensures -1 <= r < |list|
    ensures r >= 0 ==> eq(item, list[r]) && forall k :: 0 <= k < r ==> !eq(item, list[k])
    ensures r == -1 <==> forall k :: 0 <= k < |list| ==> !eq(item, list[k])
  {
    IndexFrom(item, list, eq, 0)
  }

  function IndexFrom<A, B>(item: A, list: seq<B>, eq: (A, B) -> bool, j: nat): (r: int)
    requires j <= |list|
    requires forall k :: 0 <= k < j ==> !eq(item, list[k])
    ensures r == -1 || j <= r < |list|
    ensures r >= 0 ==> eq(item, list[r]) && forall k :: 0 <= k < r ==> !eq(item, list[k])
    ensures r == -1 <==> forall k :: 0 <= k < |list| ==> !eq(item, list[k])
    decreases |list| - j
  {
    if j == |list| then -1
    else if eq(item, list[j]) then j
    else IndexFrom(item, list, eq, j + 1)
  }

  /** List<T>.RemoveAt. */
  function RemoveAt<T>(list: seq<T>, pos: nat): (r: seq<T>)
    requires pos < |list|
    ensures |r| == |list| - 1
    ensures forall k :: 0 <= k < pos ==> r[k] == list[k]
    ensures forall k :: pos <= k < |r| ==> r[k] == list[k + 1]
  {
    list[..pos] + list[pos + 1..]
  }

  lemma RemoveAtMultiset<T>(list: seq<T>, pos: nat)
    requires pos < |list|
    ensures multiset(RemoveAt(list, pos)) == multiset(list) - multiset{list[pos]}
  {
    assert list == list[..pos] + [list[pos]] + list[pos + 1..];
  }

  /** Where greedy consumption stops: at the first item nothing remaining
      matches, or with the part of the pool no item consumed. */
  datatype Greedy<B> = Unmatched(index: nat) | Consumed(rest: seq<B>)

  /** Items from `i` on, each in order, remove the first remaining pool element
      `eq` pairs them with. */
  function Consume<A, B>(items: seq<A>, i: nat, pool: seq<B>, eq: (A, B) -> bool): (r: Greedy<B>)
    requires i <= |items|
    ensures r.Unmatched? ==> i <= r.index < |items|
    ensures r.Consumed? ==> |r.rest| + (|items| - i) == |pool|
    decreases |items| - i
  {
    if i == |items| then Consumed(pool)
    else
      var pos := IndexOf(items[i], pool, eq);
      if pos < 0 then Unmatched(i)
      else Consume(items, i + 1, RemoveAt(pool, pos), eq)
  }

  /** The pool greedy consumption from item `i` holds when it reaches item `j`
      (the pool where it stopped, if it stopped earlier). */
  function PoolAt<A, B>(items: seq<A>, i: nat, pool: seq<B>, eq: (A, B) -> bool, j: nat): seq<B>
    requires i <= j <= |items|
    decreases j - i
  {
    if i == j then pool
    else
      var pos := IndexOf(items[i], pool, eq);
      if pos < 0 then pool
      else PoolAt(items, i + 1, RemoveAt(pool, pos), eq, j)
  }

  /** Greedy consumption stops at item `j` exactly because nothing left in the
      pool at that point pairs with it, after every earlier item found a
      partner. */
  lemma {:induction false} ConsumeStopsWithoutPartner<A, B>(items: seq<A>, i: nat, pool: seq<B>, eq: (A, B) -> bool, j: nat)
    requires i <= |items|
    requires Consume(items, i, pool, eq) == Unmatched(j)
    ensures i <= j < |items|
    ensures forall x :: x in PoolAt(items, i, pool, eq, j) ==> !eq(items[j], x)
    ensures forall k :: i <= k < j ==> IndexOf(items[k], PoolAt(items, i, pool, eq, k), eq) >= 0
    decreases |items| - i
  {
    var pos := IndexOf(items[i], pool, eq);
    if pos >= 0 {
      var pool' := RemoveAt(pool, pos);
      assert Consume(items, i + 1, pool', eq) == Unmatched(j);
      ConsumeStopsWithoutPartner(items, i + 1, pool', eq, j);
      PoolAtStep(items, i, pool, eq, j);
      forall k | i < k < j
        ensures IndexOf(items[k], PoolAt(items, i, pool, eq, k), eq) >= 0
      {
        PoolAtStep(items, i, pool, eq, k);
      }
    }
  }

  /** Past item i, the pool is the one left after item i took its partner. */
  lemma PoolAtStep<A, B>(items: seq<A>, i: nat, pool: seq<B>, eq: (A, B) -> bool, k: nat)
    requires i < k <= |items| && IndexOf(items[i], pool, eq) >= 0
    ensures PoolAt(items, i, pool, eq, k) == PoolAt(items, i + 1, RemoveAt(pool, IndexOf(items[i], pool, eq)), eq, k)
  {
  }

  /** The pool elements greedy consumption pairs with items i.. in turn. */
  function Partners<A, B>(items: seq<A>, i: nat, pool: seq<B>, eq: (A, B) -> bool): seq<B>
    requires i <= |items|
    decreases |items| - i
  {
    if i == |items| then []
    else
      var pos := IndexOf(items[i], pool, eq);
      if pos < 0 then []
      else [pool[pos]] + Partners(items, i + 1, RemoveAt(pool, pos), eq)
  }

  /** Greedy consumption is sound for any pairing relation: when it succeeds,
      the partners it chose pair with the items position by position and
      together with what is left over they are exactly the pool. */
  lemma ConsumeSound<A, B>(items: seq<A>, i: nat, pool: seq<B>, eq: (A, B) -> bool)
    requires i <= |items|
    requires Consume(items, i, pool, eq).Consumed?
    ensures |Partners(items, i, pool, eq)| == |items| - i
    ensures forall k :: 0 <= k < |Partners(items, i, pool, eq)| ==> eq(items[i + k], Partners(items, i, pool, eq)[k])
    ensures multiset(Partners(items, i, pool, eq)) + multiset(Consume(items, i, pool, eq).rest) == multiset(pool)
  {
    PartnersPair(items, i, pool, eq);
    PartnersKeep(items, i, pool, eq);
  }

  lemma {:induction false} PartnersPair<A, B>(items: seq<A>, i: nat, pool: seq<B>, eq: (A, B) -> bool)
    requires i <= |items|
    requires Consume(items, i, pool, eq).Consumed?
    ensures |Partners(items, i, pool, eq)| == |items| - i
    ensures forall k :: 0 <= k < |Partners(items, i, pool, eq)| ==> eq(items[i + k], Partners(items, i, pool, eq)[k])
    decreases |items| - i
  {
    if i < |items| {
      var pos := IndexOf(items[i], pool, eq);
      var pool' := RemoveAt(pool, pos);
      var m := Partners(items, i, pool, eq);
      var m' := Partners(items, i + 1, pool', eq);
      assert m == [pool[pos]] + m';
      PartnersPair(items, i + 1, pool', eq);
      forall k | 0 <= k < |m|
        ensures eq(items[i + k], m[k])
      {
        if k > 0 {
          assert m[k] == m'[k - 1];
          assert items[i + k] == items[(i + 1) + (k - 1)];
        }
      }
    }
  }

  lemma {:induction false} PartnersKeep<A, B>(items: seq<A>, i: nat, pool: seq<B>, eq: (A, B) -> bool)
    requires i <= |items|
    requires Consume(items, i, pool, eq).Consumed?
    ensures multiset(Partners(items, i, pool, eq)) + multiset(Consume(items, i, pool, eq).rest) == multiset(pool)
    decreases |items| - i
  {
    if i < |items| {
      var pos := IndexOf(items[i], pool, eq);
      var pool' := RemoveAt(pool, pos);
      var m' := Partners(items, i + 1, pool', eq);
      var rest := Consume(items, i + 1, pool', eq).rest;
      assert Partners(items, i, pool, eq) == [pool[pos]] + m';
      assert Consume(items, i, pool, eq).rest == rest;
      PartnersKeep(items, i + 1, pool', eq);
      RemoveAtMultiset(pool, pos);
      PutBack(pool[pos], pool, pool', m', rest);
    }
  }

  /** Returning the element a step consumed restores the step's pool. */
  lemma PutBack<B>(x: B, pool: seq<B>, pool': seq<B>, m': seq<B>, rest: seq<B>)
    requires x in multiset(pool)
    requires multiset(pool') == multiset(pool) - multiset{x}
    requires multiset(m') + multiset(rest) == multiset(pool')
    ensures multiset([x] + m') + multiset(rest) == multiset(pool)
  {
    assert multiset([x] + m') == multiset{x} + multiset(m');
    assert multiset(pool') + multiset{x} == multiset(pool);
    calc {
      multiset([x] + m') + multiset(rest);
      multiset{x} + (multiset(m') + multiset(rest));
      multiset{x} + multiset(pool');
    }
  }

  /** Greedy is not complete for an arbitrary relation: with `a <= b` it pairs
      1 with 2 and then finds nothing for 2, although 1->1, 2->2 pairs all. */
  lemma ConsumeIncomplete()
    ensures Consume([1, 2], 0, [2, 1], (a: int, b: int) => a <= b) == Unmatched(1)
    ensures Consume([1, 2], 0, [1, 2], (a: int, b: int) => a <= b).Consumed?
  {
    var le := (a: int, b: int) => a <= b;
    assert IndexOf(1, [2, 1], le) == 0;
    assert RemoveAt([2, 1], 0) == [1];
    assert IndexOf(2, [1], le) == -1;
    assert IndexOf(1, [1, 2], le) == 0;
    assert RemoveAt([1, 2], 0) == [2];
    assert IndexOf(2, [2], le) == 0;
    assert RemoveAt([2], 0) == [];
  }

  /** `eq` is plain equality. */
  ghost predicate IsEquality<T(!new)>(eq: (T, T) -> bool)
  {
    forall x, y :: eq(x, y) <==> x == y
  }

  /** Under equality, greedy consumption succeeds exactly when the items are a
      sub-multiset of the pool, and leaves the multiset difference. */
  lemma {:induction false} ConsumeEqualityIsInclusion<T(!new)>(items: seq<T>, i: nat, pool: seq<T>, eq: (T, T) -> bool)
    requires i <= |items|
    requires IsEquality(eq)
    ensures Consume(items, i, pool, eq).Consumed? <==> multiset(items[i..]) <= multiset(pool)
    ensures Consume(items, i, pool, eq).Consumed? ==>
              multiset(Consume(items, i, pool, eq).rest) == multiset(pool) - multiset(items[i..])
    decreases |items| - i
  {
    if i < |items| {
      var x := items[i];
      assert items[i..] == [x] + items[i + 1..];
      var pos := IndexOf(x, pool, eq);
      if pos < 0 {
        IndexOfEquality(x, pool, eq);
      } else {
        var pool' := RemoveAt(pool, pos);
        RemoveAtMultiset(pool, pos);
        IndexOfEquality(x, pool, eq);
        ConsumeEqualityIsInclusion(items, i + 1, pool', eq);
      }
    }
  }

  /** Under equality, consumption fails at the first item whose prefix is no
      longer a sub-multiset of the pool. */
  lemma {:induction false} ConsumeEqualityFailsAtFirstExcess<T(!new)>(items: seq<T>, i: nat, pool: seq<T>, eq: (T, T) -> bool, j: nat)
    requires i <= j < |items|
    requires IsEquality(eq)
    requires Consume(items, i, pool, eq) == Unmatched(j)
    ensures multiset(items[i..j]) <= multiset(pool)
    ensures !(multiset(items[i..j + 1]) <= multiset(pool))
    decreases |items| - i
  {
    var x := items[i];
    var pos := IndexOf(x, pool, eq);
    if pos < 0 {
      assert j == i;
      assert x !in multiset(pool) by { IndexOfEquality(x, pool, eq); }
      ExcessHere(items, i, pool);
    } else {
      var pool' := RemoveAt(pool, pos);
      ConsumeEqualityFailsAtFirstExcess(items, i + 1, pool', eq, j);
      assert pool[pos] == x by { IndexOfEquality(x, pool, eq); }
      ExcessStep(items, i, j, pool, pos);
    }
  }

  /** An item with no copy left in the pool is itself the first excess. */
  lemma ExcessHere<T>(items: seq<T>, i: nat, pool: seq<T>)
    requires i < |items|
    requires items[i] !in multiset(pool)
    ensures multiset(items[i..i]) <= multiset(pool) && !(multiset(items[i..i + 1]) <= multiset(pool))
  {
    assert items[i..i + 1] == [items[i]];
  }

  lemma ExcessStep<T>(items: seq<T>, i: nat, j: nat, pool: seq<T>, pos: nat)
    requires i < j < |items|
    requires pos < |pool| && pool[pos] == items[i]
    requires multiset(items[i + 1..j]) <= multiset(RemoveAt(pool, pos))
    requires !(multiset(items[i + 1..j + 1]) <= multiset(RemoveAt(pool, pos)))
    ensures multiset(items[i..j]) <= multiset(pool) && !(multiset(items[i..j + 1]) <= multiset(pool))
  {
    var pool' := RemoveAt(pool, pos);
    RemoveAtMultiset(pool, pos);
    assert multiset(items[i..j]) <= multiset(pool) by { PrefixStep(items, i, j, pool, pool'); }
    assert !(multiset(items[i..j + 1]) <= multiset(pool)) by { PrefixStep(items, i, j + 1, pool, pool'); }
  }

  /** Putting back one consumed copy of items[i] relates the prefix from i to
      the one from i + 1. */
  lemma PrefixStep<T>(items: seq<T>, i: nat, j: nat, pool: seq<T>, pool': seq<T>)
    requires i < j <= |items|
    requires items[i] in multiset(pool)
    requires multiset(pool') == multiset(pool) - multiset{items[i]}
    ensures multiset(items[i..j]) <= multiset(pool) <==> multiset(items[i + 1..j]) <= multiset(pool')
  {
    assert items[i..j] == [items[i]] + items[i + 1..j];
  }

  lemma IndexOfEquality<T(!new)>(x: T, pool: seq<T>, eq: (T, T) -> bool)
    requires IsEquality(eq)
    ensures IndexOf(x, pool, eq) == -1 <==> x !in multiset(pool)
    ensures IndexOf(x, pool, eq) >= 0 ==> pool[IndexOf(x, pool, eq)] == x
  {
  }
}

=== FILE: stats.dfy ===
/** The runner's bookkeeping: the Stats counters, the stack of Stats that
    StartTest pushes and EndTest pops and merges, the events the results writer
    receives, and the user code the runner calls. A stretch of the run is an
    Effect: the stack after it, and the events and calls it produced. */
module StatsStack {
  import opened Values

  /** Errors, Warnings, Passed and Elapsed (milliseconds) of one Stats. */
  datatype Counts = Counts(errors: nat, warnings: nat, passed: nat, elapsed: nat) {
    function Plus(other: Counts): Counts
    {
      Counts(errors + other.errors, warnings + other.warnings, passed + other.passed, elapsed + other.elapsed)
    }
  }

  function Zero(): Counts
  {
    Counts(0, 0, 0, 0)
  }

  lemma PlusLaws(a: Counts, b: Counts, c: Counts)
    ensures a.Plus(Zero()) == a && Zero().Plus(a) == a
    ensures a.Plus(b) == b.Plus(a)
    ensures a.Plus(b).Plus(c) == a.Plus(b.Plus(c))
  {
  }

  /** What a Stats is about. A Type object and a MethodInfo are identified by
      their positions in the assembly's type list and the type's method list. */
  datatype Target =
    | Root
    | AssemblyTarget
    | FixtureTarget(typeIndex: nat)
    | TestTarget(typeIndex: nat, methodIndex: nat)

  datatype Stats = Stats(target: Target, counts: Counts) {
    /** Stats.Add: every counter grows by the other's; the target stays. */
    function Add(other: Stats): (r: Stats)
      ensures r.target == target
      ensures r.counts == counts.Plus(other.counts)
    {
      Stats(target, Counts(counts.errors + other.counts.errors, counts.warnings + other.counts.warnings,
                           counts.passed + other.counts.passed, counts.elapsed + other.counts.elapsed))
    }
  }

  /** Merging Stats one after another: the order does not matter, the
      totals are the sums, and merging an empty Stats changes nothing. */
  lemma AddOrderFree(s: Stats, a: Stats, b: Stats)
    ensures s.Add(a).Add(b) == s.Add(b).Add(a)
    ensures s.Add(a).Add(b).counts == s.counts.Plus(a.counts.Plus(b.counts))
    ensures s.Add(Stats(a.target, Zero())) == s
  {
    PlusLaws(s.counts, a.counts, b.counts);
  }

  /** Calls on the results writer: StartTest, WriteException, WriteWarning, EndTest. */
  datatype Event =
    | Start(target: Target, args: Option<Tuple>)
    | Exception(exn: Exn)
    | Warning(notice: Notice)
    | End(stats: Stats)

  /** What a warning is about; the writer renders it as text. The runner's
      only warning is a test tuple whose length is not the method's
      parameter count. */
  datatype Notice = ArityMismatch(expected: nat, found: nat)

  /** User code the runner runs: a constructor, a setup/teardown hook, a test body. */
  datatype Invocation =
    | Construct(typeIndex: nat, args: Tuple)
    | Hook(typeIndex: nat, methodIndex: nat)
    | Body(typeIndex: nat, methodIndex: nat, args: Tuple)

  /** Runner._statsStack: the frames below the top, bottom first, and the top,
      which Runner.Stats returns. */
  datatype Runner = Runner(below: seq<Stats>, top: Stats)

  /** What a stretch of the run did: the stack after it, and the writer events
      and invocations it produced, in order. */
  datatype Effect = Effect(after: Runner, events: seq<Event>, calls: seq<Invocation>)

  /** A stretch that does nothing. */
  function Quiet(r: Runner): Effect
  {
    Effect(r, [], [])
  }

  /** One stretch and then another that starts where the first ended. */
  function Then(first: Effect, second: Effect): Effect
  {
    Effect(second.after, first.events + second.events, first.calls + second.calls)
  }

  /** Runner.StartTest: pushes a fresh Stats for the target and tells the writer. */
  function StartTest(r: Runner, target: Target, args: Option<Tuple>): Effect
  {
    Effect(Runner(r.below + [r.top], Stats(target, Zero())), [Start(target, args)], [])
  }

  /** Runner.EndTest: pops the top Stats, adds it into the new top and tells
      the writer. */
  function EndTest(r: Runner): Effect
    requires |r.below| >= 1
  {
    var n := |r.below|;
    Effect(Runner(r.below[..n - 1], r.below[n - 1].Add(r.top)), [End(r.top)], [])
  }

  /** WriteException followed by Stats.Errors++. */
  function ReportError(r: Runner, x: Exn): Effect
  {
    Effect(r.(top := r.top.(counts := r.top.counts.(errors := r.top.counts.errors + 1))), [Exception(x)], [])
  }

  /** WriteWarning followed by Stats.Warnings++. */
  function ReportWarning(r: Runner, notice: Notice): Effect
  {
    Effect(r.(top := r.top.(counts := r.top.counts.(warnings := r.top.counts.warnings + 1))), [Warning(notice)], [])
  }

  /** Stats.Passed++. */
  function AddPassed(r: Runner): Runner
  {
    r.(top := r.top.(counts := r.top.counts.(passed := r.top.counts.passed + 1)))
  }

  /** Stats.Elapsed = the stopwatch reading. */
  function SetElapsed(r: Runner, millis: nat): Runner
  {
    r.(top := r.top.(counts := r.top.counts.(elapsed := millis)))
  }

  /** User code runs; the stack does not change. */
  function Record(r: Runner, cs: seq<Invocation>): Effect
  {
    Effect(r, [], cs)
  }

  /** StartTest, a stretch run on the pushed frame, and EndTest. */
  function Enclose(r: Runner, target: Target, args: Option<Tuple>, inner: Effect): (e: Effect)
    requires inner.after.below == r.below + [r.top]
    ensures Framed(r, e)
  {
    assert (r.below + [r.top])[..|r.below|] == r.below;
    var end := EndTest(inner.after);
    Effect(end.after, [Start(target, args)] + inner.events + end.events, inner.calls)
  }

  // ---------------------------------------------------------------------
  // What the writer saw
  // ---------------------------------------------------------------------

  /** The counters an event accounts for: one error per exception written,
      one warning per warning written, and a finished test's Passed and
      Elapsed, which no other event reports. */
  function EventCounts(e: Event): Counts
  {
    match e
    case Exception(_) => Counts(1, 0, 0, 0)
    case Warning(_) => Counts(0, 1, 0, 0)
    case End(s) => if s.target.TestTarget? then Counts(0, 0, s.counts.passed, s.counts.elapsed) else Zero()
    case Start(_, _) => Zero()
  }

  function Reported(events: seq<Event>): Counts
  {
    if |events| == 0 then Zero() else EventCounts(events[0]).Plus(Reported(events[1..]))
  }

  function FixtureStartOf(e: Event): seq<(nat, Tuple)>
  {
    if e.Start? && e.target.FixtureTarget? && e.args.Some? then [(e.target.typeIndex, e.args.value)] else []
  }

  function TestStartOf(e: Event): seq<(nat, nat, Tuple)>
  {
    if e.Start? && e.target.TestTarget? && e.args.Some? then [(e.target.typeIndex, e.target.methodIndex, e.args.value)] else []
  }

  /** The fixture instances started, in order: type position and constructor arguments. */
  function FixtureStarts(events: seq<Event>): seq<(nat, Tuple)>
  {
    if |events| == 0 then [] else FixtureStartOf(events[0]) + FixtureStarts(events[1..])
  }

  /** The tests started, in order: type and method positions and arguments. */
  function TestStarts(events: seq<Event>): seq<(nat, nat, Tuple)>
  {
    if |events| == 0 then [] else TestStartOf(events[0]) + TestStarts(events[1..])
  }

  lemma {:induction false} ReportedAppend(a: seq<Event>, b: seq<Event>)
    ensures Reported(a + b) == Reported(a).Plus(Reported(b))
    decreases |a|
  {
    if |a| == 0 {
      assert a + b == b;
      ReportedNone(a);
      PlusLaws(Reported(b), Zero(), Zero());
    } else {
      assert (a + b)[0] == a[0];
      assert (a + b)[1..] == a[1..] + b;
      ReportedFirst(a);
      ReportedFirst(a + b);
      ReportedAppend(a[1..], b);
      PlusLaws(EventCounts(a[0]), Reported(a[1..]), Reported(b));
    }
  }

  lemma {:induction false} FixtureStartsAppend(a: seq<Event>, b: seq<Event>)
    ensures FixtureStarts(a + b) == FixtureStarts(a) + FixtureStarts(b)
    decreases |a|
  {
    if |a| == 0 {
      assert a + b == b;
    } else {
      assert (a + b)[0] == a[0];
      assert (a + b)[1..] == a[1..] + b;
      FixtureStartsAppend(a[1..], b);
    }
  }

  lemma {:induction false} TestStartsAppend(a: seq<Event>, b: seq<Event>)
    ensures TestStarts(a + b) == TestStarts(a) + TestStarts(b)
    decreases |a|
  {
    if |a| == 0 {
      assert a + b == b;
    } else {
      assert (a + b)[0] == a[0];
      assert (a + b)[1..] == a[1..] + b;
      TestStartsAppend(a[1..], b);
    }
  }

  lemma ProjectionsAppend(a: seq<Event>, b: seq<Event>)
    ensures Reported(a + b) == Reported(a).Plus(Reported(b))
    ensures FixtureStarts(a + b) == FixtureStarts(a) + FixtureStarts(b)
    ensures TestStarts(a + b) == TestStarts(a) + TestStarts(b)
  {
    ReportedAppend(a, b);
    FixtureStartsAppend(a, b);
    TestStartsAppend(a, b);
  }

  lemma ReportedOne(e: Event)
    ensures Reported([e]) == EventCounts(e)
  {
    ReportedFirst([e]);
    ReportedNone([e][1..]);
    PlusLaws(EventCounts(e), Zero(), Zero());
  }

  lemma ReportedNone(events: seq<Event>)
    requires |events| == 0
    ensures Reported(events) == Zero()
  {
  }

  lemma ReportedFirst(events: seq<Event>)
    requires |events| > 0
    ensures Reported(events) == EventCounts(events[0]).Plus(Reported(events[1..]))
  {
  }

  lemma FixtureStartsOne(e: Event)
    ensures FixtureStarts([e]) == FixtureStartOf(e)
  {
    assert FixtureStarts([e]) == FixtureStartOf(e) + FixtureStarts([e][1..]);
  }

  lemma TestStartsOne(e: Event)
    ensures TestStarts([e]) == TestStartOf(e)
  {
    assert TestStarts([e]) == TestStartOf(e) + TestStarts([e][1..]);
  }

  lemma ProjectionsOne(e: Event)
    ensures Reported([e]) == EventCounts(e)
    ensures FixtureStarts([e]) == FixtureStartOf(e)
    ensures TestStarts([e]) == TestStartOf(e)
  {
    ReportedOne(e);
    FixtureStartsOne(e);
    TestStartsOne(e);
  }

  // ---------------------------------------------------------------------
  // Balanced stretches
  // ---------------------------------------------------------------------

  /** The stretch leaves the stack as deep as it found it, with the frames
      below the top and the top's target untouched. */
  predicate Framed(r: Runner, e: Effect)
  {
    e.after.below == r.below && e.after.top.target == r.top.target
  }

  /** A framed stretch that grows the top's counters by exactly what its
      events report. */
  predicate Balanced(r: Runner, e: Effect)
  {
    Framed(r, e) && e.after.top.counts == r.top.counts.Plus(Reported(e.events))
  }

  lemma QuietBalanced(r: Runner)
    ensures Balanced(r, Quiet(r))
    ensures Reported([]) == Zero()
  {
  }

  lemma QuietStarts()
    ensures FixtureStarts([]) == [] && TestStarts([]) == []
  {
  }

  /** Two balanced stretches make one. */
  lemma ChainBalanced(r: Runner, first: Effect, second: Effect)
    requires Balanced(r, first) && Balanced(first.after, second)
    ensures Balanced(r, Then(first, second))
    ensures Reported(Then(first, second).events) == Reported(first.events).Plus(Reported(second.events))
  {
    ReportedAppend(first.events, second.events);
    PlusLaws(r.top.counts, Reported(first.events), Reported(second.events));
  }

  /** The starts of two stretches in turn are the first's, then the second's. */
  lemma ChainStarts(first: Effect, second: Effect)
    ensures FixtureStarts(Then(first, second).events) == FixtureStarts(first.events) + FixtureStarts(second.events)
    ensures TestStarts(Then(first, second).events) == TestStarts(first.events) + TestStarts(second.events)
  {
    FixtureStartsAppend(first.events, second.events);
    TestStartsAppend(first.events, second.events);
  }

  lemma ReportErrorBalanced(r: Runner, x: Exn)
    ensures Balanced(r, ReportError(r, x))
    ensures ReportError(r, x).events == Exceptions([x]) && ReportError(r, x).calls == []
    ensures Reported(ReportError(r, x).events) == Counts(1, 0, 0, 0)
  {
    ReportedOne(Exception(x));
    ExceptionsOne(x);
  }

  lemma ReportErrorStarts(r: Runner, x: Exn)
    ensures FixtureStarts(ReportError(r, x).events) == [] && TestStarts(ReportError(r, x).events) == []
  {
    FixtureStartsOne(Exception(x));
    TestStartsOne(Exception(x));
  }

  lemma ReportWarningBalanced(r: Runner, notice: Notice)
    ensures Balanced(r, ReportWarning(r, notice))
    ensures Reported(ReportWarning(r, notice).events) == Counts(0, 1, 0, 0)
  {
    ReportedOne(Warning(notice));
  }

  lemma ReportWarningStarts(r: Runner, notice: Notice)
    ensures FixtureStarts(ReportWarning(r, notice).events) == [] && TestStarts(ReportWarning(r, notice).events) == []
  {
    FixtureStartsOne(Warning(notice));
    TestStartsOne(Warning(notice));
  }

  lemma RecordBalanced(r: Runner, cs: seq<Invocation>)
    ensures Balanced(r, Record(r, cs))
    ensures Reported(Record(r, cs).events) == Zero()
  {
  }

  /** StartTest and EndTest around a balanced stretch, for a target that is
      not a test: the parent's counters grow by exactly the child's, which
      are what the events in between report, since the two bracket events
      report nothing. */
  lemma Bracket(r: Runner, target: Target, args: Option<Tuple>, inner: Effect)
    requires !target.TestTarget?
    requires Balanced(StartTest(r, target, args).after, inner)
    ensures Balanced(r, Enclose(r, target, args, inner))
    ensures Reported(Enclose(r, target, args, inner).events) == Reported(inner.events)
  {
    var child := inner.after.top;
    assert child.counts == Reported(inner.events) by {
      PlusLaws(Reported(inner.events), Zero(), Zero());
    }
    BracketReported(Start(target, args), inner.events, End(child));
  }

  /** A fixture's StartTest is the only start the bracket adds. */
  lemma BracketStarts(r: Runner, target: Target, args: Option<Tuple>, inner: Effect)
    requires !target.TestTarget?
    requires Framed(StartTest(r, target, args).after, inner)
    ensures FixtureStarts(Enclose(r, target, args, inner).events)
              == FixtureStartOf(Start(target, args)) + FixtureStarts(inner.events)
    ensures TestStarts(Enclose(r, target, args, inner).events) == TestStarts(inner.events)
  {
    var last := End(inner.after.top);
    BracketFixtureStarts(Start(target, args), inner.events, last);
    BracketTestStarts(Start(target, args), inner.events, last);
  }

  lemma BracketReported(first: Event, mid: seq<Event>, last: Event)
    requires first.Start? && last.End? && !last.stats.target.TestTarget?
    ensures Reported([first] + mid + [last]) == Reported(mid)
  {
    SilentEvent(first);
    SilentEvent(last);
    SilentAround(first, mid, last);
  }

  /** StartTest, and EndTest of anything but a test, account for no counters. */
  lemma SilentEvent(e: Event)
    requires e.Start? || (e.End? && !e.stats.target.TestTarget?)
    ensures EventCounts(e) == Zero()
  {
  }

  lemma SilentAround(first: Event, mid: seq<Event>, last: Event)
    requires EventCounts(first) == Zero() && EventCounts(last) == Zero()
    ensures Reported([first] + mid + [last]) == Reported(mid)
  {
    ReportedAppend([first] + mid, [last]);
    ReportedAppend([first], mid);
    ReportedOne(first);
    ReportedOne(last);
    PlusLaws(Reported(mid), Zero(), Zero());
  }

  lemma BracketFixtureStarts(first: Event, mid: seq<Event>, last: Event)
    requires last.End?
    ensures FixtureStarts([first] + mid + [last]) == FixtureStartOf(first) + FixtureStarts(mid)
  {
    FixtureStartsAppend([first] + mid, [last]);
    FixtureStartsAppend([first], mid);
    FixtureStartsOne(first);
    FixtureStartsOne(last);
  }

  lemma BracketTestStarts(first: Event, mid: seq<Event>, last: Event)
    requires first.Start? && !first.target.TestTarget? && last.End?
    ensures TestStarts([first] + mid + [last]) == TestStarts(mid)
  {
    TestStartsAppend([first] + mid, [last]);
    TestStartsAppend([first], mid);
    TestStartsOne(first);
    TestStartsOne(last);
  }

  /** An enclosed stretch starts with its StartTest event and ends with its
      EndTest event, which carries the child's Stats. */
  lemma EncloseEnds(r: Runner, target: Target, args: Option<Tuple>, inner: Effect)
    requires inner.after.below == r.below + [r.top]
    ensures var events := Enclose(r, target, args, inner).events;
            |events| >= 2 && events[0] == Start(target, args) && events[|events| - 1] == End(inner.after.top)
  {
    var events := [Start(target, args)] + inner.events + [End(inner.after.top)];
    assert Enclose(r, target, args, inner).events == events;
    assert events[|events| - 1] == End(inner.after.top);
  }

  // ---------------------------------------------------------------------
  // Test frames
  // ---------------------------------------------------------------------

  /** The writer events of exceptions reported in turn. */
  function Exceptions(xs: seq<Exn>): seq<Event>
  {
    if |xs| == 0 then [] else [Exception(xs[0])] + Exceptions(xs[1..])
  }

  lemma ExceptionsNone()
    ensures Exceptions([]) == []
  {
  }

  lemma ExceptionsOne(x: Exn)
    ensures Exceptions([x]) == [Exception(x)]
  {
    assert Exceptions([x]) == [Exception(x)] + Exceptions([x][1..]);
  }

  lemma {:induction false} ExceptionsAppend(a: seq<Exn>, b: seq<Exn>)
    ensures Exceptions(a + b) == Exceptions(a) + Exceptions(b)
    decreases |a|
  {
    if |a| == 0 {
      assert a + b == b;
    } else {
      assert (a + b)[1..] == a[1..] + b;
      ExceptionsAppend(a[1..], b);
    }
  }

  /** Each exception reported is one error. */
  lemma {:induction false} ExceptionsReport(xs: seq<Exn>)
    ensures Reported(Exceptions(xs)) == Counts(|xs|, 0, 0, 0)
    decreases |xs|
  {
    if |xs| == 0 {
      ReportedNone(Exceptions(xs));
    } else {
      ExceptionsFirst(xs);
      ReportedFirst(Exceptions(xs));
      ExceptionsReport(xs[1..]);
    }
  }

  lemma ExceptionsFirst(xs: seq<Exn>)
    requires |xs| > 0
    ensures |Exceptions(xs)| > 0 && Exceptions(xs)[0] == Exception(xs[0])
    ensures Exceptions(xs)[1..] == Exceptions(xs[1..])
  {
    assert Exceptions(xs) == [Exception(xs[0])] + Exceptions(xs[1..]);
  }

  /** Reporting exceptions starts nothing. */
  lemma {:induction false} ExceptionsStartNothing(xs: seq<Exn>)
    ensures FixtureStarts(Exceptions(xs)) == [] && TestStarts(Exceptions(xs)) == []
    decreases |xs|
  {
    if |xs| > 0 {
      ExceptionsFirst(xs);
      ExceptionsStartNothing(xs[1..]);
    }
  }

  /** StartTest and EndTest around a test: the events in between are the
      exceptions reported, which are its errors; its Passed and Elapsed reach
      the writer in the EndTest event; the parent grows by all of it. */
  lemma TestBracket(r: Runner, target: Target, args: Tuple, inner: Effect, xs: seq<Exn>, passed: nat, millis: nat)
    requires target.TestTarget?
    requires Framed(StartTest(r, target, Some(args)).after, inner)
    requires inner.events == Exceptions(xs)
    requires inner.after.top.counts == Counts(|xs|, 0, passed, millis)
    ensures Balanced(r, Enclose(r, target, Some(args), inner))
    ensures Reported(Enclose(r, target, Some(args), inner).events) == Counts(|xs|, 0, passed, millis)
  {
    ExceptionsReport(xs);
    TestEventsCount(target, args, inner.events, inner.after.top);
  }

  /** A test's frame starts the test and no fixture. */
  lemma TestBracketStarts(r: Runner, target: Target, args: Tuple, inner: Effect, xs: seq<Exn>)
    requires target.TestTarget?
    requires Framed(StartTest(r, target, Some(args)).after, inner)
    requires inner.events == Exceptions(xs)
    ensures FixtureStarts(Enclose(r, target, Some(args), inner).events) == []
    ensures TestStarts(Enclose(r, target, Some(args), inner).events) == [(target.typeIndex, target.methodIndex, args)]
  {
    ExceptionsStartNothing(xs);
    TestEventsStart(target, args, inner.events, inner.after.top);
  }

  /** What a test's events report: its own Stats. */
  lemma TestEventsCount(target: Target, args: Tuple, mid: seq<Event>, s: Stats)
    requires target.TestTarget? && s.target == target
    requires Reported(mid) == Counts(s.counts.errors, 0, 0, 0) && s.counts.warnings == 0
    ensures Reported([Start(target, Some(args))] + mid + [End(s)]) == s.counts
  {
    TestEventsReported(Start(target, Some(args)), mid, End(s));
    TestFrameCounts(target, args, s, Reported(mid));
  }

  /** The starts among a test's events: the test itself, and no fixture. */
  lemma TestEventsStart(target: Target, args: Tuple, mid: seq<Event>, s: Stats)
    requires target.TestTarget?
    requires FixtureStarts(mid) == [] && TestStarts(mid) == []
    ensures FixtureStarts([Start(target, Some(args))] + mid + [End(s)]) == []
    ensures TestStarts([Start(target, Some(args))] + mid + [End(s)]) == [(target.typeIndex, target.methodIndex, args)]
  {
    TestEventsStarts(Start(target, Some(args)), mid, End(s));
  }

  /** A test's Start reports nothing and its End reports Passed and Elapsed,
      so with the errors in between they make up the test's own Stats. */
  lemma TestFrameCounts(target: Target, args: Tuple, s: Stats, c: Counts)
    requires target.TestTarget? && s.target == target
    requires c == Counts(s.counts.errors, 0, 0, 0) && s.counts.warnings == 0
    ensures EventCounts(Start(target, Some(args))).Plus(c).Plus(EventCounts(End(s))) == s.counts
  {
  }

  lemma TestEventsReported(first: Event, mid: seq<Event>, last: Event)
    ensures Reported([first] + mid + [last]) == EventCounts(first).Plus(Reported(mid)).Plus(EventCounts(last))
  {
    ReportedAppend([first] + mid, [last]);
    ReportedAppend([first], mid);
    ReportedOne(first);
    ReportedOne(last);
  }

  lemma TestEventsStarts(first: Event, mid: seq<Event>, last: Event)
    ensures FixtureStarts([first] + mid + [last]) == FixtureStartOf(first) + FixtureStarts(mid) + FixtureStartOf(last)
    ensures TestStarts([first] + mid + [last]) == TestStartOf(first) + TestStarts(mid) + TestStartOf(last)
  {
    FixtureStartsAppend([first] + mid, [last]);
    FixtureStartsAppend([first], mid);
    FixtureStartsOne(first);
    FixtureStartsOne(last);
    TestStartsAppend([first] + mid, [last]);
    TestStartsAppend([first], mid);
    TestStartsOne(first);
    TestStartsOne(last);
  }
}

=== FILE: values.dfy ===
/** The .NET objects the framework inspects: the values passed to assertions and
    used as test arguments, exceptions, and the outcome of a call that may raise. */
module Values {

  datatype Option<+T> = None | Some(value: T)

  /** An exception object: the full name of its runtime type and its Message. */
  datatype Exn = Exn(kind: string, message: string)

  /** What a call produces: a value, or an exception that escapes it. */
  datatype Outcome<+T> = Ok(value: T) | Raised(exn: Exn)

  /** The outcome of a call that returns nothing. */
  type Completion = Outcome<()>

  const Normal: Completion := Ok(())

  /** The exception type raised by every failing assertion. */
  const AssertionKind := "FemtoTest.AssertionException"

  function AssertionFailure(message: string): Exn
  {
    Exn(AssertionKind, message)
  }

  /** An assertion that failed with exactly this message. */
  function Fail(message: string): Completion
  {
    Raised(AssertionFailure(message))
  }

  /** A runtime object, as far as the diagnostics can tell objects apart.
      `Int` stands for both System.Int32 and System.Int64; `Dict` for any
      IDictionary; `List` for any other IEnumerable that is not a string;
      `Object` for everything else, with its type name and ToString() text. */
  datatype Value =
    | Null
    | Str(s: string)
    | Int(n: int)
    | Bool(b: bool)
    | Dict(dictKind: string, entries: seq<Entry>)
    | List(listKind: string, items: seq<Value>)
    | Error(exn: Exn)
    | Object(kind: string, text: string)

  datatype Entry = Entry(key: Value, val: Value)

  /** An argument tuple (object[]) for a constructor or a test method. */
  type Tuple = seq<Value>

  // ---------------------------------------------------------------------
  // Decimal text of integers (Int32/Int64.ToString() with the invariant culture)
  // ---------------------------------------------------------------------

  predicate IsDigit(c: char)
  {
    '0' <= c <= '9'
  }

  predicate AllDigits(s: string)
  {
    forall i :: 0 <= i < |s| ==> IsDigit(s[i])
  }

  function DigitChar(d: nat): (c: char)
    requires d < 10
    ensures IsDigit(c) && c as int - '0' as int == d
  {
    (d + '0' as int) as char
  }

  /** The shortest decimal numeral of n. */
  function NatToString(n: nat): (s: string)
    ensures |s| >= 1 && AllDigits(s)
    ensures s[0] == '0' ==> n == 0
    decreases n
  {
    if n < 10 then [DigitChar(n)] else NatToString(n / 10) + [DigitChar(n % 10)]
  }

  function IntToString(n: int): (s: string)
    ensures |s| >= 1
  {
    if n < 0 then "-" + NatToString(-n) else NatToString(n)
  }

  /** Reads a numeral back; the reference the numerals are checked against. */
  function ParseNat(s: string): nat
    requires AllDigits(s)
  {
    if |s| == 0 then 0 else ParseNat(s[..|s| - 1]) * 10 + (s[|s| - 1] as int - '0' as int)
  }

  function ParseInt(s: string): int
    requires |s| >= 1
    requires s[0] == '-' ==> AllDigits(s[1..])
    requires s[0] != '-' ==> AllDigits(s)
  {
    if s[0] == '-' then -(ParseNat(s[1..]) as int) else ParseNat(s) as int
  }

  lemma {:induction false} NatToStringRoundTrip(n: nat)
    ensures ParseNat(NatToString(n)) == n
    decreases n
  {
    if n >= 10 {
      var s := NatToString(n);
      NatToStringRoundTrip(n / 10);
      assert s[..|s| - 1] == NatToString(n / 10);
    }
  }

  /** Printing an integer and reading the text back gives the same integer. */
  lemma IntToStringRoundTrip(n: int)
    ensures var s := IntToString(n);
            (s[0] == '-' <==> n < 0) &&
            (s[0] == '-' ==> AllDigits(s[1..])) &&
            (s[0] != '-' ==> AllDigits(s)) &&
            ParseInt(s) == n
  {
    if n < 0 {
      NatToStringRoundTrip(-n);
      assert IntToString(n)[1..] == NatToString(-n);
    } else {
      NatToStringRoundTrip(n);
    }
  }

  /** The text string.Format("{0}", v) produces: Object.ToString(), and the empty
      string for null. An exception's text omits its stack trace. */
  function Display(v: Value): string
  {
    match v
    case Null => ""
    case Str(s) => s
    case Int(n) => IntToString(n)
    case Bool(b) => if b then "True" else "False"
    case Dict(kind, _) => kind
    case List(kind, _) => kind
    case Error(e) => e.kind + ": " + e.message
    case Object(_, text) => text
  }

  // ---------------------------------------------------------------------
  // Collections as the collection assertions enumerate them
  // ---------------------------------------------------------------------

  /** A value an IEnumerable<T> parameter can hold other than null: a string,
      a dictionary, or any other enumerable. */
  predicate IsCollection(v: Value)
  {
    v.Str? || v.Dict? || v.List?
  }

  const CharKind := "System.Char"
  const PairKind := "System.Collections.Generic.KeyValuePair`2"

  /** A boxed System.Char: its ToString() is the one character. */
  function CharValue(c: char): Value
  {
    Object(CharKind, [c])
  }

  /** A boxed KeyValuePair: its ToString() is `[key, value]`. */
  function PairValue(e: Entry): Value
  {
    Object(PairKind, "[" + Display(e.key) + ", " + Display(e.val) + "]")
  }

  /** The elements `foreach` visits: a string's characters, a dictionary's
      key/value pairs, a list's items, each in order. */
  function Elements(c: Value): (r: seq<Value>)
    requires IsCollection(c)
    ensures c.List? ==> r == c.items
    ensures c.Str? ==> |r| == |c.s| && forall i :: 0 <= i < |r| ==> r[i] == CharValue(c.s[i])
    ensures c.Dict? ==> |r| == |c.entries| && forall i :: 0 <= i < |r| ==> r[i] == PairValue(c.entries[i])
  {
    match c
    case Str(s) => seq(|s|, i requires 0 <= i < |s| => CharValue(s[i]))
    case Dict(_, entries) => seq(|entries|, i requires 0 <= i < |entries| => PairValue(entries[i]))
    case List(_, items) => items
  }
}
